=== FILE: README.md ===
# rice-ssr-controller in Dafny

A Dafny model of the decision logic of a small lab controller. The controller runs a
two-camera recorder, a serial weighing scale, a motor and fan controller on a second
serial line, and a desktop panel that ties these together. A separate camera-tuning
tool keeps per-camera profiles.

Every device is an input to the model: whether a camera opens, the frames it delivers,
whether the encoder opens, the lines the scale sends, and what the user answers in a
dialog. The behaviour around those inputs is stated as pure functions over immutable
data and proved about.

Modules, one per source file plus shared helpers:

- `Wrappers`: `Option` and `Result`.
- `Text`: the ASCII behaviour of Python's `str.strip`, `str.upper`, `str.find`,
  `str(int)`, `{:0Nd}` and `int(str)`.
- `Numeric`: `clamp`, round-half-to-even, `int(float)` and `round(float)`.
- `Geometry`: frames, the ROI clamp and the crop.
- `JsonValue`: decoded JSON values and `int()` applied to them.
- `McuControl` (`mcu_control.py`):
  - motor and fan command formatting and sending;
  - the splitting of inbound serial text into lines.
- `WeightReader` (`weight_reader.py`):
  - reading one line from the scale;
  - the number pattern `([-+]?)\s*(\d+\.?\d*)`, with a direct scanner proved equal to a leftmost-match search.
- `CameraDebug` (`camera_debug.py`):
  - the profile record and its JSON round trip;
  - the preview ROI;
  - the slider back-fill from device readings;
  - the reopen decision.
- `VideoRecorder` (`video_recorder.py`):
  - the per-camera session maps and their start, stop and toggle;
  - output naming and the rate fallback;
  - the capture loop as a method over a sequence of read results, proved equal to a functional specification.
- `Controller` (`main.py`):
  - the panel's buttons and labels;
  - the file-collision dialog;
  - the single- and both-camera toggles;
  - the weight refresh with its automatic stop below -150 g;
  - the speed, direction and fan inputs;
  - the integer key filter.

Where the source's own comments and its code differ, the model follows the code:

- The recorder's class docstring and the `FRAME_EXTRACT_INTERVAL` comment
  (video_recorder.py:21, :24) say frames mode keeps one image in every 150 frames. The
  loop saves an image when the good-frame counter is a multiple of 150 *before* it is
  incremented, so N good frames give ceil(N/150) images, the first of them at frame 1.
- The rollback in `_toggle_both_cameras` (main.py:548-557) is meant to stop the camera
  that started when the other did not. `toggle` raises when a start fails instead of
  returning "not started", so that branch is never reached and the started camera keeps
  recording (see "## Findings").

## Model

| member | source | states |
|---|---|---|
| `Text.LStrip` | weight_reader.py:76 | `lstrip()` is a suffix of its input, starts with no whitespace, and only whitespace is dropped before it |
| `Text.RStrip` | weight_reader.py:76 | `rstrip()` is a prefix of its input, ends with no whitespace, and only whitespace is dropped after it |
| `Text.StripSlice` | weight_reader.py:76 | the stripped text sits in its input after leading whitespace and before trailing whitespace |
| `Text.StripIsTrimmedSlice` | weight_reader.py:76 | `strip()` returns a slice of its input with no whitespace at either end, and only whitespace is removed around it |
| `Text.StripEmptyIffAllSpaces` | main.py:418 | a text is blank after `strip()` exactly when every character is whitespace |
| `Text.StripIdempotent` | main.py:268 | stripping a stripped text changes nothing |
| `Text.Upper` | mcu_control.py:126 | `upper()` keeps the length and upper-cases each ASCII letter in place |
| `Text.NatToStringRoundTrip` | video_recorder.py:280 | the decimal digits printed for a natural number read back as that number |
| `Text.NatToStringInjective` | video_recorder.py:280 | different numbers print differently |
| `Text.NatToStringWidth` | video_recorder.py:251 | a number below 10^w prints in at most w digits |
| `Text.ZeroPadProperties` | video_recorder.py:251 | `{:04d}` gives only digits, at least the requested width, with the number's value |
| `Text.ZeroPadInjective` | video_recorder.py:251 | different counters give different zero-padded texts |
| `Text.ParseDigitGroups` | main.py:211 | digit groups joined by single underscores are accepted, and nothing else |
| `Text.ParseIntRoundTrip` | main.py:211 | `int(str(i)) == i` for every integer |
| `Text.ParsedTextEndsInDigit` | main.py:211 | a stripped text that `int()` accepts ends in a digit |
| `Text.ParseIntAcceptsOnlyNumerals` | main.py:208-215 | every text `int()` accepts holds a digit |
| `Text.IndexOf` | mcu_control.py:113 | the separator occurs at the returned index and nowhere earlier; no result means it occurs nowhere |
| `Numeric.Clamp` | camera_debug.py:58-59 | `clamp` lies in [lo, hi] when lo <= hi, is the identity on in-range values and saturates at either end |
| `Numeric.ClampIdempotent` | camera_debug.py:58-59 | clamping twice is clamping once |
| `Numeric.RoundHalfEvenIsNearest` | mcu_control.py:132 | `round(n/d)` is within half a unit of the quotient and even on an exact tie |
| `Numeric.RoundHalfEvenUnique` | mcu_control.py:132 | any integer with the nearest-even property is the rounded value, so the model agrees with Python's `round` |
| `Numeric.TruncToInt` | camera_debug.py:120 | `int(x)` on a float truncates toward zero |
| `Numeric.RoundReal` | camera_debug.py:133 | `round(x)` is a nearest integer, even on a tie |
| `Geometry.ClampRoi` | video_recorder.py:236-241 | the clamped ROI lies inside a non-empty frame, has no negative part, and an ROI already inside is unchanged |
| `Geometry.ClampRoiIdempotent` | video_recorder.py:238-241 | clamping a clamped ROI changes nothing |
| `Geometry.ClampRoiExample` | video_recorder.py:238-241 | (-5, 0, 10000, 100) on a 640x480 frame becomes (0, 0, 640, 100) |
| `Geometry.Crop` | video_recorder.py:243 | the crop has the ROI's size, starts at the ROI's offset inside the source frame and lies inside it |
| `Geometry.CropOfCrop` | video_recorder.py:243 | cropping a crop is one crop of the original at the summed offsets |
| `Geometry.CropWholeFrame` | video_recorder.py:243 | an ROI covering the whole frame gives the frame back |
| `Geometry.ApplyRoi` | video_recorder.py:229-243 | no ROI or a clamped ROI with a zero side leaves the frame alone; otherwise the frame takes the clamped ROI's size and starts at its offset |
| `JsonValue.IntOf` | camera_debug.py:41 | `int()` on a JSON value: integers pass, strings exactly when `int()` parses them, lists and null raise a type error |
| `JsonValue.IntsOf` | camera_debug.py:45 | `map(int, roi)` succeeds exactly when every item converts, keeping length and order |
| `McuControl.SendText` | mcu_control.py:88-98 | without a port only the simulated-send line is logged; with a port the text is echoed and `text + line_ending` written; a failed write logs the echo and then the write error, and writes nothing |
| `McuControl.SpeedToHardware` | mcu_control.py:131-132 | the hardware value is in [0, 255] and within half a unit of clamped p * 255 / 100 |
| `McuControl.SpeedToHardwareExamples` | mcu_control.py:131-132 | 0 -> 0, 30 -> 76, 50 -> 128, 100 -> 255; -7 -> 0 and 250 -> 255 |
| `McuControl.SpeedToHardwareMonotone` | mcu_control.py:131-132 | a higher percentage never gives a lower hardware value |
| `McuControl.CommandKeys` | mcu_control.py:21-27 | speed keys exist for A, B and F and direction keys for A and B, with prefixes A, B, F, AD, BD |
| `McuControl.SpeedCommandShape` | mcu_control.py:125-133 | a speed command exists exactly for motors A, B and F in any case; it is the prefix and the hardware value, which reads back; otherwise the unknown motor is reported |
| `McuControl.DirectionCommandShape` | mcu_control.py:135-143 | a direction command exists exactly for motors A and B and is `AD`/`BD` followed by the label's code |
| `McuControl.FanCommandShape` | mcu_control.py:145-147 | the fan command is `F` and the clamped percentage, unscaled, which reads back |
| `McuControl.MotorSpeedEffect` | mcu_control.py:88-133 | for motors A, B and F an open port receives the letter, the hardware speed and the line ending; no port logs a simulated send; a failed write logs the error; any other motor is only reported |
| `McuControl.FanSpeedEffect` | mcu_control.py:145-147 | an open port receives `F`, the clamped percentage and the line ending |
| `McuControl.NextSeparator` | mcu_control.py:110-113 | the separator chosen is the first of CR LF, LF, CR in that order that occurs anywhere in the buffer; none exactly when the buffer holds none |
| `McuControl.NoEarlierOccurrence` | mcu_control.py:113 | `split(sep, 1)` cuts at the first occurrence: the part before holds no separator of that kind |
| `McuControl.DrainSplitsExactly` | mcu_control.py:110-117 | the pieces cut and the leftover reassemble the buffer exactly, each cut follows the priority order, and the leftover holds no separator |
| `McuControl.DrainWithoutSeparator` | mcu_control.py:110 | a buffer with no separator is left as it is |
| `McuControl.Lines` | mcu_control.py:114-116 | every line passed on is stripped and non-empty, and there is one line per non-blank piece |
| `McuControl.LinesKeepNonBlankInOrder` | mcu_control.py:114-116 | each non-blank piece, stripped, is passed on at the position given by the non-blank pieces before it, so the lines are those pieces in order |
| `McuControl.ReceiveText` | mcu_control.py:108-117 | the buffer plus the chunk is cut into pieces exactly as the separator priority says; the lines emitted are those pieces' stripped non-blank forms and the kept buffer is the uncut rest, with no separator |
| `McuControl.PriorityBeatsPosition` | mcu_control.py:111-113 | for `"a\rb\r\n"` the CR LF split wins over the earlier CR, giving the single line `"a\rb"` |
| `WeightReader.FirstNonBlank` | weight_reader.py:75-79 | the index found is preceded only by blank lines and is itself not a blank line |
| `WeightReader.FirstLine` | weight_reader.py:75-80 | a line returned is non-empty and stripped |
| `WeightReader.FirstLineReadsFirstNonBlank` | weight_reader.py:75-82 | the first event that is not a blank line decides the read: that line stripped, a serial error, or a timeout when every line was blank |
| `WeightReader.ReadValue` | weight_reader.py:56-82 | without a port the simulated reading "SIM:72.35"; on an open port the request and line ending are written first when a request is given and the first non-blank line is the result; a serial fault during setup gives a serial error with nothing written |
| `Text.SkipSpaces` | weight_reader.py:87 | `\s*` consumes exactly the whitespace run |
| `WeightReader.SkipDigits` | weight_reader.py:87 | `\d+`/`\d*` consume exactly the digit run |
| `WeightReader.NumberValue` | weight_reader.py:91 | the value of a matched number is non-negative |
| `WeightReader.MatchedNumberIsDecimal` | weight_reader.py:87 | group 2 is digits, optionally a point and more digits |
| `WeightReader.Extract` | weight_reader.py:87-90 | a match exists exactly when the text holds a digit; the sign group is empty or one sign; the number is decimal text |
| `WeightReader.ExtractNumber` | weight_reader.py:84-92 | a value exactly when the text holds a digit, signed as the match says |
| `WeightReader.SearchSkips` | weight_reader.py:87 | positions where the pattern cannot match do not change what the search finds |
| `WeightReader.NoDigitNoMatch` | weight_reader.py:87-88 | a text without digits has no match |
| `WeightReader.MatchAtSign` | weight_reader.py:87 | a sign, whitespace, then digits match with the sign kept |
| `WeightReader.MatchAtRun` | weight_reader.py:87 | whitespace then digits match with an empty sign |
| `WeightReader.LeftmostMatchAtFirstDigit` | weight_reader.py:87 | the leftmost match is anchored at the first digit |
| `WeightReader.ExtractIsLeftmostMatch` | weight_reader.py:87 | the scanner equals the leftmost-match search of the pattern on every text |
| `WeightReader.ExtractNumberIsSearch` | weight_reader.py:87-92 | the search finds a match exactly when the text holds a digit, and no match gives no value |
| `WeightReader.ExtractSpacedNegative` | weight_reader.py:86 | `"-  191.58"` reads as -191.58 |
| `WeightReader.ExtractSimulated` | weight_reader.py:66 | the simulated reading reads as 72.35 |
| `WeightReader.ExtractOtherExamples` | weight_reader.py:87-92 | `"ERR"` gives nothing, `"-x5"` gives 5 (the sign is not kept), `"12."` gives 12 |
| `WeightReader.ExtractMinus150` | weight_reader.py:87-91 | `"-150"` reads as -150 |
| `WeightReader.ExtractStopsAtSecondPoint` | weight_reader.py:87 | `"1.2.3"` reads as 1.2 |
| `CameraDebug.RoiOf` | camera_debug.py:45 | a list converts item by item; a string converts character by character, succeeding exactly when every character is a digit, giving the digits in order; a number, boolean or null raises a type error |
| `CameraDebug.ReadFields` | camera_debug.py:41-54 | the fields convert exactly when each stored value or default converts, in order |
| `CameraDebug.FromJson` | camera_debug.py:38-55 | the profile loads exactly when every field converts; its camera index, size and rate are the converted head fields, its exposure, gain, picture and white-balance fields the converted tail fields, in order, and its ROI is the converted list |
| `CameraDebug.ToJson` | camera_debug.py:31-35 | every field is written as an integer and the ROI as a list of the same length |
| `CameraDebug.FromJsonToJson` | camera_debug.py:31-55 | loading a saved profile gives the profile back |
| `CameraDebug.HeadFieldsReadBack` | camera_debug.py:31-44 | the saved camera index, width, height and rate read back unchanged |
| `CameraDebug.TailFieldsReadBack` | camera_debug.py:31-54 | the saved exposure, gain, picture and white-balance fields read back unchanged |
| `CameraDebug.RoiReadsBack` | camera_debug.py:31-45 | the saved ROI list reads back as the same ROI |
| `CameraDebug.FromJsonEmpty` | camera_debug.py:13-55 | an empty object loads as the defaults 0, 1280, 720, 30, (0,0,0,0), 1, 0, 0, 0, 0, 0, 100, 1, 4500 |
| `CameraDebug.PreviewRoi` | camera_debug.py:294-297 | the preview ROI lies inside a non-empty frame |
| `CameraDebug.PreviewRoiIsRecorderClamp` | camera_debug.py:294-297 | the preview clamp equals the recorder's ROI clamp |
| `CameraDebug.ShowPreview` | camera_debug.py:299-305 | crop exactly when the switch is 1 and both sides are positive; outline exactly when the switch is not 1 and both sides are positive; else the plain frame |
| `CameraDebug.PreviewShowsRecordedImage` | camera_debug.py:299-301 | with the switch on, the preview is the image the recorder would write |
| `CameraDebug.AutoExposureSlider` | camera_debug.py:128-129 | as written, the slider is 1 exactly for a reading of 0 or in [1, 2) |
| `CameraDebug.AutoExposureIntendedReadsBack` | camera_debug.py:320-325 | a device reporting back the 0.75 or 0.25 the tool writes (read back at lines 128-129) shows the slider position it came from under the intended rule, while the rule as written shows 0 for both |
| `CameraDebug.AutoExposureThreeQuartersIsLost` | camera_debug.py:128-129 | 0.75 gives 0 as written and 1 as intended |
| `CameraDebug.AutoExposureAgreesOnWholeNumbers` | camera_debug.py:128-129 | on whole-number readings both agree |
| `CameraDebug.ExposureSlider` | camera_debug.py:130-135 | a missing (NaN) reading leaves the slider; otherwise it is in [0, 130], and `round(-x*10)` for x in [-13, 0] |
| `CameraDebug.SetTrackbarPos` | camera_debug.py:74-94 | a slider position is held within its trackbar's range [0, max] and an in-range value is kept |
| `CameraDebug.SyncSliders` | camera_debug.py:115-168 | each slider gets its reading clamped to the tool's range and the trackbar's maximum (width 3840, height 2160, rate 240, gain, brightness, contrast and saturation 255, gamma 500, white balance [2000, 8000]); the ROI and index sliders are kept; the last-opened profile records the raw size and rate and the slider values |
| `CameraDebug.BrightnessStopsAtTrackbar` | camera_debug.py:139-146 | a brightness of 300 leaves the slider and the remembered profile at 255 |
| `CameraDebug.ZeroSlidersNeverForceReopen` | camera_debug.py:230-236 | with a handle and the same index, zero size and rate sliders never force a reopen |
| `CameraDebug.RequestedWrites` | camera_debug.py:257-266 | a size or rate is requested from the device exactly when its slider is non-zero |
| `CameraDebug.ReopenIfNeeded` | camera_debug.py:223-268 | nothing when no reopen is needed; a failed open records the requested profile; a successful one writes the sizes and rate of the first back-fill and ends with the sliders and profile of the second |
| `CameraDebug.ReopenRequestsFirstReading` | camera_debug.py:253-266 | after a successful open the device is asked for the size and rate it first reported, as the trackbars hold them, each only when positive |
| `CameraDebug.FailedOpenIsNotRetried` | camera_debug.py:249-251 | after a failed open the next iteration does not try again |
| `CameraDebug.ReopenSettlesUnlessBeyondSliders` | camera_debug.py:223-268 | after a successful reopen another one is needed exactly when the device reports a rate above 240, a width above 3840 or a height above 2160 |
| `CameraDebug.WideDeviceReopensForever` | camera_debug.py:120-156 | a device reporting a 4096-pixel width leaves the slider at 3840 and forces a reopen every iteration |
| `VideoRecorder.ModeOf` | video_recorder.py:142 | frames mode exactly for the text "frames" |
| `VideoRecorder.CamLabelReadsBack` | video_recorder.py:278-280 | the label is index + 1 and reads back, so different cameras get different labels |
| `VideoRecorder.PathShape` | video_recorder.py:144-150 | the output is `<dir>/<stem>_<label>` with `.mp4` in video mode |
| `VideoRecorder.OutputPathInjective` | video_recorder.py:139-150 | two cameras with the same stem and mode never share an output path |
| `VideoRecorder.FrameNameInjective` | video_recorder.py:251 | different counters give different image names |
| `VideoRecorder.RealFps` | video_recorder.py:270-275 | the rate is never zero: a reported 0 or NaN falls back to the target, and to 30 if that is 0 |
| `VideoRecorder.PacingRate` | video_recorder.py:217 | the pacing rate is at least 1 and equals the real rate when that is at least 1 |
| `VideoRecorder.NewRecorder` | video_recorder.py:57-58 | a fresh recorder is consistent, records nothing, and flags every configured camera |
| `VideoRecorder.LatestFrame` | video_recorder.py:91-93 | a camera without a session has no latest frame |
| `VideoRecorder.Start` | video_recorder.py:110-171 | no-op when recording; otherwise open failure, read failure, frames-folder failure and encoder failure each occur exactly under their device condition; on success only this camera's flag and session change, with the named path and mode |
| `VideoRecorder.Stop` | video_recorder.py:173-205 | no-op returning nothing when idle; otherwise returns the stored path and removes this camera's flag and session only |
| `VideoRecorder.Toggle` | video_recorder.py:95-107 | an idle camera starts (`started`, no path) or the call raises; a recording camera stops and returns its stored path |
| `VideoRecorder.ToggleKeepsOthers` | video_recorder.py:163-169 | a toggle leaves every other camera's flag and session alone and keeps the recorder consistent |
| `VideoRecorder.ToggleTwiceRoundTrip` | video_recorder.py:95-107 | start then stop restores the sessions and every camera's recording state and returns the path the start chose; the flags map keeps an `idx := false` entry |
| `VideoRecorder.StartFailureLeavesNoSession` | video_recorder.py:114-154 | a failed start makes the toggle raise that error, with the camera idle and no session |
| `VideoRecorder.GoodAppend` | video_recorder.py:222-226 | good frames of a concatenation are the concatenated good frames |
| `VideoRecorder.ExtractedCount` | video_recorder.py:248-253 | the image count is ceil(n / 150) |
| `VideoRecorder.Extracted` | video_recorder.py:248-253 | n good frames give ceil(n / 150) images |
| `VideoRecorder.ExtractedAppend` | video_recorder.py:250-253 | a frame whose count is a multiple of 150 adds one image named by the next counter; any other adds none |
| `VideoRecorder.SlotArithmetic` | video_recorder.py:250-259 | the image counter advances exactly on multiples of 150 |
| `VideoRecorder.CaptureLoop` | video_recorder.py:207-259 | the loop's outcome equals the specification: latest frame, frames written in video mode, images in frames mode |
| `VideoRecorder.TakeFrame` | video_recorder.py:245-259 | one good frame becomes the latest, is written in video mode or saved as the next image on a multiple of 150 in frames mode, and the count advances, keeping the loop in step with the specification |
| `VideoRecorder.StepKeepsLoopState` | video_recorder.py:245-259 | one good frame keeps the loop's counters and outputs in step with the specification |
| `VideoRecorder.CaptureCounts` | video_recorder.py:222-259 | no crash; video mode writes one frame per good read and saves no image; frames mode writes nothing and saves ceil(N/150) images under distinct names; a latest frame exists exactly when some read succeeded |
| `VideoRecorder.FailedReadsIgnored` | video_recorder.py:223-226 | a failed read changes nothing in the outcome |
| `VideoRecorder.GoodSkipsFailedRead` | video_recorder.py:223-226 | a failed read is not counted |
| `VideoRecorder.RecordCapture` | video_recorder.py:245-246 | storing the latest frame keeps the recorder consistent and touches no other camera |
| `VideoRecorder.DecodeRoi` | video_recorder.py:229-236 | the ROI is read only when the entry is a four-item list whose first item is a number; otherwise no crop; past that check it raises exactly when some item fails `int()`, and otherwise crops to the items in order x, y, w, h |
| `VideoRecorder.DecodeRoiRaisesOnLaterItem` | video_recorder.py:231-236 | a null second item past a numeric first item raises a type error, while a null first item means no crop |
| `VideoRecorder.CroppedFramesMismatchWriter` | video_recorder.py:138-151 | 640x480 frames with ROI (0, 0, 320, 240): the encoder is 640x480 and the written frames 320x240 |
| `VideoRecorder.CroppedWriterSpec` | video_recorder.py:236-243 | the corrected encoder size is the cropped first frame's size |
| `VideoRecorder.CroppedWriterSpecFitsFrames` | video_recorder.py:248-257 | with frames of one size, every written frame matches the corrected encoder size |
| `VideoRecorder.GoodSameSize` | video_recorder.py:222-226 | the good frames of a same-size stream have that size |
| `Controller.InitialPanel` | main.py:137-240 | before the first weight refresh, the recorder saves to `<app>/videos` at 30 fps for cameras 0 and 1 with no per-camera ROI, or is absent if construction raised; all buttons offer to start; the weight shows 0.00 g and the kept value is 0.0 |
| `Controller.BothLabelFor` | main.py:468-482 | "stop both" exactly when both record, "start both" exactly when neither does, "inconsistent" exactly when they differ |
| `Controller.TimeSuffixShape` | main.py:447 | `_%Y%m%d_%H%M%S` is sixteen characters: underscore, eight digits, underscore, six digits |
| `Controller.FieldsShape` | main.py:447 | zero-padded date or time fields fill their width with digits |
| `Controller.Width` | main.py:447 | a zero-padded field below 10^w has exactly w digits |
| `Controller.CandidateIsOutputPath` | main.py:429-435 | the path checked for a collision is the path the recorder will write |
| `Controller.ChooseStem` | main.py:437-448 | without a collision the stem is kept; with one, cancel gives up, yes keeps the stem, no appends the time suffix |
| `Controller.SuffixAvoidsCollision` | main.py:445-448 | answering no moves the recording off the existing file |
| `Controller.Guarded` | main.py:417-419 | a camera handler runs exactly when the name field has a non-whitespace character |
| `Controller.ToggleCamera` | main.py:421-466 | without a recorder only an error is shown; the panel stays consistent; for an idle camera, a cancelled dialog changes nothing, and a start that goes through records under the stem the dialog chose |
| `Controller.ToggleCameraHonoursDialog` | main.py:429-452 | with nothing in the way or after "yes" the camera records into the checked path, overwriting it; after "no" it records into the time-suffixed path, which differs from the checked one |
| `Controller.PressCamera` | main.py:417-419 | a blank name shows the warning and changes nothing; any other name runs the camera handler |
| `Controller.AfterToggle` | main.py:450-466 | a raised toggle shows the error and changes nothing; otherwise the recorder is replaced, the camera's button follows whether it started, the combined label follows both states, and one notice is shown: started, saved with the path when the stopped file exists, or saved without one |
| `Controller.ToggleCameraStopsRecording` | main.py:450-461 | pressing a recording camera's button stops it, resets its button, and reports the saved path if that file exists, otherwise a save without a path |
| `Controller.ToggleCameraStartsIdle` | main.py:450-461 | an idle camera whose devices work and whose file does not exist starts, and its button offers to stop |
| `Controller.ToggleCameraCancelled` | main.py:437-444 | cancelling the overwrite dialog changes nothing and shows nothing |
| `Controller.ToggleCameraStartFails` | main.py:450-466 | a start that raises leaves the panel unchanged and shows the error |
| `Controller.ToggleCameraKeepsOtherCamera` | main.py:451-464 | the other camera keeps its state, and a changed panel shows the combined label of both states |
| `Controller.BothCandidatesAreCameraCandidates` | main.py:512-517 | `<stem>_1` and `<stem>_2` are the single-camera candidates of cameras 0 and 1 |
| `Controller.StartSucceedsIffProbeStarts` | video_recorder.py:114-154 | a start succeeds exactly when the camera opens, reads and, in video mode, the encoder opens |
| `Controller.IdleToggleStartsOrRaises` | video_recorder.py:102-104 | a toggle on an idle camera raises or reports started, never "not started" |
| `Controller.StartBoth` | main.py:538-557 | when camera 0 fails nothing changes and its error is the one notice; when camera 0 starts and camera 1 does not, camera 0 is left recording under the given stem, only the recorder changes, and camera 1's error is the one notice; when both start, each records under the given stem, all buttons say stop and the started notice is shown |
| `Controller.ExistingPaths` | main.py:569-573 | only saved files that exist are reported, one per saved path that exists |
| `Controller.ExistingPathsInOrder` | main.py:569-573 | every saved path that exists is reported, in camera order |
| `Controller.TwoCameraPaths` | main.py:569-573 | for two cameras: both files in camera order, or the one that exists, or none |
| `Controller.StopBoth` | main.py:558-577 | both stop, all buttons reset, and the saved paths of cameras 0 and 1 that exist are reported in that order |
| `Controller.ToggleBoth` | main.py:484-580 | without a recorder only an error; cameras in different states are left alone with a warning; for two idle cameras a cancelled dialog changes nothing, and each camera that starts records under the stem the dialog chose |
| `Controller.ToggleBothHonoursDialog` | main.py:512-546 | with neither `<stem>_1` nor `<stem>_2` in the way, or after "yes", both cameras record into exactly those paths; after "no" both record into the time-suffixed paths, which differ from them |
| `Controller.PressBoth` | main.py:417-419 | pressing the button (line 178) with a blank file name only warns and changes nothing; otherwise the handler runs |
| `Controller.PressBothBlankNameStopsNothing` | main.py:417-419 | a name of spaces leaves two recording cameras recording |
| `Controller.BothStem` | main.py:519-535 | without a collision on `<stem>_1` or `<stem>_2` the stem is kept; with one, cancel gives up, yes keeps the stem, no appends the time suffix |
| `Controller.BothStemPlacesRecordings` | main.py:519-535 | without a collision or on yes both cameras record to the checked candidates; on no, neither records onto them |
| `Controller.ToggleBothStopsBoth` | main.py:558-564 | two recording cameras end idle with every button offering to start |
| `Controller.ToggleBothStartsBoth` | main.py:537-546 | two idle cameras whose devices work end recording with every button offering to stop |
| `Controller.ToggleBothNeverRollsBack` | main.py:547-557 | both toggles returning means both started, so the rollback branch never runs |
| `Controller.ToggleBothLeavesCameraZeroRecording` | main.py:538-539 | camera 1 failing to open after camera 0 started leaves camera 0 recording while its button still offers to start |
| `Controller.StartBothWithRollback` | main.py:547-553 | with the rollback, any change leaves both cameras in the same state; with working devices it matches the handler as written |
| `Controller.ToggleBothWithRollback` | main.py:484-580 | with the rollback, cameras that start in the same state end in the same state |
| `Controller.RollbackRestoresIdle` | main.py:547-553 | with the rollback, a camera-1 failure leaves both cameras idle |
| `Controller.AutoStop` | main.py:289-303 | nothing without a recorder, with no camera recording, or with a blank name |
| `Controller.AutoStopStopsRecordingCameras` | main.py:305-327 | exactly the recording cameras are stopped and their buttons reset; afterwards no camera records; one notice reports the stopped cameras' saved paths that exist, in camera order |
| `Controller.AutoStopIdempotent` | main.py:289-327 | a second low reading after an automatic stop changes nothing |
| `Controller.ScalePort` | main.py:268 | the scale port is never empty: the stripped field when it is not blank, otherwise the default port |
| `Controller.RefreshWeight` | main.py:265-287 | the panel stays consistent; when the scale does not open or the read fails, only the weight display changes, to the error text, and nothing is shown |
| `Controller.RefreshWeightStopsOnlyBelowThreshold` | main.py:265-287 | the recorder changes only for a number strictly below -150, and then as an automatic stop; text without a number is shown as is; a number is shown and kept; text without a number keeps the old value; a scale that does not open or a failed read shows the error and leaves the rest of the panel unchanged |
| `Controller.SimulatedReadingNeverStops` | main.py:270-284 | the simulated 72.35 g never stops a recording |
| `Controller.ThresholdIsStrict` | main.py:283-284 | a reading of exactly -150 g does not stop a recording |
| `Controller.ApplySpeed` | main.py:389-393 | a command is sent exactly for an integer in [0, 100], as the motor speed command; anything else only warns |
| `Controller.ApplyFan` | main.py:400-403 | the fan command is sent exactly for an integer in [0, 100]; anything else only warns |
| `Controller.ApplyDirection` | main.py:395-398 | a direction reaches the controller exactly for the three menu labels |
| `Controller.ApplySpeedSendsScaled` | main.py:389-393 | an accepted speed reaches motor A or B as the scaled hardware value |
| `Controller.ValidateIntegerAccepts` | main.py:208-215 | every printed integer passes the key filter, and every accepted text other than "" and "-" holds a digit |

## Left out

- OpenCV device and encoder I/O (opening, property writes, reads, `imwrite`, the encoder itself) are inputs: whether each step succeeds, the frames read, and the rate reported. The resolution and rate requests in `_start` and `_apply_cam_params` only influence what the device later reports, so they are not modelled.
- `load_params_from_json` (video_recorder.py:61-73) is left out because it is file and JSON reading; the recorder takes the per-camera parameters as already-decoded maps. The application never calls it, so its recorder has no ROI (Controller.InitialPanel); the ROI behaviour is that of the recorder class for other callers.
- Threads, stop events, `join(timeout)` and the latest-frame lock are concurrency. A capture run is a finite sequence of read results; the latest-frame store is a plain map.
- Frame pacing and sleeps (video_recorder.py:261-268) are wall-clock behaviour. Only the pacing rate's lower bound is modelled.
- Serial port opening, reading and writing, and the reader thread are left out. The formatting, sending effect and line splitting are modelled, with the port's behaviour as an input.
- Tk layout, `messagebox` and `StringVar` are left out. Dialog answers, field contents, the file system and the clock are inputs; one snapshot of existing files stands for every `exists()` call of a handler.
- The weight-file save (main.py:329-349), the adjustment counter and adjustment.py are left out: file I/O and float formatting.
- list_cameras.py is device probing only.
- The camera_debug.py event loop, key handling, the reset to device defaults (170-221), the settings written to the device (320-339), the profile save key (353-384) and the HUD are left out. They are device writes and UI; the profile round trip is modelled on decoded JSON objects.
- JSON text is not modelled; profiles are decoded JSON objects.
- JsonValue.Json has no object case: the profile fields never hold a nested object, so `int()` of a dict (a type error, like a list) is not modelled.
- WeightReader.NumberValue: the value is the exact decimal, not the nearest double that `float()` returns.
- McuControl.SendText: the echo line's hex dump of the written bytes is not modelled.
- Controller.RefreshWeight: the display holds the number rather than its `{w:.2f} (g)` text. A failure to open the scale is an input flag, not the constructor's exception path (weight_reader.py:35-54).
- CameraDebug.SyncSliders: the auto-exposure slider rule is a parameter, so both the as-written and the corrected rule can be plugged in. NaN readings, where `int()` would raise, are not modelled.
- Controller.TimeSuffixShape: holds for four-digit years only.
- Controller.ScalePort: the contract says the port is non-empty but does not name the default (COM3, main.py:268).
- Text.ParseInt covers ASCII only. The Unicode digits and spaces that `int()`, `strip()` and the regex's `\d`/`\s` also accept are not modelled.
- Paths are plain strings joined with "/"; path normalisation is not modelled.

## Findings

| source | as written | input that shows it | evidently intended | confidence | as-written member | corrected member |
|---|---|---|---|---|---|---|
| main.py:538-557 | a failed start raises, so the rollback branch for a start reported as failed never runs | both idle; camera 0 opens; camera 1 opens on neither backend | camera 0 is stopped again when camera 1 fails | high, not executed | `Controller.ToggleBothLeavesCameraZeroRecording` | `Controller.ToggleBothWithRollback` |
| camera_debug.py:128-129 | the reading is truncated by `int()` before the test `in (1, 0.75)`, so 0.75 can never match | a device reporting AUTO_EXPOSURE 0.75, the value the tool itself writes for automatic exposure (camera_debug.py:325) | the slider shows 1 for 0.75, so automatic exposure reads back as automatic | medium, not executed | `CameraDebug.AutoExposureThreeQuartersIsLost` | `CameraDebug.AutoExposureIntendedReadsBack` |
| video_recorder.py:138-151 | the encoder is sized from the uncropped first frame, but the loop writes ROI-cropped frames (video_recorder.py:229-257); only a caller that loads per-camera parameters can reach this, and main.py does not | 640x480 frames, ROI (0, 0, 320, 240), video mode | the encoder sized like the frames it is given | medium, not executed | `VideoRecorder.CroppedFramesMismatchWriter` | `VideoRecorder.CroppedWriterSpec` |

=== FILE: camera_debug.dfy ===
/** The camera tuning tool: camera profiles and their JSON form, the
    preview ROI, the decision to reopen the device, and copying the device's
    current settings back onto the sliders. The device is an input: whether
    it opens, and the property values it reports. */
module CameraDebug {
  import opened Wrappers
  import opened Text
  import opened Numeric
  import opened Geometry
  import opened JsonValue

  // ---------------------------------------------------------------------
  // Camera profiles

  /** One camera profile; `roi` is `(x, y, w, h)`, all zero meaning no
      cropping. */
  datatype CamParams = CamParams(
    cameraIndex: int,
    width: int,
    height: int,
    fps: int,
    roi: seq<int>,
    autoExposure: int,
    exposure1by10: int,
    gain: int,
    brightness: int,
    contrast: int,
    saturation: int,
    gamma: int,
    autoWb: int,
    wbTemperature: int)

  /** `CamParams()`. */
  const Defaults: CamParams :=
    CamParams(0, 1280, 720, 30, [0, 0, 0, 0], 1, 0, 0, 0, 0, 0, 100, 1, 4500)

  /** `tuple(map(int, value))`: a list is converted item by item, a string
      character by character; anything else is not iterable. */
  function RoiOf(j: Json): (r: Result<seq<int>, ConvError>)
    ensures j.JList? ==> r == IntsOf(j.items)
    ensures (j.JInt? || j.JReal? || j.JBool? || j.JNull?) ==> r == Err(TypeError)
    ensures j.JStr? ==>
              && (r.Ok? <==> forall k :: 0 <= k < |j.s| ==> ParseInt([j.s[k]]).Some?)
              && (r.Ok? ==> |r.value| == |j.s|
                            && forall k :: 0 <= k < |j.s| ==> Some(r.value[k]) == ParseInt([j.s[k]]))
  {
    match j
    case JList(items) => IntsOf(items)
    case JStr(s) =>
      var items := seq(|s|, k requires 0 <= k < |s| => JStr([s[k]]));
      CharsOfString(s, items);
      IntsOf(items)
    case _ => Err(TypeError)
  }

  /** `map(int, s)` on a string converts it character by character. */
  lemma CharsOfString(s: string, items: seq<Json>)
    requires |items| == |s| && forall k :: 0 <= k < |s| ==> items[k] == JStr([s[k]])
    ensures IntsOf(items).Ok? <==> forall k :: 0 <= k < |s| ==> ParseInt([s[k]]).Some?
    ensures IntsOf(items).Ok? ==>
              && |IntsOf(items).value| == |s|
              && forall k :: 0 <= k < |s| ==> Some(IntsOf(items).value[k]) == ParseInt([s[k]])
  {
    var r := IntsOf(items);
    forall k | 0 <= k < |s|
      ensures IntOf(items[k]).Ok? <==> ParseInt([s[k]]).Some?
      ensures IntOf(items[k]).Ok? ==> Some(IntOf(items[k]).value) == ParseInt([s[k]])
    {
      assert items[k] == JStr([s[k]]);
    }
  }

  /** `data.get(key, default)`. */
  function Get(data: map<string, Json>, key: string, default: Json): (j: Json)
    ensures key in data ==> j == data[key]
    ensures key !in data ==> j == default
  {
    if key in data then data[key] else default
  }

  /** The integer fields before the ROI and after it, with their keys and
      default values, in the order the constructor call evaluates them. */
  const HeadFields: seq<(string, int)> :=
    [("camera_index", 0), ("width", 1280), ("height", 720), ("fps", 30)]

  const TailFields: seq<(string, int)> :=
    [("auto_exposure", 1), ("exposure_1by10", 0), ("gain", 0), ("brightness", 0),
     ("contrast", 0), ("saturation", 0), ("gamma", 100), ("auto_wb", 1),
     ("wb_temperature", 4500)]

  const RoiKey: string := "roi"

  const DefaultRoi: Json := JList([JInt(0), JInt(0), JInt(0), JInt(0)])

  /** `int(data.get(key, default))` for each field in turn. */
  function ReadFields(data: map<string, Json>, fields: seq<(string, int)>): (r: Result<seq<int>, ConvError>)
    ensures r.Ok? <==> forall k :: 0 <= k < |fields| ==>
                         IntOf(Get(data, fields[k].0, JInt(fields[k].1))).Ok?
    ensures r.Ok? ==> |r.value| == |fields|
                      && forall k :: 0 <= k < |fields| ==>
                           r.value[k] == IntOf(Get(data, fields[k].0, JInt(fields[k].1))).value
  {
    if fields == [] then Ok([])
    else
      match IntOf(Get(data, fields[0].0, JInt(fields[0].1)))
      case Err(e) => Err(e)
      case Ok(v) =>
        match ReadFields(data, fields[1..])
        case Err(e) => Err(e)
        case Ok(vs) =>
          assert forall k :: 1 <= k < |fields| ==> fields[k] == fields[1..][k - 1];
          Ok([v] + vs)
  }

  /** `CamParams.from_json_file` on the decoded object: every field read
      with `int()` (the ROI with `tuple(map(int, ...))`), missing keys taking
      the defaults; the first conversion that raises is the error. */
  function FromJson(data: map<string, Json>): (r: Result<CamParams, ConvError>)
    ensures r.Ok? <==> ReadFields(data, HeadFields).Ok? && RoiOf(Get(data, RoiKey, DefaultRoi)).Ok?
                       && ReadFields(data, TailFields).Ok?
    ensures r.Ok? ==> r.value.roi == RoiOf(Get(data, RoiKey, DefaultRoi)).value
    ensures r.Ok? ==>
              && [r.value.cameraIndex, r.value.width, r.value.height, r.value.fps]
                 == ReadFields(data, HeadFields).value
              && [r.value.autoExposure, r.value.exposure1by10, r.value.gain, r.value.brightness,
                  r.value.contrast, r.value.saturation, r.value.gamma, r.value.autoWb,
                  r.value.wbTemperature]
                 == ReadFields(data, TailFields).value
  {
    match ReadFields(data, HeadFields)
    case Err(e) => Err(e)
    case Ok(h) =>
      match RoiOf(Get(data, RoiKey, DefaultRoi))
      case Err(e) => Err(e)
      case Ok(roi) =>
        match ReadFields(data, TailFields)
        case Err(e) => Err(e)
        case Ok(t) =>
          Ok(CamParams(h[0], h[1], h[2], h[3], roi,
                       t[0], t[1], t[2], t[3], t[4], t[5], t[6], t[7], t[8]))
  }

  /** `CamParams.to_json`, as the object it encodes: every field under its
      name, the ROI as a list. */
  function ToJson(p: CamParams): (d: map<string, Json>)
    ensures forall k :: 0 <= k < |HeadFields| ==> HeadFields[k].0 in d && d[HeadFields[k].0].JInt?
    ensures forall k :: 0 <= k < |TailFields| ==> TailFields[k].0 in d && d[TailFields[k].0].JInt?
    ensures RoiKey in d && d[RoiKey].JList? && |d[RoiKey].items| == |p.roi|
  {
    map[
      "camera_index" := JInt(p.cameraIndex),
      "width" := JInt(p.width),
      "height" := JInt(p.height),
      "fps" := JInt(p.fps),
      "roi" := JList(seq(|p.roi|, k requires 0 <= k < |p.roi| => JInt(p.roi[k]))),
      "auto_exposure" := JInt(p.autoExposure),
      "exposure_1by10" := JInt(p.exposure1by10),
      "gain" := JInt(p.gain),
      "brightness" := JInt(p.brightness),
      "contrast" := JInt(p.contrast),
      "saturation" := JInt(p.saturation),
      "gamma" := JInt(p.gamma),
      "auto_wb" := JInt(p.autoWb),
      "wb_temperature" := JInt(p.wbTemperature)
    ]
  }

  /** Reading back a saved profile gives the profile. */
  lemma FromJsonToJson(p: CamParams)
    ensures FromJson(ToJson(p)) == Ok(p)
  {
    HeadFieldsReadBack(p);
    TailFieldsReadBack(p);
    RoiReadsBack(p);
  }

  lemma HeadFieldsReadBack(p: CamParams)
    ensures ReadFields(ToJson(p), HeadFields) == Ok([p.cameraIndex, p.width, p.height, p.fps])
  {
    var d := ToJson(p);
    var want := [p.cameraIndex, p.width, p.height, p.fps];
    assert d["camera_index"] == JInt(want[0]) && d["width"] == JInt(want[1]);
    assert d["height"] == JInt(want[2]) && d["fps"] == JInt(want[3]);
    assert forall k :: 0 <= k < |HeadFields| ==> IntOf(Get(d, HeadFields[k].0, JInt(HeadFields[k].1))) == Ok(want[k]);
    var r := ReadFields(d, HeadFields);
    assert r.Ok? && |r.value| == |want|;
    assert forall k :: 0 <= k < |want| ==> r.value[k] == want[k];
    assert r.value == want;
  }

  lemma TailFieldsReadBack(p: CamParams)
    ensures ReadFields(ToJson(p), TailFields) ==
              Ok([p.autoExposure, p.exposure1by10, p.gain, p.brightness, p.contrast,
                  p.saturation, p.gamma, p.autoWb, p.wbTemperature])
  {
    var d := ToJson(p);
    var want := [p.autoExposure, p.exposure1by10, p.gain, p.brightness, p.contrast,
                 p.saturation, p.gamma, p.autoWb, p.wbTemperature];
    assert d["auto_exposure"] == JInt(want[0]) && d["exposure_1by10"] == JInt(want[1]);
    assert d["gain"] == JInt(want[2]) && d["brightness"] == JInt(want[3]);
    assert d["contrast"] == JInt(want[4]) && d["saturation"] == JInt(want[5]);
    assert d["gamma"] == JInt(want[6]) && d["auto_wb"] == JInt(want[7]);
    assert d["wb_temperature"] == JInt(want[8]);
    assert forall k :: 0 <= k < |TailFields| ==> IntOf(Get(d, TailFields[k].0, JInt(TailFields[k].1))) == Ok(want[k]);
    var r := ReadFields(d, TailFields);
    assert r.Ok? && |r.value| == |want|;
    assert forall k :: 0 <= k < |want| ==> r.value[k] == want[k];
    assert r.value == want;
  }

  lemma RoiReadsBack(p: CamParams)
    ensures RoiOf(Get(ToJson(p), RoiKey, DefaultRoi)) == Ok(p.roi)
  {
    var items := ToJson(p)[RoiKey].items;
    assert forall k :: 0 <= k < |items| ==> items[k] == JInt(p.roi[k]);
    assert IntsOf(items).Ok? && |IntsOf(items).value| == |p.roi|;
    assert forall k :: 0 <= k < |p.roi| ==> IntsOf(items).value[k] == p.roi[k];
    assert IntsOf(items).value == p.roi;
    assert Get(ToJson(p), RoiKey, DefaultRoi) == JList(items);
  }

  /** An empty profile file gives the default profile. */
  lemma FromJsonEmpty()
    ensures FromJson(map[]) == Ok(Defaults)
  {
    var h := ReadFields(map[], HeadFields);
    var t := ReadFields(map[], TailFields);
    assert h.value == [0, 1280, 720, 30];
    assert t.value == [1, 0, 0, 0, 0, 0, 100, 1, 4500];
    var items := DefaultRoi.items;
    assert forall k :: 0 <= k < |items| ==> items[k] == JInt(0);
    assert IntsOf(items).Ok?;
    assert IntsOf(items).value == [0, 0, 0, 0];
  }

  // ---------------------------------------------------------------------
  // Preview

  /** The preview's clamp of the ROI sliders against a `w` x `h` frame:
      `x = clamp(ROI_X, 0, w-1)`, `y = clamp(ROI_Y, 0, h-1)`,
      `rw = clamp(ROI_W, 0, w-x)`, `rh = clamp(ROI_H, 0, h-y)`. */
  function PreviewRoi(sx: int, sy: int, sw: int, sh: int, w: int, h: int): (r: Roi)
    ensures w >= 1 && h >= 1 ==> FitsIn(r, w, h)
  {
    var x := Clamp(sx, 0, w - 1);
    var y := Clamp(sy, 0, h - 1);
    var rw := Clamp(sw, 0, w - x);
    var rh := Clamp(sh, 0, h - y);
    Roi(x, y, rw, rh)
  }

  /** The preview and the recorder pull an ROI inside the frame the same
      way, for every frame size. */
  lemma PreviewRoiIsRecorderClamp(sx: int, sy: int, sw: int, sh: int, w: int, h: int)
    ensures PreviewRoi(sx, sy, sw, sh, w, h) == ClampRoi(Roi(sx, sy, sw, sh), w, h)
  {
  }

  /** What the preview window shows: the cropped region, the full frame
      with the ROI outlined, or the plain frame. */
  datatype Preview = Cropped(view: Frame) | Outlined(view: Frame, box: Roi) | Plain(view: Frame)

  /** The preview step for one good frame: crop when the preview switch is
      1 and the clamped ROI is non-empty; otherwise outline a non-empty ROI;
      otherwise show the frame as it is. */
  function ShowPreview(f: Frame, previewSwitch: int, sx: int, sy: int, sw: int, sh: int): (p: Preview)
    ensures var c := PreviewRoi(sx, sy, sw, sh, f.width, f.height);
            && (p.Cropped? <==> previewSwitch == 1 && Croppable(c))
            && (p.Outlined? <==> previewSwitch != 1 && Croppable(c))
            && (p.Plain? <==> !Croppable(c))
            && (!p.Cropped? ==> p.view == f)
            && (p.Outlined? ==> p.box == c)
  {
    var c := PreviewRoi(sx, sy, sw, sh, f.width, f.height);
    if previewSwitch == 1 && c.w > 0 && c.h > 0 then
      assert FitsIn(c, f.width, f.height);
      Cropped(Crop(f, c))
    else if c.w > 0 && c.h > 0 then Outlined(f, c)
    else Plain(f)
  }

  /** With the preview switch on, the preview shows exactly the image the
      recorder would write for the same ROI. */
  lemma PreviewShowsRecordedImage(f: Frame, sx: int, sy: int, sw: int, sh: int)
    ensures ShowPreview(f, 1, sx, sy, sw, sh).view == ApplyRoi(f, HasRoi(Roi(sx, sy, sw, sh)))
  {
    PreviewRoiIsRecorderClamp(sx, sy, sw, sh, f.width, f.height);
  }

  // ---------------------------------------------------------------------
  // Sliders and the device

  /** The slider positions of the tool window. */
  datatype Sliders = Sliders(
    camIndex: int,
    fps: int,
    width: int,
    height: int,
    roiX: int,
    roiY: int,
    roiW: int,
    roiH: int,
    previewRoi: int,
    autoExp: int,
    exposure: int,
    gain: int,
    brightness: int,
    contrast: int,
    saturation: int,
    gamma: int,
    autoWb: int,
    wbTemp: int)

  /** The initial slider positions. */
  const InitialSliders: Sliders :=
    Sliders(0, 0, 0, 0, 0, 0, 0, 0, 0, 1, 0, 0, 0, 0, 0, 100, 1, 4500)

  /** The property values the device reports (`cap.get`), as finite
      numbers; `exposure` is `None` when the device reports NaN. */
  datatype Readings = Readings(
    width: real,
    height: real,
    fps: real,
    autoExposure: real,
    exposure: Option<real>,
    gain: real,
    brightness: real,
    contrast: real,
    saturation: real,
    gamma: real,
    autoWb: real,
    wbTemperature: real)

  /** `int(x or d)`: a reported 0 falls back to `d`, anything else is
      truncated toward zero. */
  function OrDefault(x: real, d: int): (r: int)
    ensures x == 0.0 ==> r == d
    ensures x != 0.0 ==> r == TruncToInt(x)
  {
    if x == 0.0 then d else TruncToInt(x)
  }

  /** The auto-exposure slider as the tool sets it: the reading is first
      truncated to an integer and then compared with 1 and 0.75, so only a
      reading in [1, 2) (or 0, which falls back to 1) turns the slider on. */
  function AutoExposureSlider(reading: real): (v: int)
    ensures v == 0 || v == 1
    ensures v == 1 <==> (reading == 0.0 || 1.0 <= reading < 2.0)
  {
    var autoExp := OrDefault(reading, 1);
    if autoExp == 1 then 1 else 0
  }

  /** The auto-exposure slider as the comparison with 0.75 intends: the
      device's "auto" values 1 and 0.75 (and an unreported 0, which falls
      back to 1) turn the slider on. */
  function AutoExposureSliderIntended(reading: real): (v: int)
    ensures v == 0 || v == 1
    ensures v == 1 <==> reading in {0.0, 1.0, 0.75}
  {
    if reading == 0.0 || reading == 1.0 || reading == 0.75 then 1 else 0
  }

  /** A device reporting 0.75 for automatic exposure shows as manual. */
  lemma AutoExposureThreeQuartersIsLost()
    ensures AutoExposureSlider(0.75) == 0
    ensures AutoExposureSliderIntended(0.75) == 1
  {
  }

  /** The auto-exposure value the tool's apply step leaves on the device
      for a slider position: 0.75 for automatic, 0.25 for manual. */
  function AutoExposureWrite(slider: int): (v: real)
    ensures slider == 1 <==> v == 0.75
    ensures v == 0.75 || v == 0.25
  {
    if slider == 1 then 0.75 else 0.25
  }

  /** Under the intended rule, a device that reports back what the tool
      wrote shows the slider position it came from; under the rule as
      written, the automatic position comes back as manual. */
  lemma AutoExposureIntendedReadsBack(s: int)
    requires s == 0 || s == 1
    ensures AutoExposureSliderIntended(AutoExposureWrite(s)) == s
    ensures AutoExposureSlider(AutoExposureWrite(s)) == 0
  {
  }

  /** On whole-number readings the check as written and the intended one
      agree; the readings where they part are fractions. */
  lemma AutoExposureAgreesOnWholeNumbers(n: int)
    ensures AutoExposureSlider(n as real) == AutoExposureSliderIntended(n as real)
  {
  }

  /** The exposure slider from a reported exposure: `round(-x * 10)` kept in
      [0, 130]; a NaN reading leaves the slider where it was. */
  function ExposureSlider(reading: Option<real>, current: int): (v: int)
    ensures reading.None? ==> v == current
    ensures reading.Some? ==> 0 <= v <= 130
    ensures reading.Some? && -13.0 <= reading.value <= 0.0 ==>
              v == RoundReal(-reading.value * 10.0)
  {
    match reading
    case None => current
    case Some(x) => Clamp(RoundReal(-x * 10.0), 0, 130)
  }

  /** The maxima the tool's trackbars are created with; every trackbar
      starts at 0. */
  const FpsMax := 240
  const WidthMax := 3840
  const HeightMax := 2160
  const LevelMax := 255
  const GammaMax := 500
  const WbTempMax := 8000

  /** `setTrackbarPos`: the slider moves to the requested position, held
      within the trackbar's range [0, `max`]. */
  function SetTrackbarPos(v: int, max: nat): (pos: int)
    ensures 0 <= pos <= max
    ensures 0 <= v <= max ==> pos == v
    ensures v < 0 ==> pos == 0
    ensures v > max ==> pos == max
  {
    Clamp(v, 0, max)
  }

  /** `sync_trackbars_from_cap`: copy what the device reports onto the
      sliders, each held in its own clamp and in its trackbar's range, and
      remember the device's width, height and frame rate (unclamped) with
      the other sliders as the last opened profile. `autoExposure` is how
      the auto-exposure slider is derived from the reading. */
  function SyncSliders(s: Sliders, last: CamParams, rd: Readings, autoExposure: real -> int): (res: (Sliders, CamParams))
    ensures var (s', last') := res;
            && s'.width == Clamp(OrDefault(rd.width, 0), 0, WidthMax)
            && s'.height == Clamp(OrDefault(rd.height, 0), 0, HeightMax)
            && s'.fps == Clamp(OrDefault(rd.fps, 30), 0, FpsMax)
            && s'.autoExp == autoExposure(rd.autoExposure)
            && s'.exposure == ExposureSlider(rd.exposure, s.exposure)
            && s'.gain == Clamp(OrDefault(rd.gain, 0), 0, LevelMax)
            && s'.brightness == Clamp(OrDefault(rd.brightness, 0), 0, LevelMax)
            && s'.contrast == Clamp(OrDefault(rd.contrast, 0), 0, LevelMax)
            && s'.saturation == Clamp(OrDefault(rd.saturation, 0), 0, LevelMax)
            && s'.gamma == Clamp(OrDefault(rd.gamma, 0), 0, GammaMax)
            && (s'.autoWb == 1 <==> OrDefault(rd.autoWb, 1) != 0) && (s'.autoWb == 0 || s'.autoWb == 1)
            && s'.wbTemp == Clamp(OrDefault(rd.wbTemperature, 4500), 2000, WbTempMax)
            && s'.camIndex == s.camIndex && s'.previewRoi == s.previewRoi
            && s'.roiX == s.roiX && s'.roiY == s.roiY && s'.roiW == s.roiW && s'.roiH == s.roiH
            && last'.cameraIndex == last.cameraIndex
            && last'.width == OrDefault(rd.width, 0) && last'.height == OrDefault(rd.height, 0)
            && last'.fps == OrDefault(rd.fps, 30)
            && last'.roi == [s.roiX, s.roiY, s.roiW, s.roiH]
            && last'.autoExposure == s'.autoExp && last'.exposure1by10 == s'.exposure
            && last'.gain == s'.gain && last'.brightness == s'.brightness
            && last'.contrast == s'.contrast && last'.saturation == s'.saturation
            && last'.gamma == s'.gamma && last'.autoWb == s'.autoWb
            && last'.wbTemperature == s'.wbTemp
  {
    var curW := OrDefault(rd.width, 0);
    var curH := OrDefault(rd.height, 0);
    var curFps := OrDefault(rd.fps, 30);
    var awb := OrDefault(rd.autoWb, 1);
    var s' := s.(
      width := SetTrackbarPos(Max(0, curW), WidthMax),
      height := SetTrackbarPos(Max(0, curH), HeightMax),
      fps := SetTrackbarPos(Max(0, Min(curFps, 240)), FpsMax),
      autoExp := autoExposure(rd.autoExposure),
      exposure := ExposureSlider(rd.exposure, s.exposure),
      gain := SetTrackbarPos(Clamp(OrDefault(rd.gain, 0), 0, 255), LevelMax),
      brightness := SetTrackbarPos(Clamp(OrDefault(rd.brightness, 0), 0, 500), LevelMax),
      contrast := SetTrackbarPos(Clamp(OrDefault(rd.contrast, 0), 0, 500), LevelMax),
      saturation := SetTrackbarPos(Clamp(OrDefault(rd.saturation, 0), 0, 500), LevelMax),
      gamma := SetTrackbarPos(Clamp(OrDefault(rd.gamma, 0), 0, 500), GammaMax),
      autoWb := if awb != 0 then 1 else 0,
      wbTemp := SetTrackbarPos(Clamp(OrDefault(rd.wbTemperature, 4500), 2000, 8000), WbTempMax));
    var last' := CamParams(last.cameraIndex, curW, curH, curFps, [s.roiX, s.roiY, s.roiW, s.roiH],
                           s'.autoExp, s'.exposure, s'.gain, s'.brightness, s'.contrast,
                           s'.saturation, s'.gamma, s'.autoWb, s'.wbTemp);
    (s', last')
  }

  /** A brightness of 300 is within the tool's own clamp to 500 but beyond
      the trackbar's 255: the slider and the remembered profile both show
      255. */
  lemma BrightnessStopsAtTrackbar(s: Sliders, last: CamParams, rd: Readings, autoExposure: real -> int)
    requires rd.brightness == 300.0
    ensures SyncSliders(s, last, rd, autoExposure).0.brightness == 255
    ensures SyncSliders(s, last, rd, autoExposure).1.brightness == 255
  {
  }

  /** The capture handle: none yet, or a handle that opened or did not. */
  datatype Capture = NoCapture | Handle(isOpen: bool)

  /** The tool's state between loop iterations. */
  datatype Tool = Tool(cap: Capture, last: CamParams, sliders: Sliders)

  const InitialTool: Tool := Tool(NoCapture, Defaults, InitialSliders)

  /** The `need_open` test: no handle yet, a different camera index, or a
      non-zero width, height or frame-rate slider that differs from the last
      opened profile. */
  predicate NeedOpen(t: Tool) {
    || t.cap.NoCapture?
    || t.last.cameraIndex != t.sliders.camIndex
    || (t.sliders.width != 0 && t.last.width != t.sliders.width)
    || (t.sliders.height != 0 && t.last.height != t.sliders.height)
    || (t.sliders.fps != 0 && t.last.fps != t.sliders.fps)
  }

  /** Sliders left at zero never force a reopen: with a handle and the same
      camera index, a reopen is needed exactly when some non-zero size or
      rate slider disagrees with the last opened profile. */
  lemma ZeroSlidersNeverForceReopen(t: Tool)
    requires t.cap.Handle? && t.last.cameraIndex == t.sliders.camIndex
    requires t.sliders.width == 0 && t.sliders.height == 0 && t.sliders.fps == 0
    ensures !NeedOpen(t)
  {
  }

  /** How the device behaves during one reopen: whether it opens with the
      preferred backend or the fallback, and what it reports before and
      after the requested size and rate are applied. */
  datatype Device = Device(opensPreferred: bool, opensFallback: bool, first: Readings, second: Readings)

  /** A property write the tool issues after opening. */
  datatype PropertyWrite = SetWidth(w: int) | SetHeight(h: int) | SetFps(fps: int)

  /** The writes issued after the first back-fill: each non-zero size or
      rate slider, in the order width, height, frame rate. */
  function RequestedWrites(s: Sliders): (ws: seq<PropertyWrite>)
    ensures SetWidth(s.width) in ws <==> s.width != 0
    ensures SetHeight(s.height) in ws <==> s.height != 0
    ensures SetFps(s.fps) in ws <==> s.fps != 0
    ensures |ws| <= 3
  {
    (if s.width != 0 then [SetWidth(s.width)] else [])
    + (if s.height != 0 then [SetHeight(s.height)] else [])
    + (if s.fps != 0 then [SetFps(s.fps)] else [])
  }

  /** `reopen_if_needed`, with the device as an input. When a reopen is
      needed: if neither backend opens, the slider values become the last
      opened profile; otherwise the sliders are back-filled from the device,
      the non-zero size and rate are written, and the sliders are back-filled
      again. */
  function ReopenIfNeeded(t: Tool, dev: Device, autoExposure: real -> int): (res: (Tool, seq<PropertyWrite>))
    ensures !NeedOpen(t) ==> res == (t, [])
    ensures NeedOpen(t) && !(dev.opensPreferred || dev.opensFallback) ==>
              && res.0.cap == Handle(false) && res.0.sliders == t.sliders && res.1 == []
              && res.0.last == Defaults.(cameraIndex := t.sliders.camIndex, width := t.sliders.width,
                                         height := t.sliders.height, fps := t.sliders.fps)
    ensures NeedOpen(t) && (dev.opensPreferred || dev.opensFallback) ==>
              var first := SyncSliders(t.sliders, Defaults.(cameraIndex := t.sliders.camIndex, width := 0, height := 0, fps := 0),
                                       dev.first, autoExposure);
              var second := SyncSliders(first.0, first.1, dev.second, autoExposure);
              && res.0.cap == Handle(true)
              && res.0.last.cameraIndex == t.sliders.camIndex
              && res.0.sliders.camIndex == t.sliders.camIndex
              && res.1 == RequestedWrites(first.0)
              && res.0.sliders == second.0 && res.0.last == second.1
  {
    if !NeedOpen(t) then (t, [])
    else
      var idx := t.sliders.camIndex;
      if !(dev.opensPreferred || dev.opensFallback) then
        var last := Defaults.(cameraIndex := idx, width := t.sliders.width,
                              height := t.sliders.height, fps := t.sliders.fps);
        (Tool(Handle(false), last, t.sliders), [])
      else
        var last0 := Defaults.(cameraIndex := idx, width := 0, height := 0, fps := 0);
        var (s1, last1) := SyncSliders(t.sliders, last0, dev.first, autoExposure);
        var writes := RequestedWrites(s1);
        var (s2, last2) := SyncSliders(s1, last1, dev.second, autoExposure);
        (Tool(Handle(true), last2, s2), writes)
  }

  /** A failed open is not retried: with the sliders unchanged, the next
      iteration does not reopen. */
  lemma FailedOpenIsNotRetried(t: Tool, dev: Device, autoExposure: real -> int)
    requires NeedOpen(t) && !(dev.opensPreferred || dev.opensFallback)
    ensures !NeedOpen(ReopenIfNeeded(t, dev, autoExposure).0)
  {
  }

  /** After a successful reopen the tool asks the device for the size and
      rate it reported when first opened, as far as the trackbars hold them:
      a width, height or rate the sliders cannot show is requested at the
      trackbar's maximum, and one reported as zero or below is not
      requested. */
  lemma ReopenRequestsFirstReading(t: Tool, dev: Device, autoExposure: real -> int)
    requires NeedOpen(t) && (dev.opensPreferred || dev.opensFallback)
    ensures var ws := ReopenIfNeeded(t, dev, autoExposure).1;
            var w := Clamp(OrDefault(dev.first.width, 0), 0, WidthMax);
            var h := Clamp(OrDefault(dev.first.height, 0), 0, HeightMax);
            var f := Clamp(OrDefault(dev.first.fps, 30), 0, FpsMax);
            && (SetWidth(w) in ws <==> OrDefault(dev.first.width, 0) > 0)
            && (SetHeight(h) in ws <==> OrDefault(dev.first.height, 0) > 0)
            && (SetFps(f) in ws <==> OrDefault(dev.first.fps, 30) > 0)
            && (forall x :: x in ws ==> x == SetWidth(w) || x == SetHeight(h) || x == SetFps(f))
  {
  }

  /** After a successful reopen, the next iteration reopens again exactly
      when the device's second report lies beyond what the sliders can show:
      a frame rate above 240, a width above 3840 or a height above 2160. The
      slider is held at the trackbar's maximum while the remembered profile
      keeps the reported value, so the two never agree. */
  lemma ReopenSettlesUnlessBeyondSliders(t: Tool, dev: Device, autoExposure: real -> int)
    requires NeedOpen(t) && (dev.opensPreferred || dev.opensFallback)
    ensures NeedOpen(ReopenIfNeeded(t, dev, autoExposure).0) <==>
              || OrDefault(dev.second.fps, 30) > FpsMax
              || OrDefault(dev.second.width, 0) > WidthMax
              || OrDefault(dev.second.height, 0) > HeightMax
  {
    var t' := ReopenIfNeeded(t, dev, autoExposure).0;
    assert t'.sliders.width != 0 && t'.last.width != t'.sliders.width <==> OrDefault(dev.second.width, 0) > WidthMax;
    assert t'.sliders.height != 0 && t'.last.height != t'.sliders.height <==> OrDefault(dev.second.height, 0) > HeightMax;
  }

  /** A device that reports a 4096-pixel width keeps the tool reopening:
      the Width slider stops at 3840. */
  lemma WideDeviceReopensForever(t: Tool, dev: Device, autoExposure: real -> int)
    requires NeedOpen(t) && (dev.opensPreferred || dev.opensFallback)
    requires dev.second.width == 4096.0
    ensures ReopenIfNeeded(t, dev, autoExposure).0.sliders.width == WidthMax
    ensures NeedOpen(ReopenIfNeeded(t, dev, autoExposure).0)
  {
    ReopenSettlesUnlessBeyondSliders(t, dev, autoExposure);
  }
}

=== FILE: controller.dfy ===
/** The control panel's decision logic: refreshing the weight and stopping
    the cameras on a low reading, the per-camera and "both cameras"
    toggles with their file-collision dialog, the button labels, and the
    motor and fan inputs. Dialog answers, the clock, the file system and
    the devices are inputs. */
module Controller {
  import opened Wrappers
  import opened Text
  import McuControl
  import WeightReader
  import Geometry
  import JsonValue
  import opened VideoRecorder

  // ---------------------------------------------------------------------
  // Panel state

  /** A camera button reads "start recording (camera k)" or "stop
      recording (camera k)". */
  datatype ButtonLabel = StartLabel | StopLabel

  /** The "both cameras" button: start both, stop both, or the hint that
      the two cameras are in different states. */
  datatype BothLabel = BothStart | BothStop | BothInconsistent

  /** What the weight field shows: the raw text when it holds no number,
      the value in grams, or "ERR". */
  datatype WeightDisplay = ShowText(text: string) | ShowGrams(grams: real) | ShowErr

  /** The panel: the recorder (absent when it failed to initialise), the
      three camera buttons, the weight field, and the last value read (0.0
      before the first number). */
  datatype Panel = Panel(
    recorder: Option<Recorder>,
    cam0: ButtonLabel,
    cam1: ButtonLabel,
    both: BothLabel,
    weight: WeightDisplay,
    currentWeight: real)

  predicate PanelValid(p: Panel) {
    p.recorder.Some? ==> Valid(p.recorder.value)
  }

  /** The panel before the first weight refresh: recordings go to `<app>/videos` at a target of 30
      frames per second from cameras 0 and 1 (no recorder if its
      construction raised), every button offers to start, and the weight
      field shows 0.00 g. The application never loads per-camera
      parameters, so no camera has an ROI and recordings are not cropped. */
  function InitialPanel(appDir: string, recorderInits: bool): (p: Panel)
    ensures PanelValid(p)
    ensures p.recorder.Some? <==> recorderInits
    ensures p.recorder.Some? ==>
              && p.recorder.value.saveDir == SaveDir(appDir) && p.recorder.value.targetFps == 30.0
              && 0 in p.recorder.value.flags && 1 in p.recorder.value.flags
              && forall i :: !IsRecording(p.recorder.value, i)
    ensures p.recorder.Some? ==> p.recorder.value.rois == map[] && forall i :: RoiFor(p.recorder.value, i) == Ok(Geometry.NoRoi)
    ensures p.cam0 == StartLabel && p.cam1 == StartLabel && p.both == BothStart
    ensures p.weight == ShowGrams(0.0) && p.currentWeight == 0.0
  {
    var r := if recorderInits then Some(NewRecorder(SaveDir(appDir), [0, 1], 30.0, map[])) else None;
    Panel(r, StartLabel, StartLabel, BothStart, ShowGrams(0.0), 0.0)
  }

  /** Message boxes the handlers show. */
  datatype Notice =
    | NameMissing
    | NoRecorder
    | Started(cam: int)
    | Saved(cam: int, path: string)
    | SavedMissing(cam: int)
    | ToggleFailed(cam: int, error: StartError)
    | StatesDiffer(camera0Recording: bool)
    | BothStarted
    | BothFailed(error: StartError)
    | BothStopped(paths: seq<string>)
    | AutoStopped(paths: seq<string>)

  /** The answer to "overwrite?": yes overwrites, no appends a time suffix,
      cancel gives up. */
  datatype Choice = Yes | No | Cancel

  datatype Timestamp = Timestamp(year: nat, month: nat, day: nat, hour: nat, minute: nat, second: nat)

  /** What the user and the machine supply to a camera handler: the file
      name field, the record-mode radio button, the files that exist, the
      dialog answer and the current time. */
  datatype Ui = Ui(basename: string, modeText: string, existing: set<string>, choice: Choice, now: Timestamp)

  /** Recordings are saved under `<application directory>/videos`. */
  function SaveDir(appDir: string): string {
    appDir + "/" + "videos"
  }

  // ---------------------------------------------------------------------
  // Button labels

  function CamButton(recording: bool): ButtonLabel {
    if recording then StopLabel else StartLabel
  }

  /** `_update_both_cameras_button`'s choice of text. */
  function BothLabelFor(rec0: bool, rec1: bool): (l: BothLabel)
    ensures l == BothStop <==> rec0 && rec1
    ensures l == BothStart <==> !rec0 && !rec1
    ensures l == BothInconsistent <==> rec0 != rec1
  {
    if rec0 && rec1 then BothStop
    else if !rec0 && !rec1 then BothStart
    else BothInconsistent
  }

  /** `_update_both_cameras_button`: nothing without a recorder. */
  function UpdateBothButton(p: Panel): (p': Panel)
    ensures p.recorder.None? ==> p' == p
    ensures p.recorder.Some? ==>
              p' == p.(both := BothLabelFor(IsRecording(p.recorder.value, 0), IsRecording(p.recorder.value, 1)))
  {
    match p.recorder
    case None => p
    case Some(r) => p.(both := BothLabelFor(IsRecording(r, 0), IsRecording(r, 1)))
  }

  function SetCamButton(p: Panel, idx: int, b: ButtonLabel): Panel
    requires idx == 0 || idx == 1
  {
    if idx == 0 then p.(cam0 := b) else p.(cam1 := b)
  }

  // ---------------------------------------------------------------------
  // File collisions

  /** `time.strftime("_%Y%m%d_%H%M%S")` */
  function TimeSuffix(t: Timestamp): string {
    "_" + Fields(t.year, 4, t.month, t.day) + "_" + Fields(t.hour, 2, t.minute, t.second)
  }

  /** Three zero-padded fields side by side, the first `width` wide and the
      others two wide. */
  function Fields(a: nat, width: nat, b: nat, c: nat): string {
    ZeroPad(a, width) + ZeroPad(b, 2) + ZeroPad(c, 2)
  }

  /** For a calendar time the suffix is sixteen characters: an underscore,
      eight date digits, an underscore, six time digits. */
  lemma TimeSuffixShape(t: Timestamp)
    requires t.year < 10000 && t.month < 100 && t.day < 100
    requires t.hour < 100 && t.minute < 100 && t.second < 100
    ensures var s := TimeSuffix(t);
            && |s| == 16 && s[0] == '_' && s[9] == '_'
            && AllDigits(s[1..9]) && AllDigits(s[10..])
  {
    assert Pow10(2) == 100 && Pow10(4) == 10000;
    var date := Fields(t.year, 4, t.month, t.day);
    var time := Fields(t.hour, 2, t.minute, t.second);
    FieldsShape(t.year, 4, t.month, t.day);
    FieldsShape(t.hour, 2, t.minute, t.second);
    var s := TimeSuffix(t);
    assert s == "_" + date + "_" + time;
    assert s[1..9] == date;
    assert s[10..] == time;
  }

  /** Fields within range fill `width + 4` digits. */
  lemma FieldsShape(a: nat, width: nat, b: nat, c: nat)
    requires 1 <= width && a < Pow10(width) && b < 100 && c < 100
    ensures |Fields(a, width, b, c)| == width + 4 && AllDigits(Fields(a, width, b, c))
  {
    assert Pow10(2) == 100;
    Width(a, width);
    Width(b, 2);
    Width(c, 2);
    var x, y, z := ZeroPad(a, width), ZeroPad(b, 2), ZeroPad(c, 2);
    var s := x + y + z;
    assert forall k :: 0 <= k < |s| ==> IsDigit(s[k]) by {
      forall k | 0 <= k < |s| ensures IsDigit(s[k]) {
        if k < width {
          assert s[k] == x[k];
        } else if k < width + 2 {
          assert s[k] == y[k - width];
        } else {
          assert s[k] == z[k - width - 2];
        }
      }
    }
  }

  /** A number below `10^width` zero-padded to `width` has exactly
      `width` digits. */
  lemma Width(n: nat, width: nat)
    requires 1 <= width && n < Pow10(width)
    ensures |ZeroPad(n, width)| == width && AllDigits(ZeroPad(n, width))
  {
    ZeroPadProperties(n, width);
    NatToStringWidth(n, width);
  }

  /** The path `_toggle_camera` checks before starting:
      `<app>/videos/<stem>_<label>` plus `.mp4` unless the mode is
      "frames". */
  function Candidate(appDir: string, stem: string, idx: int, modeText: string): string {
    appDir + "/" + "videos" + "/" + stem + "_" + IntToString(idx + 1)
    + (if modeText == "frames" then "" else ".mp4")
  }

  /** The checked path is the path the recorder will write. */
  lemma CandidateIsOutputPath(appDir: string, stem: string, idx: int, modeText: string)
    ensures Candidate(appDir, stem, idx, modeText) == OutputPath(SaveDir(appDir), stem, idx, ModeOf(modeText))
  {
  }

  /** The stem to record under: unchanged when the camera is recording or
      the candidate does not exist; otherwise the dialog decides between
      overwriting (same stem), a time suffix, and giving up (`None`). */
  function ChooseStem(stem: string, collides: bool, choice: Choice, now: Timestamp): (r: Option<string>)
    ensures !collides ==> r == Some(stem)
    ensures collides ==> (r.None? <==> choice == Cancel)
    ensures collides && choice == Yes ==> r == Some(stem)
    ensures collides && choice == No ==> r == Some(stem + TimeSuffix(now))
  {
    if !collides then Some(stem)
    else match choice
      case Cancel => None
      case No => Some(stem + TimeSuffix(now))
      case Yes => Some(stem)
  }

  /** Answering "no" moves the recording off the existing file: the new
      output path differs from the one that collided. */
  lemma SuffixAvoidsCollision(appDir: string, stem: string, idx: int, modeText: string, now: Timestamp)
    ensures OutputPath(SaveDir(appDir), stem + TimeSuffix(now), idx, ModeOf(modeText))
            != Candidate(appDir, stem, idx, modeText)
  {
    CandidateIsOutputPath(appDir, stem, idx, modeText);
    var a := OutputPath(SaveDir(appDir), stem + TimeSuffix(now), idx, ModeOf(modeText));
    var b := OutputPath(SaveDir(appDir), stem, idx, ModeOf(modeText));
    assert |TimeSuffix(now)| > 0;
    assert |a| == |b| + |TimeSuffix(now)|;
  }

  // ---------------------------------------------------------------------
  // Camera handlers

  /** `_thread`: a camera handler runs only when the file name field is not
      blank; otherwise a warning is shown. */
  function Guarded(basename: string): (run: bool)
    ensures run <==> exists k :: 0 <= k < |basename| && !IsSpace(basename[k])
  {
    StripEmptyIffAllSpaces(basename);
    Strip(basename) != []
  }

  /** `_toggle_camera` for camera `idx` (0 or 1). */
  function ToggleCamera(p: Panel, idx: int, ui: Ui, appDir: string, probe: StartProbe): (res: (Panel, seq<Notice>))
    requires idx == 0 || idx == 1
    requires PanelValid(p)
    ensures PanelValid(res.0)
    ensures p.recorder.None? ==> res == (p, [NoRecorder])
    ensures p.recorder.Some? && !IsRecording(p.recorder.value, idx) ==>
              var stem := Strip(ui.basename);
              var chosen := ChooseStem(stem, Candidate(appDir, stem, idx, ui.modeText) in ui.existing, ui.choice, ui.now);
              && (chosen.None? ==> res == (p, []))
              && (chosen.Some? && ProbeStarts(probe, ui.modeText) ==>
                    && res.0.recorder.Some? && IsRecording(res.0.recorder.value, idx)
                    && idx in res.0.recorder.value.sessions
                    && res.0.recorder.value.sessions[idx].outPath
                       == OutputPath(p.recorder.value.saveDir, chosen.value, idx, ModeOf(ui.modeText)))
  {
    match p.recorder
    case None => (p, [NoRecorder])
    case Some(r) =>
      var stem := Strip(ui.basename);
      var candidate := Candidate(appDir, stem, idx, ui.modeText);
      var collides := !IsRecording(r, idx) && candidate in ui.existing;
      match ChooseStem(stem, collides, ui.choice, ui.now)
      case None => (p, [])
      case Some(stem') =>
        ToggleKeepsOthers(r, idx, stem', ui.modeText, probe);
        AfterToggle(p, idx, Toggle(r, idx, stem', ui.modeText, probe), ui)
  }

  /** The panel after the recorder's toggle: an exception is shown as an
      error and changes nothing; otherwise the recorder is replaced, the
      camera's button follows whether it started, the combined label is
      refreshed, and the start or the saved file is reported. */
  function AfterToggle(p: Panel, idx: int, t: ToggleResult, ui: Ui): (res: (Panel, seq<Notice>))
    requires idx == 0 || idx == 1
    requires PanelValid(p) && (t.Returned? ==> Valid(t.next))
    ensures PanelValid(res.0)
    ensures t.Raised? ==> res == (p, [ToggleFailed(idx, t.error)])
    ensures t.Returned? ==>
              && res.0.recorder == Some(t.next)
              && (if idx == 0 then res.0.cam0 else res.0.cam1) == CamButton(t.started)
              && res.0.both == BothLabelFor(IsRecording(t.next, 0), IsRecording(t.next, 1))
              && |res.1| == 1
              && (t.started ==> res.1[0] == Started(idx))
              && (!t.started ==> res.1[0].Saved? || res.1[0].SavedMissing?)
    ensures t.Returned? && !t.started ==>
              res.1 == [if Kept(t.saved, ui.existing) then Saved(idx, t.saved.value) else SavedMissing(idx)]
  {
    match t
    case Raised(e) => (p, [ToggleFailed(idx, e)])
    case Returned(r', started, saved) =>
      var notice :=
        if started then Started(idx)
        else if saved.Some? && saved.value in ui.existing then Saved(idx, saved.value)
        else SavedMissing(idx);
      var p' := SetCamButton(p.(recorder := Some(r')), idx, CamButton(started));
      (UpdateBothButton(p'), [notice])
  }

  /** The whole button press: guarded, then toggled. */
  function PressCamera(p: Panel, idx: int, ui: Ui, appDir: string, probe: StartProbe): (res: (Panel, seq<Notice>))
    requires idx == 0 || idx == 1
    requires PanelValid(p)
    ensures PanelValid(res.0)
    ensures Strip(ui.basename) == [] ==> res == (p, [NameMissing])
    ensures Strip(ui.basename) != [] ==> res == ToggleCamera(p, idx, ui, appDir, probe)
  {
    if !Guarded(ui.basename) then (p, [NameMissing])
    else ToggleCamera(p, idx, ui, appDir, probe)
  }

  /** Pressing the button of a recording camera stops it, resets its
      button and reports the saved output: "saved" with its path when that
      file exists, a warning otherwise. */
  lemma ToggleCameraStopsRecording(p: Panel, idx: int, ui: Ui, appDir: string, probe: StartProbe)
    requires idx == 0 || idx == 1
    requires PanelValid(p) && p.recorder.Some? && IsRecording(p.recorder.value, idx)
    ensures var (p', notices) := ToggleCamera(p, idx, ui, appDir, probe);
            && p'.recorder.Some? && !IsRecording(p'.recorder.value, idx)
            && (if idx == 0 then p'.cam0 else p'.cam1) == StartLabel
            && |notices| == 1 && (notices[0].Saved? || notices[0].SavedMissing?)
            && var saved := p.recorder.value.sessions[idx].outPath;
               notices == [if saved in ui.existing then Saved(idx, saved) else SavedMissing(idx)]
  {
    var r := p.recorder.value;
    var stem := Strip(ui.basename);
    assert ChooseStem(stem, false, ui.choice, ui.now) == Some(stem);
    var t := Toggle(r, idx, stem, ui.modeText, probe);
    assert ToggleCamera(p, idx, ui, appDir, probe) == AfterToggle(p, idx, t, ui);
    assert t.Returned? && !t.started && !IsRecording(t.next, idx);
  }

  /** Pressing the button of an idle camera whose devices work, with no
      file in the way, starts it and turns its button to "stop". */
  lemma ToggleCameraStartsIdle(p: Panel, idx: int, ui: Ui, appDir: string, probe: StartProbe)
    requires idx == 0 || idx == 1
    requires PanelValid(p) && p.recorder.Some? && !IsRecording(p.recorder.value, idx)
    requires Candidate(appDir, Strip(ui.basename), idx, ui.modeText) !in ui.existing
    requires ProbeStarts(probe, ui.modeText)
    ensures var (p', notices) := ToggleCamera(p, idx, ui, appDir, probe);
            && p'.recorder.Some? && IsRecording(p'.recorder.value, idx)
            && (if idx == 0 then p'.cam0 else p'.cam1) == StopLabel
            && notices == [Started(idx)]
  {
    var r := p.recorder.value;
    var stem := Strip(ui.basename);
    assert ChooseStem(stem, false, ui.choice, ui.now) == Some(stem);
    StartSucceedsIffProbeStarts(r, idx, stem, ui.modeText, probe);
    var t := Toggle(r, idx, stem, ui.modeText, probe);
    assert ToggleCamera(p, idx, ui, appDir, probe) == AfterToggle(p, idx, t, ui);
    assert t.Returned? && t.started && IsRecording(t.next, idx);
  }

  /** The overwrite dialog decides where an idle camera records, in a
      recorder saving to the application's `videos` folder: with no file
      in the way, or after "yes", into the path that was checked, which is
      overwritten; after "no", into the time-suffixed path, which differs
      from it. */
  lemma ToggleCameraHonoursDialog(p: Panel, idx: int, ui: Ui, appDir: string, probe: StartProbe)
    requires idx == 0 || idx == 1
    requires PanelValid(p) && p.recorder.Some? && !IsRecording(p.recorder.value, idx)
    requires p.recorder.value.saveDir == SaveDir(appDir)
    requires ui.choice != Cancel && ProbeStarts(probe, ui.modeText)
    ensures var (p', notices) := ToggleCamera(p, idx, ui, appDir, probe);
            var stem := Strip(ui.basename);
            var candidate := Candidate(appDir, stem, idx, ui.modeText);
            && p'.recorder.Some? && IsRecording(p'.recorder.value, idx) && idx in p'.recorder.value.sessions
            && notices == [Started(idx)]
            && (candidate !in ui.existing || ui.choice == Yes ==>
                  p'.recorder.value.sessions[idx].outPath == candidate)
            && (candidate in ui.existing && ui.choice == No ==>
                  && p'.recorder.value.sessions[idx].outPath
                     == OutputPath(SaveDir(appDir), stem + TimeSuffix(ui.now), idx, ModeOf(ui.modeText))
                  && p'.recorder.value.sessions[idx].outPath != candidate)
  {
    var r := p.recorder.value;
    var stem := Strip(ui.basename);
    var chosen := ChooseStem(stem, Candidate(appDir, stem, idx, ui.modeText) in ui.existing, ui.choice, ui.now);
    StartSucceedsIffProbeStarts(r, idx, chosen.value, ui.modeText, probe);
    var t := Toggle(r, idx, chosen.value, ui.modeText, probe);
    assert ToggleCamera(p, idx, ui, appDir, probe) == AfterToggle(p, idx, t, ui);
    CandidateIsOutputPath(appDir, stem, idx, ui.modeText);
    SuffixAvoidsCollision(appDir, stem, idx, ui.modeText, ui.now);
  }

  /** Cancelling the overwrite dialog changes nothing and shows nothing. */
  lemma ToggleCameraCancelled(p: Panel, idx: int, ui: Ui, appDir: string, probe: StartProbe)
    requires idx == 0 || idx == 1
    requires PanelValid(p) && p.recorder.Some? && !IsRecording(p.recorder.value, idx)
    requires Candidate(appDir, Strip(ui.basename), idx, ui.modeText) in ui.existing && ui.choice == Cancel
    ensures ToggleCamera(p, idx, ui, appDir, probe) == (p, [])
  {
    assert ChooseStem(Strip(ui.basename), true, ui.choice, ui.now).None?;
  }

  /** A start that raises leaves the panel as it was and shows the error. */
  lemma ToggleCameraStartFails(p: Panel, idx: int, ui: Ui, appDir: string, probe: StartProbe)
    requires idx == 0 || idx == 1
    requires PanelValid(p) && p.recorder.Some? && !IsRecording(p.recorder.value, idx)
    requires Candidate(appDir, Strip(ui.basename), idx, ui.modeText) !in ui.existing
    requires Toggle(p.recorder.value, idx, Strip(ui.basename), ui.modeText, probe).Raised?
    ensures var e := Toggle(p.recorder.value, idx, Strip(ui.basename), ui.modeText, probe).error;
            ToggleCamera(p, idx, ui, appDir, probe) == (p, [ToggleFailed(idx, e)])
  {
    assert ChooseStem(Strip(ui.basename), false, ui.choice, ui.now) == Some(Strip(ui.basename));
  }

  /** Whatever happens, the other camera keeps its state, and a panel that
      changed shows the combined label of the two states. */
  lemma ToggleCameraKeepsOtherCamera(p: Panel, idx: int, ui: Ui, appDir: string, probe: StartProbe)
    requires idx == 0 || idx == 1
    requires PanelValid(p) && p.recorder.Some?
    ensures var (p', _) := ToggleCamera(p, idx, ui, appDir, probe);
            && p'.recorder.Some?
            && (forall j :: j != idx ==> IsRecording(p'.recorder.value, j) == IsRecording(p.recorder.value, j))
            && (p' != p ==> p'.both == BothLabelFor(IsRecording(p'.recorder.value, 0), IsRecording(p'.recorder.value, 1)))
  {
    var r := p.recorder.value;
    var stem := Strip(ui.basename);
    var collides := !IsRecording(r, idx) && Candidate(appDir, stem, idx, ui.modeText) in ui.existing;
    var chosen := ChooseStem(stem, collides, ui.choice, ui.now);
    if chosen.Some? {
      var t := Toggle(r, idx, chosen.value, ui.modeText, probe);
      ToggleKeepsOthers(r, idx, chosen.value, ui.modeText, probe);
      assert ToggleCamera(p, idx, ui, appDir, probe) == AfterToggle(p, idx, t, ui);
      if t.Returned? {
        assert forall j :: j != idx ==> IsRecording(t.next, j) == IsRecording(r, j);
      }
    }
  }

  /** The "both cameras" candidates are the single-camera candidates of
      cameras 0 and 1. */
  function BothCandidate(appDir: string, stem: string, camText: string, modeText: string): string {
    appDir + "/" + "videos" + "/" + stem + "_" + camText + (if modeText == "frames" then "" else ".mp4")
  }

  lemma BothCandidatesAreCameraCandidates(appDir: string, stem: string, modeText: string)
    ensures BothCandidate(appDir, stem, "1", modeText) == Candidate(appDir, stem, 0, modeText)
    ensures BothCandidate(appDir, stem, "2", modeText) == Candidate(appDir, stem, 1, modeText)
  {
    assert IntToString(1) == "1";
    assert IntToString(2) == "2";
  }

  /** The devices let a start through: the camera opens, the first read
      succeeds and then the frames folder is created (frames mode) or the
      encoder opens (video mode). */
  predicate ProbeStarts(probe: StartProbe, modeText: string) {
    && (probe.opensPreferred || probe.opensFallback)
    && probe.firstRead.Some?
    && (if ModeOf(modeText) == Frames then probe.folderCreates else probe.writerOpens)
  }

  /** A start succeeds exactly when the devices let it through. */
  lemma StartSucceedsIffProbeStarts(r: Recorder, idx: int, stem: string, modeText: string, probe: StartProbe)
    requires !IsRecording(r, idx)
    ensures Start(r, idx, stem, modeText, probe).Ok? <==> ProbeStarts(probe, modeText)
  {
  }

  /** A toggle on an idle camera either raises or reports that it started:
      it never returns "not started". */
  lemma IdleToggleStartsOrRaises(r: Recorder, idx: int, stem: string, modeText: string, probe: StartProbe)
    requires Valid(r) && !IsRecording(r, idx)
    ensures var t := Toggle(r, idx, stem, modeText, probe);
            t.Raised? || (t.started && IsRecording(t.next, idx))
  {
  }

  /** The idle half of `_toggle_both_cameras` as written: camera 0 is
      started, then camera 1; a start that raises ends the handler with an
      error and leaves the buttons alone, so a failure of camera 1 leaves
      camera 0 recording. The rollback the handler has for a toggle that
      returns "not started" cannot be reached. */
  function StartBoth(p: Panel, r: Recorder, stem: string, ui: Ui, probe0: StartProbe, probe1: StartProbe): (res: (Panel, seq<Notice>))
    requires p.recorder == Some(r)
    requires Valid(r) && !IsRecording(r, 0) && !IsRecording(r, 1)
    ensures PanelValid(res.0)
    ensures !ProbeStarts(probe0, ui.modeText) ==>
              res == (p, [BothFailed(Start(r, 0, stem, ui.modeText, probe0).error)])
    ensures ProbeStarts(probe0, ui.modeText) ==>
              && res.0.recorder.Some? && 0 in res.0.recorder.value.sessions
              && res.0.recorder.value.sessions[0].outPath == OutputPath(r.saveDir, stem, 0, ModeOf(ui.modeText))
    ensures ProbeStarts(probe0, ui.modeText) && !ProbeStarts(probe1, ui.modeText) ==>
              && IsRecording(res.0.recorder.value, 0) && !IsRecording(res.0.recorder.value, 1)
              && res.0 == p.(recorder := res.0.recorder)
              && res.1 == [BothFailed(Start(r, 1, stem, ui.modeText, probe1).error)]
    ensures ProbeStarts(probe0, ui.modeText) && ProbeStarts(probe1, ui.modeText) ==>
              && IsRecording(res.0.recorder.value, 0) && IsRecording(res.0.recorder.value, 1)
              && 1 in res.0.recorder.value.sessions
              && res.0.recorder.value.sessions[1].outPath == OutputPath(r.saveDir, stem, 1, ModeOf(ui.modeText))
              && res.0.cam0 == StopLabel && res.0.cam1 == StopLabel && res.0.both == BothStop
              && res.1 == [BothStarted]
  {
    StartSucceedsIffProbeStarts(r, 0, stem, ui.modeText, probe0);
    match Toggle(r, 0, stem, ui.modeText, probe0)
    case Raised(e) => (p, [BothFailed(e)])
    case Returned(ra, started0, _) =>
      ToggleKeepsOthers(r, 0, stem, ui.modeText, probe0);
      StartSucceedsIffProbeStarts(ra, 1, stem, ui.modeText, probe1);
      match Toggle(ra, 1, stem, ui.modeText, probe1)
      case Raised(e) => (p.(recorder := Some(ra)), [BothFailed(e)])
      case Returned(rb, started1, _) =>
        ToggleKeepsOthers(ra, 1, stem, ui.modeText, probe1);
        if started0 && started1 then
          (p.(recorder := Some(rb), cam0 := StopLabel, cam1 := StopLabel, both := BothStop), [BothStarted])
        else
          // The rollback after a partial start: both cameras were idle, so
          // a toggle that returns has started its camera.
          assert false; (p, [])
  }

  /** A saved path that is reported: present and existing on disk. */
  predicate Kept(saved: Option<string>, existing: set<string>) {
    saved.Some? && saved.value in existing
  }

  /** How many saved paths are reported. */
  function KeptCount(saved: seq<Option<string>>, existing: set<string>): (n: nat)
    ensures n <= |saved|
  {
    if saved == [] then 0 else (if Kept(saved[0], existing) then 1 else 0) + KeptCount(saved[1..], existing)
  }

  /** The saved paths that exist, in order. */
  function ExistingPaths(saved: seq<Option<string>>, existing: set<string>): (paths: seq<string>)
    ensures forall k :: 0 <= k < |paths| ==> paths[k] in existing
    ensures |paths| == KeptCount(saved, existing)
  {
    if saved == [] then []
    else
      (if Kept(saved[0], existing) then [saved[0].value] else [])
      + ExistingPaths(saved[1..], existing)
  }

  /** Every saved path that exists is reported, in camera order: the one
      at `j` is reported at the position given by how many reported paths
      precede it. */
  lemma {:induction false} ExistingPathsInOrder(saved: seq<Option<string>>, existing: set<string>)
    ensures forall j :: 0 <= j < |saved| && Kept(saved[j], existing) ==>
              && KeptCount(saved[..j], existing) < |ExistingPaths(saved, existing)|
              && ExistingPaths(saved, existing)[KeptCount(saved[..j], existing)] == saved[j].value
    decreases |saved|
  {
    if saved != [] {
      ExistingPathsInOrder(saved[1..], existing);
      forall j | 0 <= j < |saved| && Kept(saved[j], existing)
        ensures KeptCount(saved[..j], existing) < |ExistingPaths(saved, existing)|
        ensures ExistingPaths(saved, existing)[KeptCount(saved[..j], existing)] == saved[j].value
      {
        PathOfCamera(saved, existing, j);
      }
    }
  }

  /** One step of the induction above. */
  lemma PathOfCamera(saved: seq<Option<string>>, existing: set<string>, j: nat)
    requires j < |saved| && Kept(saved[j], existing)
    requires forall i :: 0 <= i < |saved| - 1 && Kept(saved[1..][i], existing) ==>
               && KeptCount(saved[1..][..i], existing) < |ExistingPaths(saved[1..], existing)|
               && ExistingPaths(saved[1..], existing)[KeptCount(saved[1..][..i], existing)] == saved[1..][i].value
    ensures KeptCount(saved[..j], existing) < |ExistingPaths(saved, existing)|
    ensures ExistingPaths(saved, existing)[KeptCount(saved[..j], existing)] == saved[j].value
  {
    var tail := saved[1..];
    var head := if Kept(saved[0], existing) then [saved[0].value] else [];
    assert ExistingPaths(saved, existing) == head + ExistingPaths(tail, existing);
    if j == 0 {
      assert saved[..0] == [];
    } else {
      assert saved[..j][1..] == tail[..j - 1];
      assert KeptCount(saved[..j], existing) == |head| + KeptCount(tail[..j - 1], existing);
      assert tail[j - 1] == saved[j];
    }
  }

  /** For the two cameras: camera 0's file comes first when both exist,
      and a missing or absent file is left out. */
  lemma TwoCameraPaths(a: Option<string>, b: Option<string>, existing: set<string>)
    ensures Kept(a, existing) && Kept(b, existing) ==> ExistingPaths([a, b], existing) == [a.value, b.value]
    ensures Kept(a, existing) && !Kept(b, existing) ==> ExistingPaths([a, b], existing) == [a.value]
    ensures !Kept(a, existing) && Kept(b, existing) ==> ExistingPaths([a, b], existing) == [b.value]
    ensures !Kept(a, existing) && !Kept(b, existing) ==> ExistingPaths([a, b], existing) == []
  {
    var saved := [a, b];
    ExistingPathsInOrder(saved, existing);
    assert saved[..0] == [] && saved[..1] == [a];
    assert saved[1] == b;
  }

  /** The recording half of `_toggle_both_cameras`: camera 0 is stopped,
      then camera 1, all three buttons go back to "start", and the saved
      files that exist are reported in that order. */
  function StopBoth(p: Panel, r: Recorder, ui: Ui): (res: (Panel, seq<Notice>))
    requires Valid(r) && IsRecording(r, 0) && IsRecording(r, 1)
    ensures PanelValid(res.0) && res.0.recorder.Some?
    ensures !IsRecording(res.0.recorder.value, 0) && !IsRecording(res.0.recorder.value, 1)
    ensures res.0.cam0 == StartLabel && res.0.cam1 == StartLabel && res.0.both == BothStart
    ensures res.1 == [BothStopped(ExistingPaths([Some(r.sessions[0].outPath), Some(r.sessions[1].outPath)], ui.existing))]
  {
    var (ra, saved0) := Stop(r, 0);
    var (rb, saved1) := Stop(ra, 1);
    var paths := ExistingPaths([saved0, saved1], ui.existing);
    (p.(recorder := Some(rb), cam0 := StartLabel, cam1 := StartLabel, both := BothStart), [BothStopped(paths)])
  }

  /** `_toggle_both_cameras` as written. Cameras in different states are
      left alone with a warning. Two idle cameras are started after the
      collision dialog for `<stem>_1` and `<stem>_2`; two recording cameras
      are stopped. */
  function ToggleBoth(p: Panel, ui: Ui, appDir: string, probe0: StartProbe, probe1: StartProbe): (res: (Panel, seq<Notice>))
    requires PanelValid(p)
    ensures PanelValid(res.0)
    ensures p.recorder.None? ==> res == (p, [NoRecorder])
    ensures p.recorder.Some? && IsRecording(p.recorder.value, 0) != IsRecording(p.recorder.value, 1) ==>
              res == (p, [StatesDiffer(IsRecording(p.recorder.value, 0))])
    ensures p.recorder.Some? && !IsRecording(p.recorder.value, 0) && !IsRecording(p.recorder.value, 1) ==>
              var chosen := BothStem(appDir, Strip(ui.basename), ui);
              && (chosen.None? ==> res == (p, []))
              && (chosen.Some? && ProbeStarts(probe0, ui.modeText) ==>
                    && res.0.recorder.Some? && 0 in res.0.recorder.value.sessions
                    && res.0.recorder.value.sessions[0].outPath
                       == OutputPath(p.recorder.value.saveDir, chosen.value, 0, ModeOf(ui.modeText)))
              && (chosen.Some? && ProbeStarts(probe0, ui.modeText) && ProbeStarts(probe1, ui.modeText) ==>
                    && IsRecording(res.0.recorder.value, 0) && IsRecording(res.0.recorder.value, 1)
                    && 1 in res.0.recorder.value.sessions
                    && res.0.recorder.value.sessions[1].outPath
                       == OutputPath(p.recorder.value.saveDir, chosen.value, 1, ModeOf(ui.modeText)))
  {
    match p.recorder
    case None => (p, [NoRecorder])
    case Some(r) =>
      var rec0 := IsRecording(r, 0);
      var rec1 := IsRecording(r, 1);
      if rec0 != rec1 then (p, [StatesDiffer(rec0)])
      else if rec0 then StopBoth(p, r, ui)
      else
        var stem := Strip(ui.basename);
        match BothStem(appDir, stem, ui)
        case None => (p, [])
        case Some(stem') => StartBoth(p, r, stem', ui, probe0, probe1)
  }

  /** The "both cameras" button: the thread helper refuses a blank file
      name with a warning before `_toggle_both_cameras` runs, and otherwise
      hands over to it. */
  function PressBoth(p: Panel, ui: Ui, appDir: string, probe0: StartProbe, probe1: StartProbe): (res: (Panel, seq<Notice>))
    requires PanelValid(p)
    ensures PanelValid(res.0)
    ensures Strip(ui.basename) == [] ==> res == (p, [NameMissing])
    ensures Strip(ui.basename) != [] ==> res == ToggleBoth(p, ui, appDir, probe0, probe1)
  {
    if !Guarded(ui.basename) then (p, [NameMissing])
    else ToggleBoth(p, ui, appDir, probe0, probe1)
  }

  /** A name of spaces only never reaches the recorder, even with both
      cameras recording. */
  lemma PressBothBlankNameStopsNothing(p: Panel, ui: Ui, appDir: string, probe0: StartProbe, probe1: StartProbe)
    requires PanelValid(p) && p.recorder.Some?
    requires IsRecording(p.recorder.value, 0) && IsRecording(p.recorder.value, 1)
    requires forall k :: 0 <= k < |ui.basename| ==> IsSpace(ui.basename[k])
    ensures var (p', notices) := PressBoth(p, ui, appDir, probe0, probe1);
            && IsRecording(p'.recorder.value, 0) && IsRecording(p'.recorder.value, 1)
            && notices == [NameMissing]
  {
    StripEmptyIffAllSpaces(ui.basename);
  }

  /** The stem both cameras start under: the dialog is asked when either
      camera's file exists; then "cancel" gives up, "no" appends the time
      suffix and "yes" keeps the stem. */
  function BothStem(appDir: string, stem: string, ui: Ui): (r: Option<string>)
    ensures ui.choice != Cancel ==> r.Some?
    ensures var collides := BothCandidate(appDir, stem, "1", ui.modeText) in ui.existing
                         || BothCandidate(appDir, stem, "2", ui.modeText) in ui.existing;
            && (!collides ==> r == Some(stem))
            && (collides ==> (r.None? <==> ui.choice == Cancel))
            && (collides && ui.choice == Yes ==> r == Some(stem))
            && (collides && ui.choice == No ==> r == Some(stem + TimeSuffix(ui.now)))
  {
    var c1 := BothCandidate(appDir, stem, "1", ui.modeText);
    var c2 := BothCandidate(appDir, stem, "2", ui.modeText);
    ChooseStem(stem, c1 in ui.existing || c2 in ui.existing, ui.choice, ui.now)
  }

  /** The dialog's answer decides where the two recordings go: with no
      file in the way, or after "yes", camera 0 and camera 1 write exactly
      the two paths that were checked; after "no" neither writes to the path
      that was checked for it. */
  lemma BothStemPlacesRecordings(appDir: string, stem: string, ui: Ui)
    requires ui.choice != Cancel
    ensures var r := BothStem(appDir, stem, ui).value;
            var collides := BothCandidate(appDir, stem, "1", ui.modeText) in ui.existing
                         || BothCandidate(appDir, stem, "2", ui.modeText) in ui.existing;
            var out0 := OutputPath(SaveDir(appDir), r, 0, ModeOf(ui.modeText));
            var out1 := OutputPath(SaveDir(appDir), r, 1, ModeOf(ui.modeText));
            && (!collides || ui.choice == Yes ==>
                  out0 == BothCandidate(appDir, stem, "1", ui.modeText)
                  && out1 == BothCandidate(appDir, stem, "2", ui.modeText))
            && (collides && ui.choice == No ==>
                  out0 != BothCandidate(appDir, stem, "1", ui.modeText)
                  && out1 != BothCandidate(appDir, stem, "2", ui.modeText))
  {
    BothCandidatesAreCameraCandidates(appDir, stem, ui.modeText);
    CandidateIsOutputPath(appDir, stem, 0, ui.modeText);
    CandidateIsOutputPath(appDir, stem, 1, ui.modeText);
    SuffixAvoidsCollision(appDir, stem, 0, ui.modeText, ui.now);
    SuffixAvoidsCollision(appDir, stem, 1, ui.modeText, ui.now);
  }

  /** The overwrite dialog decides where two idle cameras record, in a
      recorder saving to the application's `videos` folder: with neither
      `<stem>_1` nor `<stem>_2` in the way, or after "yes", into exactly
      those two paths; after "no", into the time-suffixed paths, which
      differ from them. */
  lemma ToggleBothHonoursDialog(p: Panel, ui: Ui, appDir: string, probe0: StartProbe, probe1: StartProbe)
    requires PanelValid(p) && p.recorder.Some?
    requires !IsRecording(p.recorder.value, 0) && !IsRecording(p.recorder.value, 1)
    requires p.recorder.value.saveDir == SaveDir(appDir)
    requires ui.choice != Cancel && ProbeStarts(probe0, ui.modeText) && ProbeStarts(probe1, ui.modeText)
    ensures var (p', notices) := ToggleBoth(p, ui, appDir, probe0, probe1);
            var stem := Strip(ui.basename);
            var c1 := BothCandidate(appDir, stem, "1", ui.modeText);
            var c2 := BothCandidate(appDir, stem, "2", ui.modeText);
            var collides := c1 in ui.existing || c2 in ui.existing;
            && p'.recorder.Some? && IsRecording(p'.recorder.value, 0) && IsRecording(p'.recorder.value, 1)
            && 0 in p'.recorder.value.sessions && 1 in p'.recorder.value.sessions
            && notices == [BothStarted]
            && (!collides || ui.choice == Yes ==>
                  p'.recorder.value.sessions[0].outPath == c1 && p'.recorder.value.sessions[1].outPath == c2)
            && (collides && ui.choice == No ==>
                  && p'.recorder.value.sessions[0].outPath
                     == OutputPath(SaveDir(appDir), stem + TimeSuffix(ui.now), 0, ModeOf(ui.modeText))
                  && p'.recorder.value.sessions[1].outPath
                     == OutputPath(SaveDir(appDir), stem + TimeSuffix(ui.now), 1, ModeOf(ui.modeText))
                  && p'.recorder.value.sessions[0].outPath != c1 && p'.recorder.value.sessions[1].outPath != c2)
  {
    BothStemPlacesRecordings(appDir, Strip(ui.basename), ui);
  }

  /** Two recording cameras are both stopped and all buttons reset. */
  lemma ToggleBothStopsBoth(p: Panel, ui: Ui, appDir: string, probe0: StartProbe, probe1: StartProbe)
    requires PanelValid(p) && p.recorder.Some?
    requires IsRecording(p.recorder.value, 0) && IsRecording(p.recorder.value, 1)
    ensures var (p', _) := ToggleBoth(p, ui, appDir, probe0, probe1);
            && p'.recorder.Some?
            && !IsRecording(p'.recorder.value, 0) && !IsRecording(p'.recorder.value, 1)
            && p'.cam0 == StartLabel && p'.cam1 == StartLabel && p'.both == BothStart
  {
  }

  /** Two idle cameras whose devices both let the start through end up
      recording, and all three buttons say "stop". */
  lemma ToggleBothStartsBoth(p: Panel, ui: Ui, appDir: string, probe0: StartProbe, probe1: StartProbe)
    requires PanelValid(p) && p.recorder.Some?
    requires !IsRecording(p.recorder.value, 0) && !IsRecording(p.recorder.value, 1)
    requires ui.choice != Cancel
    requires ProbeStarts(probe0, ui.modeText) && ProbeStarts(probe1, ui.modeText)
    ensures var (p', notices) := ToggleBoth(p, ui, appDir, probe0, probe1);
            && p'.recorder.Some?
            && IsRecording(p'.recorder.value, 0) && IsRecording(p'.recorder.value, 1)
            && p'.cam0 == StopLabel && p'.cam1 == StopLabel && p'.both == BothStop
            && notices == [BothStarted]
  {
    var stem' := BothStem(appDir, Strip(ui.basename), ui).value;
    assert ToggleBoth(p, ui, appDir, probe0, probe1) == StartBoth(p, p.recorder.value, stem', ui, probe0, probe1);
  }

  /** The rollback after a partial start is dead code: whenever both
      toggles of two idle cameras return, both report "started". */
  lemma ToggleBothNeverRollsBack(r: Recorder, stem: string, modeText: string, probe0: StartProbe, probe1: StartProbe)
    requires Valid(r) && !IsRecording(r, 0) && !IsRecording(r, 1)
    ensures var t0 := Toggle(r, 0, stem, modeText, probe0);
            t0.Returned? ==>
              var t1 := Toggle(t0.next, 1, stem, modeText, probe1);
              t0.started && (t1.Returned? ==> t1.started)
  {
    var t0 := Toggle(r, 0, stem, modeText, probe0);
    if t0.Returned? {
      ToggleKeepsOthers(r, 0, stem, modeText, probe0);
      IdleToggleStartsOrRaises(t0.next, 1, stem, modeText, probe1);
    }
  }

  /** Camera 1 failing to open after camera 0 started leaves camera 0
      recording alone, with its button still saying "start". */
  lemma ToggleBothLeavesCameraZeroRecording(p: Panel, ui: Ui, appDir: string, probe0: StartProbe, probe1: StartProbe)
    requires PanelValid(p) && p.recorder.Some? && p.cam0 == StartLabel
    requires !IsRecording(p.recorder.value, 0) && !IsRecording(p.recorder.value, 1)
    requires ui.choice == Yes && ui.modeText == "video"
    requires probe0 == StartProbe(true, false, Some(Geometry.Frame(0, 0, 0, 640, 480)), true, Rate(30.0), true)
    requires probe1 == StartProbe(false, false, None, false, NaN, false)
    ensures var (p', _) := ToggleBoth(p, ui, appDir, probe0, probe1);
            && p'.recorder.Some?
            && IsRecording(p'.recorder.value, 0) && !IsRecording(p'.recorder.value, 1)
            && p'.cam0 == StartLabel
  {
    var stem' := BothStem(appDir, Strip(ui.basename), ui).value;
    assert ToggleBoth(p, ui, appDir, probe0, probe1) == StartBoth(p, p.recorder.value, stem', ui, probe0, probe1);
  }

  /** The idle half with the rollback made reachable: when camera 1 fails
      to start after camera 0 started, camera 0 is stopped again. */
  function StartBothWithRollback(p: Panel, r: Recorder, stem: string, ui: Ui, probe0: StartProbe, probe1: StartProbe): (res: (Panel, seq<Notice>))
    requires p.recorder == Some(r)
    requires Valid(r) && !IsRecording(r, 0) && !IsRecording(r, 1)
    ensures PanelValid(res.0)
    ensures res.0 != p ==> res.0.recorder.Some?
    ensures res.0 != p ==> IsRecording(res.0.recorder.value, 0) == IsRecording(res.0.recorder.value, 1)
    ensures ProbeStarts(probe0, ui.modeText) && ProbeStarts(probe1, ui.modeText) ==>
              res == StartBoth(p, r, stem, ui, probe0, probe1)
    ensures ProbeStarts(probe0, ui.modeText) && !ProbeStarts(probe1, ui.modeText) ==>
              && res.0.recorder.Some?
              && !IsRecording(res.0.recorder.value, 0) && !IsRecording(res.0.recorder.value, 1)
  {
    StartSucceedsIffProbeStarts(r, 0, stem, ui.modeText, probe0);
    match Toggle(r, 0, stem, ui.modeText, probe0)
    case Raised(e) => (p, [BothFailed(e)])
    case Returned(ra, _, _) =>
      ToggleKeepsOthers(r, 0, stem, ui.modeText, probe0);
      StartSucceedsIffProbeStarts(ra, 1, stem, ui.modeText, probe1);
      match Toggle(ra, 1, stem, ui.modeText, probe1)
      case Raised(e) =>
        var rc := Stop(ra, 0).0;
        (p.(recorder := Some(rc)), [BothFailed(e)])
      case Returned(rb, _, _) =>
        ToggleKeepsOthers(ra, 1, stem, ui.modeText, probe1);
        (p.(recorder := Some(rb), cam0 := StopLabel, cam1 := StopLabel, both := BothStop), [BothStarted])
  }

  /** `_toggle_both_cameras` with the rollback: it never leaves the two
      cameras in different states when they started out alike. */
  function ToggleBothWithRollback(p: Panel, ui: Ui, appDir: string, probe0: StartProbe, probe1: StartProbe): (res: (Panel, seq<Notice>))
    requires PanelValid(p)
    ensures PanelValid(res.0)
    ensures p.recorder.None? ==> res == (p, [NoRecorder])
    ensures p.recorder.Some? ==> res.0.recorder.Some?
    ensures p.recorder.Some? && IsRecording(p.recorder.value, 0) == IsRecording(p.recorder.value, 1) ==>
              IsRecording(res.0.recorder.value, 0) == IsRecording(res.0.recorder.value, 1)
  {
    match p.recorder
    case None => (p, [NoRecorder])
    case Some(r) =>
      var rec0 := IsRecording(r, 0);
      var rec1 := IsRecording(r, 1);
      if rec0 != rec1 then (p, [StatesDiffer(rec0)])
      else if rec0 then StopBoth(p, r, ui)
      else
        match BothStem(appDir, Strip(ui.basename), ui)
        case None => (p, [])
        case Some(stem') => StartBothWithRollback(p, r, stem', ui, probe0, probe1)
  }

  /** With the rollback, the devices that trip up the handler as written
      leave both cameras idle. */
  lemma RollbackRestoresIdle(p: Panel, ui: Ui, appDir: string, probe0: StartProbe, probe1: StartProbe)
    requires PanelValid(p) && p.recorder.Some?
    requires !IsRecording(p.recorder.value, 0) && !IsRecording(p.recorder.value, 1)
    requires ui.choice != Cancel
    requires ProbeStarts(probe0, ui.modeText) && !ProbeStarts(probe1, ui.modeText)
    ensures var (p', _) := ToggleBothWithRollback(p, ui, appDir, probe0, probe1);
            !IsRecording(p'.recorder.value, 0) && !IsRecording(p'.recorder.value, 1)
  {
    var stem' := BothStem(appDir, Strip(ui.basename), ui).value;
    assert ToggleBothWithRollback(p, ui, appDir, probe0, probe1)
        == StartBothWithRollback(p, p.recorder.value, stem', ui, probe0, probe1);
  }

  // ---------------------------------------------------------------------
  // Weight refresh and automatic stop

  /** A toggle request for a camera that is recording: the probe is never
      consulted. */
  const Unused: StartProbe := StartProbe(false, false, None, false, NaN, false)

  /** `_auto_stop_cameras`: nothing without a recorder, with no camera
      recording, or with a blank file name; otherwise each recording camera
      is toggled off, camera 0 first, its button reset, and the saved files
      that exist are reported. */
  function AutoStop(p: Panel, ui: Ui): (res: (Panel, seq<Notice>))
    requires PanelValid(p)
    ensures PanelValid(res.0)
    ensures p.recorder.None? ==> res == (p, [])
    ensures p.recorder.Some? && !IsRecording(p.recorder.value, 0) && !IsRecording(p.recorder.value, 1) ==> res == (p, [])
    ensures Strip(ui.basename) == [] ==> res == (p, [])
  {
    match p.recorder
    case None => (p, [])
    case Some(r) =>
      var rec0 := IsRecording(r, 0);
      var rec1 := IsRecording(r, 1);
      if !rec0 && !rec1 then (p, [])
      else
        var stem := Strip(ui.basename);
        if stem == [] then (p, [])
        else
          var (ra, saved0, p0) :=
            if rec0 then
              var t := Toggle(r, 0, stem, ui.modeText, Unused);
              ToggleKeepsOthers(r, 0, stem, ui.modeText, Unused);
              (t.next, t.saved, p.(cam0 := StartLabel))
            else (r, None, p);
          var (rb, saved1, p1) :=
            if rec1 then
              ToggleKeepsOthers(ra, 1, stem, ui.modeText, Unused);
              var t := Toggle(ra, 1, stem, ui.modeText, Unused);
              (t.next, t.saved, p0.(cam1 := StartLabel))
            else (ra, None, p0);
          var paths := ExistingPaths([saved0, saved1], ui.existing);
          (p1.(recorder := Some(rb), both := BothStart), [AutoStopped(paths)])
  }

  /** After an automatic stop with a file name set, no camera is recording;
      exactly the cameras that were recording were stopped, and the notice
      lists the saved files of those cameras that exist, camera 0 first. */
  lemma AutoStopStopsRecordingCameras(p: Panel, ui: Ui)
    requires PanelValid(p) && p.recorder.Some? && Strip(ui.basename) != []
    ensures var (p', notices) := AutoStop(p, ui);
            var r := p.recorder.value;
            && p'.recorder.Some?
            && !IsRecording(p'.recorder.value, 0) && !IsRecording(p'.recorder.value, 1)
            && (IsRecording(r, 0) || IsRecording(r, 1) ==>
                  && p'.cam0 == (if IsRecording(r, 0) then StartLabel else p.cam0)
                  && p'.cam1 == (if IsRecording(r, 1) then StartLabel else p.cam1)
                  && p'.both == BothStart
                  && notices == [AutoStopped(ExistingPaths(
                       [if IsRecording(r, 0) then Some(r.sessions[0].outPath) else None,
                        if IsRecording(r, 1) then Some(r.sessions[1].outPath) else None], ui.existing))])
  {
  }

  /** A second low reading right after an automatic stop changes nothing. */
  lemma AutoStopIdempotent(p: Panel, ui: Ui)
    requires PanelValid(p) && p.recorder.Some? && Strip(ui.basename) != []
    ensures var p1 := AutoStop(p, ui).0;
            AutoStop(p1, ui) == (p1, [])
  {
    AutoStopStopsRecordingCameras(p, ui);
  }

  /** The serial port of the scale: the field's text stripped, or "COM3"
      when blank. */
  function ScalePort(text: string): (port: string)
    ensures port != []
    ensures Strip(text) != [] ==> port == Strip(text)
  {
    var t := Strip(text);
    if t == [] then "COM3" else t
  }

  /** Readings strictly below this many grams stop the recording. */
  const AutoStopThreshold: real := -150.0

  /** `_refresh_weight`, with the scale as an input (`readerOpens` says
      whether opening the port succeeded): the text is read without a
      request; if it holds no number it is displayed as it is; a number is
      shown in grams and kept, and a value strictly below -150 stops the
      cameras; any failure shows "ERR". */
  function RefreshWeight(p: Panel, ui: Ui, readerOpens: bool, link: WeightReader.Link): (res: (Panel, seq<Notice>))
    requires PanelValid(p)
    ensures PanelValid(res.0)
    ensures !readerOpens || WeightReader.ReadValue(link, "", "\r\n").result.Err? ==>
              res == (p.(weight := ShowErr), [])
  {
    if !readerOpens then (p.(weight := ShowErr), [])
    else
      var o := WeightReader.ReadValue(link, "", "\r\n");
      match o.result
      case Err(_) => (p.(weight := ShowErr), [])
      case Ok(text) =>
        match WeightReader.ExtractNumber(text)
        case None => (p.(weight := ShowText(text)), [])
        case Some(w) =>
          var p' := p.(weight := ShowGrams(w), currentWeight := w);
          if w < AutoStopThreshold then AutoStop(p', ui) else (p', [])
  }

  /** The recorder is touched only when a number strictly below -150 was
      read, and then exactly as an automatic stop does it. */
  lemma RefreshWeightStopsOnlyBelowThreshold(p: Panel, ui: Ui, readerOpens: bool, link: WeightReader.Link)
    requires PanelValid(p)
    ensures var (p', _) := RefreshWeight(p, ui, readerOpens, link);
            var o := WeightReader.ReadValue(link, "", "\r\n");
            var w := if readerOpens && o.result.Ok? then WeightReader.ExtractNumber(o.result.value) else None;
            && (w.Some? && w.value < AutoStopThreshold ==>
                  p'.recorder == AutoStop(p.(weight := ShowGrams(w.value), currentWeight := w.value), ui).0.recorder)
            && (!(w.Some? && w.value < AutoStopThreshold) ==> p'.recorder == p.recorder)
            && (w.None? && readerOpens && o.result.Ok? ==> p'.weight == ShowText(o.result.value))
            && (w.Some? ==> p'.weight == ShowGrams(w.value) && p'.currentWeight == w.value)
            && (w.None? ==> p'.currentWeight == p.currentWeight)
            && (!readerOpens || o.result.Err? ==> p' == p.(weight := ShowErr))
  {
  }

  /** The scale's simulated reading (72.35 g) never stops a recording. */
  lemma SimulatedReadingNeverStops(p: Panel, ui: Ui)
    requires PanelValid(p)
    ensures RefreshWeight(p, ui, true, WeightReader.NoSerial).0.recorder == p.recorder
  {
    RefreshWeightStopsOnlyBelowThreshold(p, ui, true, WeightReader.NoSerial);
    WeightReader.ExtractSimulated();
  }

  /** The threshold is strict: a reading of exactly -150 g does not stop a
      recording. */
  lemma ThresholdIsStrict(p: Panel, ui: Ui)
    requires PanelValid(p)
    ensures var link := WeightReader.Open(false, [WeightReader.RawLine("-150")]);
            RefreshWeight(p, ui, true, link).0.recorder == p.recorder
  {
    var link := WeightReader.Open(false, [WeightReader.RawLine("-150")]);
    var t := "-150";
    StripNoSpaces(t);
    assert WeightReader.FirstLine([WeightReader.RawLine(t)]) == Ok(t);
    assert WeightReader.ReadValue(link, "", "\r\n").result == Ok(t);
    WeightReader.ExtractMinus150();
    RefreshWeightStopsOnlyBelowThreshold(p, ui, true, link);
  }

  // ---------------------------------------------------------------------
  // Motor, fan and the adjustment field

  /** The outcome of a speed, fan or direction button: a warning about the
      input, nothing at all, or what the motor controller sent. */
  datatype Applied = InputWarning | NoAction | Sent(effect: McuControl.SendEffect)

  /** `_apply_speed`: the field must hold an integer in [0, 100]; it is then
      passed to `set_motor_speed`. */
  function ApplySpeed(port: McuControl.Port, lineEnding: string, tag: string, text: string): (a: Applied)
    ensures a.Sent? <==> ParseInt(text).Some? && 0 <= ParseInt(text).value <= 100
    ensures a.Sent? ==> a.effect == McuControl.Issue(port, lineEnding, McuControl.SpeedCommand(tag, ParseInt(text).value))
    ensures !a.Sent? ==> a == InputWarning
  {
    match ParseInt(text)
    case Some(v) =>
      if 0 <= v <= 100 then Sent(McuControl.Issue(port, lineEnding, McuControl.SpeedCommand(tag, v)))
      else InputWarning
    case None => InputWarning
  }

  /** `_apply_fan`: the same check, then `set_fan_speed`. */
  function ApplyFan(port: McuControl.Port, lineEnding: string, text: string): (a: Applied)
    ensures a.Sent? <==> ParseInt(text).Some? && 0 <= ParseInt(text).value <= 100
    ensures a.Sent? ==> a.effect == McuControl.SendText(port, lineEnding, McuControl.FanCommand(ParseInt(text).value))
    ensures !a.Sent? ==> a == InputWarning
  {
    match ParseInt(text)
    case Some(v) =>
      if 0 <= v <= 100 then Sent(McuControl.Issue(port, lineEnding, Ok(McuControl.FanCommand(v))))
      else InputWarning
    case None => InputWarning
  }

  /** `_apply_dir`: looking the label up in the three-entry table raises for
      any other label, so only 停止, 正转 and 反转 reach the motor
      controller. */
  function ApplyDirection(port: McuControl.Port, lineEnding: string, tag: string, direction: string): (a: Applied)
    ensures a.Sent? <==> direction in {"停止", "正转", "反转"}
    ensures a.Sent? ==> a.effect == McuControl.Issue(port, lineEnding, McuControl.DirectionCommand(tag, direction))
  {
    if direction in {"停止", "正转", "反转"} then
      Sent(McuControl.Issue(port, lineEnding, McuControl.DirectionCommand(tag, direction)))
    else NoAction
  }

  /** A speed the field accepts reaches the motor as the half-to-even
      scaled value, for motors A and B alike. */
  lemma ApplySpeedSendsScaled(tag: string, v: int)
    requires 0 <= v <= 100 && Upper(tag) in {"A", "B"}
    ensures var a := ApplySpeed(McuControl.NoPort, "\r\n", tag, IntToString(v));
            a.Sent? && McuControl.SpeedCommand(tag, v).Ok?
            && McuControl.SpeedCommand(tag, v).value == Upper(tag) + IntToString(McuControl.SpeedToHardware(v))
  {
    ParseIntRoundTrip(v);
    McuControl.SpeedCommandShape(tag, v);
  }

  /** The key filter of the adjustment field: empty text, a lone minus, or
      anything `int()` accepts. */
  predicate ValidateInteger(text: string) {
    text == "" || text == "-" || ParseInt(text).Some?
  }

  /** Every printed integer passes the filter, and every other accepted
      text holds a digit. */
  lemma ValidateIntegerAccepts(i: int, text: string)
    ensures ValidateInteger(IntToString(i))
    ensures ValidateInteger(text) && text != "" && text != "-" ==>
              exists k :: 0 <= k < |text| && IsDigit(text[k])
  {
    ParseIntRoundTrip(i);
    if ValidateInteger(text) && text != "" && text != "-" {
      ParseIntAcceptsOnlyNumerals(text);
    }
  }
}

=== FILE: geometry.dfy ===
/** Frames and regions of interest. A frame is an abstract image: the
    pixels are not modelled, only which rectangle of which captured image it
    shows, so that cropping can be stated exactly. */
module Geometry {

  /** `source` identifies the captured image; (`left`, `top`) is where this
      view starts inside it; `width` x `height` is its size
      (`frame.shape[:2]` is `(height, width)`). */
  datatype Frame = Frame(source: nat, left: int, top: int, width: nat, height: nat)

  /** A region of interest `(x, y, w, h)` as stored in a camera profile. */
  datatype Roi = Roi(x: int, y: int, w: int, h: int)

  /** The ROI lies inside a `width` x `height` frame: `0 <= x <= width-1`,
      `0 <= y <= height-1`, `0 <= w <= width-x`, `0 <= h <= height-y`. */
  predicate FitsIn(r: Roi, width: int, height: int) {
    && 0 <= r.x < width
    && 0 <= r.y < height
    && 0 <= r.w && r.x + r.w <= width
    && 0 <= r.h && r.y + r.h <= height
  }

  /** The recorder's clamp of a configured ROI against the frame size:
      `x = max(0, min(x, w-1))`, `y = max(0, min(y, h-1))`,
      `rw = max(0, min(rw, w-x))`, `rh = max(0, min(rh, h-y))`. */
  function ClampRoi(roi: Roi, width: int, height: int): (r: Roi)
    ensures width >= 1 && height >= 1 ==> FitsIn(r, width, height)
    ensures 0 <= r.x && 0 <= r.y && 0 <= r.w && 0 <= r.h
    ensures r.x + r.w <= (if width >= 1 then width else 0)
    ensures r.y + r.h <= (if height >= 1 then height else 0)
    ensures FitsIn(roi, width, height) ==> r == roi
  {
    var x := Max(0, Min(roi.x, width - 1));
    var y := Max(0, Min(roi.y, height - 1));
    var rw := Max(0, Min(roi.w, width - x));
    var rh := Max(0, Min(roi.h, height - y));
    Roi(x, y, rw, rh)
  }

  function Max(a: int, b: int): int {
    if a >= b then a else b
  }

  function Min(a: int, b: int): int {
    if a <= b then a else b
  }

  /** A clamped ROI is used for cropping only when both sides are
      positive. */
  predicate Croppable(r: Roi) {
    r.w > 0 && r.h > 0
  }

  /** `frame[y : y + h, x : x + w]` for an ROI inside the frame. */
  function Crop(f: Frame, r: Roi): (g: Frame)
    requires FitsIn(r, f.width, f.height) && Croppable(r)
    ensures g.source == f.source
    ensures g.width == r.w && g.height == r.h
    ensures f.left <= g.left && g.left + g.width <= f.left + f.width
    ensures f.top <= g.top && g.top + g.height <= f.top + f.height
    ensures g.left == f.left + r.x && g.top == f.top + r.y
  {
    Frame(f.source, f.left + r.x, f.top + r.y, r.w, r.h)
  }

  /** Cropping a crop is one crop of the original image, at the two offsets
      added together. */
  lemma CropOfCrop(f: Frame, r1: Roi, r2: Roi)
    requires FitsIn(r1, f.width, f.height) && Croppable(r1)
    requires FitsIn(r2, r1.w, r1.h) && Croppable(r2)
    ensures FitsIn(Roi(r1.x + r2.x, r1.y + r2.y, r2.w, r2.h), f.width, f.height)
    ensures Crop(Crop(f, r1), r2) == Crop(f, Roi(r1.x + r2.x, r1.y + r2.y, r2.w, r2.h))
  {
  }

  /** An ROI covering the whole frame crops to the frame itself. */
  lemma CropWholeFrame(f: Frame)
    requires f.width >= 1 && f.height >= 1
    ensures Crop(f, Roi(0, 0, f.width, f.height)) == f
  {
  }

  /** The recorder's per-frame ROI step: with a configured ROI the frame is
      cropped to the clamped rectangle when that rectangle is non-empty;
      otherwise, or without an ROI, the frame passes unchanged. */
  function ApplyRoi(f: Frame, roi: RoiSetting): (g: Frame)
    ensures g.source == f.source
    ensures g.width <= f.width && g.height <= f.height
    ensures roi.NoRoi? ==> g == f
    ensures roi.HasRoi? && !Croppable(ClampRoi(roi.roi, f.width, f.height)) ==> g == f
    ensures roi.HasRoi? && Croppable(ClampRoi(roi.roi, f.width, f.height)) ==>
              && g.width == ClampRoi(roi.roi, f.width, f.height).w
              && g.height == ClampRoi(roi.roi, f.width, f.height).h
              && g.left == f.left + ClampRoi(roi.roi, f.width, f.height).x
              && g.top == f.top + ClampRoi(roi.roi, f.width, f.height).y
  {
    match roi
    case NoRoi => f
    case HasRoi(r) =>
      var c := ClampRoi(r, f.width, f.height);
      if Croppable(c) then Crop(f, c) else f
  }

  /** The `roi` entry of a camera profile, once decoded: absent or not a
      four-number list (no cropping), or four integers. */
  datatype RoiSetting = NoRoi | HasRoi(roi: Roi)

  /** The example of a configured ROI `{x:-5, y:0, w:10000, h:100}` on a
      640x480 frame: it is pulled back inside the frame. */
  lemma ClampRoiExample()
    ensures ClampRoi(Roi(-5, 0, 10000, 100), 640, 480) == Roi(0, 0, 640, 100)
  {
  }

  /** Clamping twice gives the same rectangle as clamping once. */
  lemma ClampRoiIdempotent(roi: Roi, width: int, height: int)
    requires width >= 1 && height >= 1
    ensures ClampRoi(ClampRoi(roi, width, height), width, height) == ClampRoi(roi, width, height)
  {
  }
}

=== FILE: json_value.dfy ===
/** Decoded JSON values and Python's `int()` applied to them, shared by the
    profile reader and the recorder's ROI decoding. */
module JsonValue {
  import opened Wrappers
  import opened Text
  import opened Numeric

  /** A decoded JSON value. */
  datatype Json =
    | JInt(i: int)
    | JReal(r: real)
    | JBool(b: bool)
    | JStr(s: string)
    | JList(items: seq<Json>)
    | JNull

  /** The exception `int(value)` raises. */
  datatype ConvError = ValueError | TypeError

  /** Python `int(value)` on a decoded JSON value: integers as they are,
      floats truncated toward zero, booleans as 0 and 1, strings parsed as
      numerals; lists and `null` are a `TypeError`. */
  function IntOf(j: Json): (r: Result<int, ConvError>)
    ensures j.JInt? ==> r == Ok(j.i)
    ensures j.JStr? ==> (r.Ok? <==> ParseInt(j.s).Some?) && (r.Ok? ==> ParseInt(j.s) == Some(r.value))
    ensures (j.JList? || j.JNull?) ==> r == Err(TypeError)
  {
    match j
    case JInt(i) => Ok(i)
    case JReal(x) => Ok(TruncToInt(x))
    case JBool(b) => Ok(if b then 1 else 0)
    case JStr(s) =>
      (match ParseInt(s)
       case Some(v) => Ok(v)
       case None => Err(ValueError))
    case JList(_) => Err(TypeError)
    case JNull => Err(TypeError)
  }

  /** `int()` applied to every item, the first failure winning. */
  function IntsOf(items: seq<Json>): (r: Result<seq<int>, ConvError>)
    ensures r.Ok? <==> forall k :: 0 <= k < |items| ==> IntOf(items[k]).Ok?
    ensures r.Ok? ==> |r.value| == |items|
                      && forall k :: 0 <= k < |items| ==> r.value[k] == IntOf(items[k]).value
  {
    if items == [] then Ok([])
    else
      match IntOf(items[0])
      case Err(e) => Err(e)
      case Ok(v) =>
        match IntsOf(items[1..])
        case Err(e) => Err(e)
        case Ok(vs) =>
          assert forall k :: 1 <= k < |items| ==> items[k] == items[1..][k - 1];
          Ok([v] + vs)
  }
}

=== FILE: mcu_control.dfy ===
/** The microcontroller link: command formatting for the two conveyor
    motors and the fan, the simulated send when no serial port is open, and
    the splitting of inbound text into log lines. The serial port itself is
    an input (absent, or open with writes that succeed or fail). */
module McuControl {
  import opened Wrappers
  import opened Text
  import opened Numeric

  /** The command table: speed, fan and direction prefixes. */
  const CommandTable: map<string, string> :=
    map["A_SPEED" := "A", "B_SPEED" := "B", "F_SPEED" := "F", "A_DIR" := "AD", "B_DIR" := "BD"]

  const DefaultLineEnding: string := "\r\n"

  /** The serial port as seen by one send: not open (no device, or the
      serial library is missing), or open with a write that succeeds or
      raises. */
  datatype Port = NoPort | OpenPort(writeFails: bool)

  /** What the controller reports through its line callback. The echo of a
      real send also carries a hex dump of the bytes, which is not
      modelled. */
  datatype LogLine =
    | SimulatedSend(text: string)
    | Echo(text: string)
    | WriteError
    | UnknownMotor(motor: string)

  /** Text of the log lines whose wording is fixed. */
  function LogText(l: LogLine): string {
    match l
    case SimulatedSend(t) => "[模拟发送] >>> " + t
    case Echo(t) => ">>> " + t
    case WriteError => "[写错误]"
    case UnknownMotor(m) => "[参数错误] 未知电机: " + m
  }

  /** Effect of one command: lines logged and text written to the port. */
  datatype SendEffect = SendEffect(log: seq<LogLine>, written: seq<string>)

  /** `send_text`: without a port the text is only logged as a simulated
      send; with a port it is echoed and `text + line_ending` is written
      (a failed write is logged instead). */
  function SendText(port: Port, lineEnding: string, text: string): (e: SendEffect)
    ensures port.NoPort? ==> e.written == [] && e.log == [SimulatedSend(text)]
    ensures port == OpenPort(false) ==> e.written == [text + lineEnding] && e.log == [Echo(text)]
    ensures port == OpenPort(true) ==> e.written == [] && e.log == [Echo(text), WriteError]
  {
    match port
    case NoPort => SendEffect([SimulatedSend(text)], [])
    case OpenPort(fails) =>
      if fails then SendEffect([Echo(text), WriteError], [])
      else SendEffect([Echo(text)], [text + lineEnding])
  }

  // ---------------------------------------------------------------------
  // Command formatting

  /** The hardware speed for a percentage: clamp to 0..100, then
      `round(p * 255 / 100)` with ties to even. It is the integer nearest
      to the exact quotient and lies in 0..255. */
  function SpeedToHardware(percentage: int): (hw: int)
    ensures 0 <= hw <= 255
    ensures 2 * Abs(Clamp(percentage, 0, 100) * 255 - hw * 100) <= 100
  {
    var p := Clamp(percentage, 0, 100);
    RoundHalfEvenIsNearest(p * 255, 100);
    RoundHalfEven(p * 255, 100)
  }

  /** Sample values of `round(p * 255 / 100)`, including the ties
      30 -> 76.5 -> 76 and 50 -> 127.5 -> 128 that go to the even
      neighbour. */
  lemma SpeedToHardwareExamples()
    ensures SpeedToHardware(0) == 0
    ensures SpeedToHardware(30) == 76
    ensures SpeedToHardware(50) == 128
    ensures SpeedToHardware(100) == 255
    ensures SpeedToHardware(-7) == 0 && SpeedToHardware(250) == 255
  {
  }

  /** More speed never maps to less hardware output. */
  lemma SpeedToHardwareMonotone(p: int, q: int)
    requires p <= q
    ensures SpeedToHardware(p) <= SpeedToHardware(q)
  {
    var a := Clamp(p, 0, 100) * 255;
    var b := Clamp(q, 0, 100) * 255;
    RoundHalfEvenIsNearest(a, 100);
    RoundHalfEvenIsNearest(b, 100);
  }

  /** `set_motor_speed`: the motor name is upper-cased and looked up as
      `<NAME>_SPEED`; an unknown name is reported and nothing is sent. */
  function SpeedCommand(motor: string, percentage: int): Result<string, LogLine> {
    var key := Upper(motor) + "_SPEED";
    if key in CommandTable then Ok(CommandTable[key] + IntToString(SpeedToHardware(percentage)))
    else Err(UnknownMotor(Upper(motor)))
  }

  /** `set_motor_direction`: labels 停止/正转/反转 give codes 0/1/2 and any
      other label gives 0. */
  function DirectionCode(direction: string): string {
    if direction == "停止" then "0"
    else if direction == "正转" then "1"
    else if direction == "反转" then "2"
    else "0"
  }

  function DirectionCommand(motor: string, direction: string): Result<string, LogLine> {
    var key := Upper(motor) + "_DIR";
    if key in CommandTable then Ok(CommandTable[key] + DirectionCode(direction))
    else Err(UnknownMotor(Upper(motor)))
  }

  /** `set_fan_speed`: clamp to 0..100 and send the percentage unscaled. */
  function FanCommand(percentage: int): string {
    CommandTable["F_SPEED"] + IntToString(Clamp(percentage, 0, 100))
  }

  /** Send a formatted command, or only log the formatting error. */
  function Issue(port: Port, lineEnding: string, cmd: Result<string, LogLine>): (e: SendEffect)
    ensures cmd.Err? ==> e == SendEffect([cmd.error], [])
    ensures cmd.Ok? ==> e == SendText(port, lineEnding, cmd.value)
  {
    match cmd
    case Err(l) => SendEffect([l], [])
    case Ok(t) => SendText(port, lineEnding, t)
  }

  /** `set_motor_speed` end to end: for motors A, B and F (in any case) the
      open port receives the motor letter, the decimal hardware speed and the
      line ending, and a missing port only logs the simulated send; any
      other motor is reported and nothing is sent. */
  lemma MotorSpeedEffect(port: Port, lineEnding: string, motor: string, percentage: int)
    ensures var e := Issue(port, lineEnding, SpeedCommand(motor, percentage));
            var t := Upper(motor) + IntToString(SpeedToHardware(percentage));
            && (Upper(motor) in {"A", "B", "F"} && port == OpenPort(false) ==>
                  e == SendEffect([Echo(t)], [t + lineEnding]))
            && (Upper(motor) in {"A", "B", "F"} && port.NoPort? ==>
                  e == SendEffect([SimulatedSend(t)], []))
            && (Upper(motor) in {"A", "B", "F"} && port == OpenPort(true) ==>
                  e == SendEffect([Echo(t), WriteError], []))
            && (Upper(motor) !in {"A", "B", "F"} ==>
                  e == SendEffect([UnknownMotor(Upper(motor))], []))
  {
    SpeedCommandShape(motor, percentage);
  }

  /** `set_fan_speed` end to end: an open port receives `F`, the clamped
      percentage and the line ending. */
  lemma FanSpeedEffect(lineEnding: string, percentage: int)
    ensures var t := FanCommand(percentage);
            && Issue(OpenPort(false), lineEnding, Ok(t)).written == [t + lineEnding]
            && ParseInt(t[1..]) == Some(Clamp(percentage, 0, 100))
  {
    FanCommandShape(percentage);
  }

  lemma SuffixKeyShape(u: string, suffix: string, name: string)
    requires |name| == 1 && u + suffix == name + suffix
    ensures u == name
  {
    assert u == (u + suffix)[..|u|];
  }

  /** The keys built from a motor name hit the table exactly for the
      motors the table knows. */
  lemma CommandKeys(u: string)
    ensures u + "_SPEED" in CommandTable <==> u in {"A", "B", "F"}
    ensures u + "_DIR" in CommandTable <==> u in {"A", "B"}
    ensures u in {"A", "B", "F"} ==> CommandTable[u + "_SPEED"] == u
    ensures u in {"A", "B"} ==> CommandTable[u + "_DIR"] == u + "D"
  {
    if u == "A" {
      assert u + "_SPEED" == "A_SPEED" && u + "_DIR" == "A_DIR";
    } else if u == "B" {
      assert u + "_SPEED" == "B_SPEED" && u + "_DIR" == "B_DIR";
    } else if u == "F" {
      assert u + "_SPEED" == "F_SPEED";
      assert u + "_DIR" == "F_DIR";
    } else {
      assert u + "_SPEED" !in CommandTable by {
        if u + "_SPEED" == "A_SPEED" { SuffixKeyShape(u, "_SPEED", "A"); }
        if u + "_SPEED" == "B_SPEED" { SuffixKeyShape(u, "_SPEED", "B"); }
        if u + "_SPEED" == "F_SPEED" { SuffixKeyShape(u, "_SPEED", "F"); }
        assert |u + "_SPEED"| >= 6;
      }
      assert u + "_DIR" !in CommandTable by {
        if u + "_DIR" == "A_DIR" { SuffixKeyShape(u, "_DIR", "A"); }
        if u + "_DIR" == "B_DIR" { SuffixKeyShape(u, "_DIR", "B"); }
        assert |u + "_DIR"| == |u| + 4 && (u + "_DIR")[|u| + 1] == 'D';
      }
    }
  }

  /** A speed command is produced exactly for motors A, B and F (in any
      case); it is the motor's prefix followed by the decimal hardware value,
      and the number after the one-letter prefix reads back as that value. */
  lemma SpeedCommandShape(motor: string, percentage: int)
    ensures SpeedCommand(motor, percentage).Ok? <==> Upper(motor) in {"A", "B", "F"}
    ensures SpeedCommand(motor, percentage).Ok? ==>
              var t := SpeedCommand(motor, percentage).value;
              && t == Upper(motor) + IntToString(SpeedToHardware(percentage))
              && ParseInt(t[1..]) == Some(SpeedToHardware(percentage))
    ensures SpeedCommand(motor, percentage).Err? ==>
              SpeedCommand(motor, percentage).error == UnknownMotor(Upper(motor))
  {
    var u := Upper(motor);
    CommandKeys(u);
    if u in {"A", "B", "F"} {
      var t := SpeedCommand(motor, percentage).value;
      assert t[1..] == IntToString(SpeedToHardware(percentage));
      ParseIntRoundTrip(SpeedToHardware(percentage));
    }
  }

  /** A direction command exists exactly for motors A and B (in any case)
      and is `AD<code>` / `BD<code>`. */
  lemma DirectionCommandShape(motor: string, direction: string)
    ensures DirectionCommand(motor, direction).Ok? <==> Upper(motor) in {"A", "B"}
    ensures DirectionCommand(motor, direction).Ok? ==>
              DirectionCommand(motor, direction).value == Upper(motor) + "D" + DirectionCode(direction)
  {
    var u := Upper(motor);
    CommandKeys(u);
  }

  /** The fan command is `F` and the clamped percentage, which reads back
      from the text after the prefix. */
  lemma FanCommandShape(percentage: int)
    ensures FanCommand(percentage)[..1] == "F"
    ensures ParseInt(FanCommand(percentage)[1..]) == Some(Clamp(percentage, 0, 100))
    ensures 0 <= Clamp(percentage, 0, 100) <= 100
  {
    var t := FanCommand(percentage);
    assert t[1..] == IntToString(Clamp(percentage, 0, 100));
    ParseIntRoundTrip(Clamp(percentage, 0, 100));
  }

  // ---------------------------------------------------------------------
  // Inbound line splitting

  /** Separators in the order they are tried. */
  const Separators: seq<string> := ["\r\n", "\n", "\r"]

  predicate HasSeparator(buf: string) {
    Contains(buf, "\r\n") || Contains(buf, "\n") || Contains(buf, "\r")
  }

  /** The separator used next: the first one in priority order that occurs
      anywhere in the buffer (not the one that occurs first). */
  function NextSeparator(buf: string): (r: Option<string>)
    ensures r.None? <==> !HasSeparator(buf)
    ensures r.Some? ==> r.value in Separators && Contains(buf, r.value)
    ensures r == Some("\n") ==> !Contains(buf, "\r\n")
    ensures r == Some("\r") ==> !Contains(buf, "\r\n") && !Contains(buf, "\n")
  {
    if Contains(buf, "\r\n") then Some("\r\n")
    else if Contains(buf, "\n") then Some("\n")
    else if Contains(buf, "\r") then Some("\r")
    else None
  }

  /** One split: the text before the first occurrence of the separator,
      and the separator itself. */
  datatype Piece = Piece(raw: string, sep: string)

  function Join(pieces: seq<Piece>): string {
    if pieces == [] then [] else pieces[0].raw + pieces[0].sep + Join(pieces[1..])
  }

  /** `buf.split(sep, 1)` at the first occurrence, with the separator chosen
      by priority. */
  predicate SplitsAt(buf: string, p: Piece, after: string) {
    && NextSeparator(buf) == Some(p.sep)
    && buf == p.raw + p.sep + after
    && !Contains(p.raw, p.sep)
  }

  /** The splitting loop of the reader: split while any separator remains,
      each time at the first occurrence of the separator the priority order
      picks. */
  function Drain(buf: string): (seq<Piece>, string)
    decreases |buf|
  {
    match NextSeparator(buf)
    case None => ([], buf)
    case Some(sep) =>
      var i := IndexOf(buf, sep).value;
      var tail := Drain(buf[i + |sep|..]);
      ([Piece(buf[..i], sep)] + tail.0, tail.1)
  }

  /** Every piece in turn is cut at the separator the priority order picks
      for the text still unsplit at that point, at its first occurrence. */
  predicate SplitChain(pieces: seq<Piece>, rest: string) {
    pieces == [] ||
    (SplitsAt(Join(pieces) + rest, pieces[0], Join(pieces[1..]) + rest) && SplitChain(pieces[1..], rest))
  }

  /** The pieces and the leftover reassemble the buffer exactly, each piece
      is cut where the priority order says, and the leftover holds no
      separator. */
  lemma {:induction false} DrainSplitsExactly(buf: string)
    ensures Join(Drain(buf).0) + Drain(buf).1 == buf
    ensures !HasSeparator(Drain(buf).1)
    ensures SplitChain(Drain(buf).0, Drain(buf).1)
    decreases |buf|
  {
    var sep' := NextSeparator(buf);
    if sep'.Some? {
      var sep := sep'.value;
      var i := IndexOf(buf, sep).value;
      var after := buf[i + |sep|..];
      NoEarlierOccurrence(buf, sep, i);
      DrainSplitsExactly(after);
      var tail := Drain(after);
      var pieces := [Piece(buf[..i], sep)] + tail.0;
      assert Drain(buf) == (pieces, tail.1);
      assert pieces[1..] == tail.0;
      assert Join(pieces) + tail.1 == buf;
    }
  }

  lemma NoEarlierOccurrence(buf: string, sep: string, i: nat)
    requires |sep| > 0 && IndexOf(buf, sep) == Some(i)
    ensures buf == buf[..i] + sep + buf[i + |sep|..]
    ensures !Contains(buf[..i], sep)
  {
    var pre := buf[..i];
    forall j | OccursAt(pre, sep, j)
      ensures false
    {
      assert buf[j..j + |sep|] == pre[j..j + |sep|];
      assert OccursAt(buf, sep, j);
    }
  }

  /** A piece that strips to nothing; it yields no log line. */
  predicate Blank(p: Piece) {
    Strip(p.raw) == []
  }

  /** How many of the pieces are not blank. */
  function NonBlankCount(pieces: seq<Piece>): (n: nat)
    ensures n <= |pieces|
  {
    if pieces == [] then 0 else (if Blank(pieces[0]) then 0 else 1) + NonBlankCount(pieces[1..])
  }

  /** The log lines a sequence of pieces yields: each piece stripped, blank
      ones dropped. */
  function Lines(pieces: seq<Piece>): (lines: seq<string>)
    ensures |lines| == NonBlankCount(pieces)
    ensures forall k :: 0 <= k < |lines| ==> lines[k] != [] && IsStripped(lines[k])
  {
    if pieces == [] then []
    else
      var line := Strip(pieces[0].raw);
      StripIsTrimmedSlice(pieces[0].raw);
      if line == [] then Lines(pieces[1..]) else [line] + Lines(pieces[1..])
  }

  /** The lines are the stripped non-blank pieces, in order: the piece at
      `j` becomes the line numbered by how many non-blank pieces precede
      it. */
  lemma {:induction false} LinesKeepNonBlankInOrder(pieces: seq<Piece>)
    ensures forall j :: 0 <= j < |pieces| && !Blank(pieces[j]) ==>
              && NonBlankCount(pieces[..j]) < |Lines(pieces)|
              && Lines(pieces)[NonBlankCount(pieces[..j])] == Strip(pieces[j].raw)
    decreases |pieces|
  {
    if pieces != [] {
      var tail := pieces[1..];
      LinesKeepNonBlankInOrder(tail);
      forall j | 0 <= j < |pieces| && !Blank(pieces[j])
        ensures NonBlankCount(pieces[..j]) < |Lines(pieces)|
        ensures Lines(pieces)[NonBlankCount(pieces[..j])] == Strip(pieces[j].raw)
      {
        LineOfPiece(pieces, j);
      }
    }
  }

  /** One step of the induction above: the piece at `j` seen from the
      whole sequence and from its tail. */
  lemma LineOfPiece(pieces: seq<Piece>, j: nat)
    requires j < |pieces| && !Blank(pieces[j])
    requires forall i :: 0 <= i < |pieces| - 1 && !Blank(pieces[1..][i]) ==>
               && NonBlankCount(pieces[1..][..i]) < |Lines(pieces[1..])|
               && Lines(pieces[1..])[NonBlankCount(pieces[1..][..i])] == Strip(pieces[1..][i].raw)
    ensures NonBlankCount(pieces[..j]) < |Lines(pieces)|
    ensures Lines(pieces)[NonBlankCount(pieces[..j])] == Strip(pieces[j].raw)
  {
    var tail := pieces[1..];
    var head := if Blank(pieces[0]) then [] else [Strip(pieces[0].raw)];
    LinesOfCons(pieces);
    assert Lines(pieces) == head + Lines(tail);
    if j == 0 {
      assert pieces[..0] == [];
      assert NonBlankCount(pieces[..j]) == 0;
    } else {
      var i := j - 1;
      assert tail[i] == pieces[j];
      CountOfPrefix(pieces, j);
      var n := NonBlankCount(tail[..i]);
      assert n < |Lines(tail)| && Lines(tail)[n] == Strip(pieces[j].raw);
      assert NonBlankCount(pieces[..j]) == |head| + n;
      assert (head + Lines(tail))[|head| + n] == Lines(tail)[n];
    }
  }

  lemma LinesOfCons(pieces: seq<Piece>)
    requires pieces != []
    ensures Lines(pieces) == (if Blank(pieces[0]) then [] else [Strip(pieces[0].raw)]) + Lines(pieces[1..])
  {
  }

  lemma CountOfPrefix(pieces: seq<Piece>, j: nat)
    requires 0 < j <= |pieces|
    ensures NonBlankCount(pieces[..j]) == (if Blank(pieces[0]) then 0 else 1) + NonBlankCount(pieces[1..][..j - 1])
  {
    assert pieces[..j][1..] == pieces[1..][..j - 1];
  }

  /** One pass of the reader after new text arrives: the lines forwarded to
      the log and the buffer kept for the next read. The buffer and the new
      text are cut into pieces exactly as the priority order of separators
      says, the lines are the stripped non-blank pieces, and what is kept
      holds no separator. */
  function ReceiveText(buf: string, chunk: string): (r: (seq<string>, string))
    ensures !HasSeparator(r.1)
    ensures forall k :: 0 <= k < |r.0| ==> r.0[k] != [] && IsStripped(r.0[k])
    ensures exists pieces :: Join(pieces) + r.1 == buf + chunk && SplitChain(pieces, r.1) && r.0 == Lines(pieces)
  {
    var d := Drain(buf + chunk);
    DrainSplitsExactly(buf + chunk);
    assert Join(d.0) + d.1 == buf + chunk && SplitChain(d.0, d.1) && Lines(d.0) == Lines(d.0);
    (Lines(d.0), d.1)
  }

  /** A buffer without separators is kept whole and yields no line. */
  lemma DrainWithoutSeparator(buf: string)
    requires !HasSeparator(buf)
    ensures Drain(buf) == ([], buf)
  {
  }

  /** The priority order beats position: in `"a\rb\r\n"` the carriage
      return comes first, but the buffer is split at `"\r\n"`, so one line
      `"a\rb"` is forwarded. */
  lemma PriorityBeatsPosition()
    ensures Lines(Drain("a\rb\r\n").0) == ["a\rb"]
  {
    DrainPriorityExample();
    var ps := [Piece("a\rb", "\r\n")];
    assert Strip("a\rb") == "a\rb" by {
      assert LStrip("a\rb") == "a\rb";
      assert RStrip("a\rb") == "a\rb";
    }
    LinesOfCons(ps);
    assert ps[1..] == [];
  }

  lemma DrainPriorityExample()
    ensures Drain("a\rb\r\n") == ([Piece("a\rb", "\r\n")], [])
  {
    var buf := "a\rb\r\n";
    assert IndexOf(buf, "\r\n") == Some(3) by {
      assert IndexFrom(buf, "\r\n", 3) == Some(3);
      assert buf[2..4] != "\r\n" by { assert buf[2..4][0] == 'b'; }
      assert IndexFrom(buf, "\r\n", 2) == Some(3);
      assert buf[1..3] != "\r\n" by { assert buf[1..3][1] == 'b'; }
      assert IndexFrom(buf, "\r\n", 1) == Some(3);
      assert buf[0..2] != "\r\n" by { assert buf[0..2][0] == 'a'; }
    }
    assert NextSeparator(buf) == Some("\r\n");
    assert buf[..3] == "a\rb";
    assert buf[5..] == [];
    assert Drain([]) == ([], []) by {
      assert !HasSeparator([]);
    }
    assert Drain(buf) == ([Piece(buf[..3], "\r\n")] + Drain(buf[5..]).0, Drain(buf[5..]).1);
    assert [Piece(buf[..3], "\r\n")] + [] == [Piece("a\rb", "\r\n")];
  }
}

=== FILE: numeric.dfy ===
/** Integer helpers shared by the modules: clamping, Python's
    round-half-to-even and `int()` of a float (truncation toward zero). */
module Numeric {

  function Abs(x: int): nat {
    if x < 0 then -x else x
  }

  /** `max(lo, min(hi, v))`, the `clamp` helper of the camera tool. */
  function Clamp(v: int, lo: int, hi: int): (r: int)
    ensures lo <= hi ==> lo <= r <= hi
    ensures lo <= v <= hi ==> r == v
    ensures lo <= hi && v <= lo ==> r == lo
    ensures lo <= hi && hi <= v ==> r == hi
  {
    if lo >= (if hi <= v then hi else v) then lo
    else if hi <= v then hi else v
  }

  /** Clamping an already clamped value changes nothing. */
  lemma ClampIdempotent(v: int, lo: int, hi: int)
    requires lo <= hi
    ensures Clamp(Clamp(v, lo, hi), lo, hi) == Clamp(v, lo, hi)
  {
  }

  /** Python's `round(n / d)` for integers `n` and a positive `d`: the
      nearest integer, ties going to the even neighbour. */
  function RoundHalfEven(n: int, d: int): int
    requires d > 0
  {
    var q := n / d;
    var r := n % d;
    if 2 * r < d then q
    else if 2 * r > d then q + 1
    else if q % 2 == 0 then q
    else q + 1
  }

  /** The rounded value is a nearest integer to `n / d`; on a tie it is the
      even one. */
  lemma RoundHalfEvenIsNearest(n: int, d: int)
    requires d > 0
    ensures var k := RoundHalfEven(n, d);
            && 2 * Abs(n - k * d) <= d
            && (2 * Abs(n - k * d) == d ==> k % 2 == 0)
  {
    var q := n / d;
    var r := n % d;
    assert n == q * d + r;
    var k := RoundHalfEven(n, d);
    if 2 * r < d {
      assert n - k * d == r;
    } else {
      assert n - (q + 1) * d == r - d;
    }
  }

  lemma SmallMultiple(t: int, d: int)
    requires d > 0 && -d <= t * d <= d
    ensures -1 <= t <= 1
  {
  }

  lemma NeighboursCannotBothTie(e: int, f: int, d: int, m: int, k: int)
    requires d > 0 && -1 <= k - m <= 1
    requires 2 * Abs(e) < d || (2 * Abs(e) == d && m % 2 == 0)
    requires 2 * Abs(f) <= d && (2 * Abs(f) == d ==> k % 2 == 0)
    requires k - m == 1 ==> e - f == d
    requires k - m == -1 ==> f - e == d
    ensures k == m
  {
  }

  lemma NearestIsUnique(n: int, d: int, m: int, k: int)
    requires d > 0
    requires 2 * Abs(n - m * d) < d || (2 * Abs(n - m * d) == d && m % 2 == 0)
    requires 2 * Abs(n - k * d) <= d && (2 * Abs(n - k * d) == d ==> k % 2 == 0)
    ensures m == k
  {
    var e := n - m * d;
    var f := n - k * d;
    var t := k - m;
    assert t * d == e - f by {
      assert t * d == k * d - m * d;
    }
    SmallMultiple(t, d);
    assert t == 1 ==> e - f == d;
    assert t == -1 ==> f - e == d;
    NeighboursCannotBothTie(e, f, d, m, k);
  }

  /** Any integer meeting the nearest/ties-to-even description is the
      rounded value: the description determines the result. */
  lemma RoundHalfEvenUnique(n: int, d: int, m: int)
    requires d > 0
    requires 2 * Abs(n - m * d) < d || (2 * Abs(n - m * d) == d && m % 2 == 0)
    ensures m == RoundHalfEven(n, d)
  {
    RoundHalfEvenIsNearest(n, d);
    NearestIsUnique(n, d, m, RoundHalfEven(n, d));
  }

  /** Python `int(x)` for a finite float: truncation toward zero. */
  function TruncToInt(x: real): (r: int)
    ensures 0.0 <= x ==> 0 <= r && r as real <= x < r as real + 1.0
    ensures x < 0.0 ==> r <= 0 && r as real - 1.0 < x <= r as real
  {
    if x >= 0.0 then x.Floor else -((-x).Floor)
  }

  /** Python `round(x)` for a finite float: nearest integer, ties to even. */
  function RoundReal(x: real): (r: int)
    ensures 2.0 * (x - r as real) <= 1.0 && 2.0 * (r as real - x) <= 1.0
    ensures 2.0 * (x - r as real) == 1.0 || 2.0 * (r as real - x) == 1.0 ==> r % 2 == 0
  {
    var f := x.Floor;
    var frac := x - f as real;
    if 2.0 * frac < 1.0 then f
    else if 2.0 * frac > 1.0 then f + 1
    else if f % 2 == 0 then f
    else f + 1
  }
}

=== FILE: text.dfy ===
/** Python string helpers restricted to ASCII: the whitespace set shared by
    `str.strip()`, `int()` and the regular-expression class `\s`, decimal
    digits, `str(int)`, the `{:04d}` zero-padded format, `int(text)` and
    substring search. */
module Text {
  import opened Wrappers

  /** Python's `str.isspace` restricted to ASCII: tab, line feed, vertical
      tab, form feed, carriage return, the four separators 0x1C..0x1F and
      the space. */
  predicate IsSpace(c: char) {
    var n := c as int;
    n == 32 || 9 <= n <= 13 || 28 <= n <= 31
  }

  predicate IsDigit(c: char) {
    '0' <= c <= '9'
  }

  predicate AllDigits(s: string) {
    forall k :: 0 <= k < |s| ==> IsDigit(s[k])
  }

  predicate AllSpaces(s: string) {
    forall k :: 0 <= k < |s| ==> IsSpace(s[k])
  }

  function DigitValue(c: char): (d: nat)
    requires IsDigit(c)
    ensures d < 10
  {
    (c as int) - ('0' as int)
  }

  function DigitChar(d: nat): (c: char)
    requires d < 10
    ensures IsDigit(c) && DigitValue(c) == d
  {
    (('0' as int) + d) as char
  }

  // ---------------------------------------------------------------------
  // strip()

  /** `s.lstrip()`: the longest suffix of `s` that does not start with
      whitespace. */
  function LStrip(s: string): (r: string)
    ensures |r| <= |s| && r == s[|s| - |r|..]
    ensures r == [] || !IsSpace(r[0])
    ensures forall k :: 0 <= k < |s| - |r| ==> IsSpace(s[k])
  {
    s[SkipSpaces(s, 0)..]
  }

  /** The first position at or after `k` that is not whitespace. */
  function SkipSpaces(t: string, k: nat): (r: nat)
    requires k <= |t|
    ensures k <= r <= |t|
    ensures forall m :: k <= m < r ==> IsSpace(t[m])
    ensures r < |t| ==> !IsSpace(t[r])
    decreases |t| - k
  {
    if k < |t| && IsSpace(t[k]) then SkipSpaces(t, k + 1) else k
  }

  /** The last position at or before `k` not preceded by whitespace. */
  function BackSpaces(t: string, k: nat): (r: nat)
    requires k <= |t|
    ensures r <= k
    ensures forall m :: r <= m < k ==> IsSpace(t[m])
    ensures r > 0 ==> !IsSpace(t[r - 1])
  {
    if k > 0 && IsSpace(t[k - 1]) then BackSpaces(t, k - 1) else k
  }

  /** `s.rstrip()`: the longest prefix of `s` that does not end with
      whitespace. */
  function RStrip(s: string): (r: string)
    ensures |r| <= |s| && r == s[..|r|]
    ensures r == [] || !IsSpace(r[|r| - 1])
    ensures forall k :: |r| <= k < |s| ==> IsSpace(s[k])
  {
    s[..BackSpaces(s, |s|)]
  }

  /** `s.strip()` */
  function Strip(s: string): string {
    RStrip(LStrip(s))
  }

  /** A stripped text neither starts nor ends with whitespace. */
  predicate IsStripped(s: string) {
    s == [] || (!IsSpace(s[0]) && !IsSpace(s[|s| - 1]))
  }

  /** `strip()` removes only whitespace, from both ends, and keeps a
      contiguous slice of the input. */
  lemma StripIsTrimmedSlice(s: string)
    ensures IsStripped(Strip(s))
    ensures exists i, j :: 0 <= i <= j <= |s| && Strip(s) == s[i..j]
                           && AllSpaces(s[..i]) && AllSpaces(s[j..])
  {
    var l := LStrip(s);
    var r := RStrip(l);
    if r != [] {
      assert r[0] == l[0];
    }
    StripSlice(s, l, r);
    var i := |s| - |l|;
    var j := i + |r|;
    assert 0 <= i <= j <= |s| && r == s[i..j] && AllSpaces(s[..i]) && AllSpaces(s[j..]);
  }

  /** Where the stripped text sits in its input: after the leading
      whitespace, followed only by whitespace. */
  lemma StripSlice(s: string, l: string, r: string)
    requires |l| <= |s| && l == s[|s| - |l|..] && forall k :: 0 <= k < |s| - |l| ==> IsSpace(s[k])
    requires |r| <= |l| && r == l[..|r|] && forall k :: |r| <= k < |l| ==> IsSpace(l[k])
    ensures |s| - |l| + |r| <= |s|
    ensures r == s[|s| - |l|..|s| - |l| + |r|]
    ensures AllSpaces(s[..|s| - |l|])
    ensures AllSpaces(s[|s| - |l| + |r|..])
  {
    var i := |s| - |l|;
    var j := i + |r|;
    forall k | 0 <= k < |r|
      ensures r[k] == s[i..j][k]
    {
      assert r[k] == l[k] == s[i + k];
    }
    assert r == s[i..j];
    forall k | 0 <= k < i
      ensures IsSpace(s[..i][k])
    {
      assert s[..i][k] == s[k];
    }
    forall k | 0 <= k < |s| - j
      ensures IsSpace(s[j..][k])
    {
      assert s[j..][k] == s[j + k] == l[|r| + k];
    }
  }

  /** A text is blank after stripping exactly when it is all whitespace. */
  lemma StripEmptyIffAllSpaces(s: string)
    ensures Strip(s) == [] <==> AllSpaces(s)
  {
  }

  /** Stripping twice changes nothing more. */
  lemma StripIdempotent(s: string)
    ensures Strip(Strip(s)) == Strip(s)
  {
    var t := Strip(s);
    StripIsTrimmedSlice(s);
    assert LStrip(t) == t;
    assert RStrip(t) == t;
  }

  // ---------------------------------------------------------------------
  // str.upper() on ASCII letters

  function UpperChar(c: char): char {
    if 'a' <= c <= 'z' then ((c as int) - 32) as char else c
  }

  function Upper(s: string): (r: string)
    ensures |r| == |s|
    ensures forall k :: 0 <= k < |s| ==> r[k] == UpperChar(s[k])
  {
    seq(|s|, k requires 0 <= k < |s| => UpperChar(s[k]))
  }

  // ---------------------------------------------------------------------
  // Decimal numerals

  /** The value of a run of decimal digits, most significant first. */
  function DigitsValue(s: string): nat
    requires AllDigits(s)
  {
    if s == [] then 0 else DigitsValue(s[..|s| - 1]) * 10 + DigitValue(s[|s| - 1])
  }

  /** `str(n)` for a natural number. */
  function NatToString(n: nat): (s: string)
    ensures 1 <= |s| && AllDigits(s)
    ensures s[0] == '0' ==> n == 0 && |s| == 1
  {
    if n < 10 then [DigitChar(n)] else NatToString(n / 10) + [DigitChar(n % 10)]
  }

  function Pow10(n: nat): (p: nat)
    ensures p >= 1
  {
    if n == 0 then 1 else 10 * Pow10(n - 1)
  }

  /** A number below `10^w` prints with at most `w` digits (and always
      with at least one). */
  lemma {:induction false} NatToStringWidth(n: nat, w: nat)
    requires 1 <= w && n < Pow10(w)
    ensures |NatToString(n)| <= w
  {
    if n >= 10 {
      NatToStringWidth(n / 10, w - 1);
    }
  }

  /** `str(i)` for any integer: a minus sign for negatives. */
  function IntToString(i: int): string {
    if i < 0 then "-" + NatToString(-i) else NatToString(i)
  }

  /** Reading back a printed natural number gives the number. */
  lemma {:induction false} NatToStringRoundTrip(n: nat)
    ensures DigitsValue(NatToString(n)) == n
  {
    if n >= 10 {
      var s := NatToString(n);
      assert s[..|s| - 1] == NatToString(n / 10);
      NatToStringRoundTrip(n / 10);
    }
  }

  /** Printing is injective: different numbers get different numerals. */
  lemma NatToStringInjective(m: nat, n: nat)
    requires NatToString(m) == NatToString(n)
    ensures m == n
  {
    NatToStringRoundTrip(m);
    NatToStringRoundTrip(n);
  }

  function Repeat(c: char, n: nat): (r: string)
    ensures |r| == n && forall k :: 0 <= k < n ==> r[k] == c
  {
    seq(n, _ => c)
  }

  /** Python's `f"{n:0{width}d}"` for a natural number: the decimal numeral
      left-padded with zeros to at least `width` characters. */
  function ZeroPad(n: nat, width: nat): string {
    var s := NatToString(n);
    (if |s| < width then Repeat('0', width - |s|) else "") + s
  }

  lemma {:induction false} LeadingZerosValue(z: nat, s: string)
    requires AllDigits(s)
    ensures AllDigits(Repeat('0', z) + s)
    ensures DigitsValue(Repeat('0', z) + s) == DigitsValue(s)
    decreases |s|, z
  {
    var t := Repeat('0', z) + s;
    if s == [] {
      assert t == Repeat('0', z);
      if z > 0 {
        assert t[..|t| - 1] == Repeat('0', z - 1) + [];
        LeadingZerosValue(z - 1, []);
      }
    } else {
      assert t[..|t| - 1] == Repeat('0', z) + s[..|s| - 1];
      LeadingZerosValue(z, s[..|s| - 1]);
    }
  }

  /** The padded numeral has the requested width (or the numeral's own
      width if longer), consists of digits only, and still denotes `n`. */
  lemma ZeroPadProperties(n: nat, width: nat)
    ensures var r := ZeroPad(n, width);
            && |r| == (if |NatToString(n)| < width then width else |NatToString(n)|)
            && AllDigits(r)
            && DigitsValue(r) == n
  {
    var s := NatToString(n);
    NatToStringRoundTrip(n);
    if |s| < width {
      LeadingZerosValue(width - |s|, s);
    } else {
      assert ZeroPad(n, width) == s;
    }
  }

  /** Two zero-padded numerals of the same width are equal only for equal
      numbers. */
  lemma ZeroPadInjective(m: nat, n: nat, width: nat)
    requires ZeroPad(m, width) == ZeroPad(n, width)
    ensures m == n
  {
    ZeroPadProperties(m, width);
    ZeroPadProperties(n, width);
  }

  // ---------------------------------------------------------------------
  // int(text)

  /** The digit part accepted by Python's `int()`: digits, with single
      underscores allowed only between two digits. */
  predicate DigitGroups(b: string) {
    && |b| >= 1
    && IsDigit(b[0])
    && IsDigit(b[|b| - 1])
    && (forall k :: 0 <= k < |b| ==> IsDigit(b[k]) || b[k] == '_')
    && (forall k :: 0 <= k < |b| - 1 ==> !(b[k] == '_' && b[k + 1] == '_'))
  }

  function DropUnderscores(b: string): (r: string)
    requires forall k :: 0 <= k < |b| ==> IsDigit(b[k]) || b[k] == '_'
    ensures AllDigits(r)
    ensures AllDigits(b) ==> r == b
  {
    if b == [] then []
    else if b[0] == '_' then DropUnderscores(b[1..])
    else [b[0]] + DropUnderscores(b[1..])
  }

  /** The unsigned part of `int(text)`: digit groups and their value. */
  function ParseDigitGroups(b: string): (r: Option<nat>)
    ensures r.Some? <==> DigitGroups(b)
  {
    if DigitGroups(b) then Some(DigitsValue(DropUnderscores(b))) else None
  }

  /** Python `int(text)` in base 10 on ASCII text: surrounding whitespace is
      ignored, one optional sign, then digit groups; anything else is a
      `ValueError`, modelled as `None`. */
  function ParseInt(text: string): (r: Option<int>) {
    var t := Strip(text);
    if t == [] then None
    else if t[0] == '-' then
      match ParseDigitGroups(t[1..])
      case Some(v) => Some(-(v as int))
      case None => None
    else if t[0] == '+' then
      match ParseDigitGroups(t[1..])
      case Some(v) => Some(v as int)
      case None => None
    else
      match ParseDigitGroups(t)
      case Some(v) => Some(v as int)
      case None => None
  }

  lemma StripNoSpaces(s: string)
    requires forall k :: 0 <= k < |s| ==> !IsSpace(s[k])
    ensures Strip(s) == s
  {
  }

  lemma ParseDigitGroupsOfNumeral(n: nat)
    ensures ParseDigitGroups(NatToString(n)) == Some(n)
  {
    var d := NatToString(n);
    assert DigitGroups(d);
    NatToStringRoundTrip(n);
  }

  /** `int(str(i)) == i` */
  lemma ParseIntRoundTrip(i: int)
    ensures ParseInt(IntToString(i)) == Some(i)
  {
    var s := IntToString(i);
    var n: nat := if i < 0 then -i else i;
    var d := NatToString(n);
    ParseDigitGroupsOfNumeral(n);
    if i < 0 {
      assert s == "-" + d;
      assert forall k :: 0 <= k < |s| ==> !IsSpace(s[k]) by {
        forall k | 0 <= k < |s| ensures !IsSpace(s[k]) {
          if k > 0 {
            assert s[k] == d[k - 1];
          }
        }
      }
      StripNoSpaces(s);
      assert s[1..] == d;
    } else {
      assert s == d;
      StripNoSpaces(s);
      assert IsDigit(s[0]);
    }
  }

  /** Whatever `int()` accepts contains at least one digit and nothing but
      whitespace, one leading sign, digits and underscores. */
  lemma ParseIntAcceptsOnlyNumerals(text: string)
    requires ParseInt(text).Some?
    ensures exists k :: 0 <= k < |text| && IsDigit(text[k])
  {
    ParsedTextEndsInDigit(text);
    var k := StripLastCharIndex(text);
    assert IsDigit(text[k]);
  }

  /** Where the last character of a non-blank stripped text sits in the
      input. */
  lemma StripLastCharIndex(s: string) returns (k: nat)
    requires Strip(s) != []
    ensures k < |s| && s[k] == Strip(s)[|Strip(s)| - 1]
  {
    var l := LStrip(s);
    var r := RStrip(l);
    StripSlice(s, l, r);
    k := |s| - |l| + |r| - 1;
    assert s[|s| - |l|..|s| - |l| + |r|][|r| - 1] == s[k];
  }

  /** The stripped text `int()` accepts ends in a digit. */
  lemma ParsedTextEndsInDigit(text: string)
    requires ParseInt(text).Some?
    ensures Strip(text) != [] && IsDigit(Strip(text)[|Strip(text)| - 1])
  {
    var t := Strip(text);
    if t[0] == '-' || t[0] == '+' {
      var b := t[1..];
      assert ParseDigitGroups(b).Some?;
      assert IsDigit(b[|b| - 1]);
      assert b[|b| - 1] == t[|t| - 1];
    } else {
      assert ParseDigitGroups(t).Some?;
    }
  }

  // ---------------------------------------------------------------------
  // Substring search (`sub in s`, `s.find(sub)`)

  predicate OccursAt(s: string, sub: string, j: int) {
    0 <= j && j + |sub| <= |s| && s[j..j + |sub|] == sub
  }

  function IndexFrom(s: string, sub: string, k: nat): (r: Option<nat>)
    ensures r.Some? ==> k <= r.value && OccursAt(s, sub, r.value)
    ensures r.Some? ==> forall j :: k <= j < r.value ==> !OccursAt(s, sub, j)
    ensures r.None? ==> forall j :: k <= j ==> !OccursAt(s, sub, j)
    decreases |s| - k
  {
    if k + |sub| > |s| then None
    else if s[k..k + |sub|] == sub then Some(k)
    else IndexFrom(s, sub, k + 1)
  }

  /** The first occurrence of `sub` in `s`, as Python's `s.find(sub)`. */
  function IndexOf(s: string, sub: string): (r: Option<nat>)
    ensures r.Some? ==> OccursAt(s, sub, r.value)
    ensures r.Some? ==> forall j :: 0 <= j < r.value ==> !OccursAt(s, sub, j)
    ensures r.None? ==> forall j :: !OccursAt(s, sub, j)
  {
    IndexFrom(s, sub, 0)
  }

  /** Python `sub in s` */
  predicate Contains(s: string, sub: string) {
    IndexOf(s, sub).Some?
  }
}

=== FILE: video_recorder.dfy ===
/** The two-camera recorder: per-camera recording sessions started and
    stopped by `toggle`, output naming, and the capture loop that crops,
    writes and extracts frames. Devices, encoders and threads are inputs:
    whether a device opens, what it reads, and whether the encoder opens. */
module VideoRecorder {
  import opened Wrappers
  import opened Text
  import opened Geometry
  import opened JsonValue

  /** One still image is kept out of every 150 good frames. */
  const FrameExtractInterval: nat := 150

  datatype RecordMode = Video | Frames

  /** Only the text "frames" selects image extraction; anything else
      records video. */
  function ModeOf(text: string): (m: RecordMode)
    ensures m == Frames <==> text == "frames"
  {
    if text == "frames" then Frames else Video
  }

  // ---------------------------------------------------------------------
  // Naming

  /** `_cam_label`: the 1-based camera label shown in the window. */
  function CamLabel(idx: int): string {
    IntToString(idx + 1)
  }

  /** The label reads back as the 1-based camera number, so different
      cameras get different labels. */
  lemma CamLabelReadsBack(i: int, j: int)
    ensures ParseInt(CamLabel(i)) == Some(i + 1)
    ensures CamLabel(i) == CamLabel(j) ==> i == j
  {
    ParseIntRoundTrip(i + 1);
    ParseIntRoundTrip(j + 1);
  }

  /** `save_dir / name` */
  function JoinPath(dir: string, name: string): string {
    dir + "/" + name
  }

  /** The file extension of the output: `.mp4` for video, none for the
      frames directory. */
  function Extension(mode: RecordMode): string {
    if mode == Video then ".mp4" else ""
  }

  /** Where a session for camera `idx` writes: the file `<stem>_<label>.mp4`
      in video mode, the directory `<stem>_<label>` in frames mode. */
  function OutputPath(saveDir: string, stem: string, idx: int, mode: RecordMode): string {
    JoinPath(saveDir, stem + "_" + CamLabel(idx) + Extension(mode))
  }

  lemma PrefixCancel(p: string, a: string, b: string)
    requires p + a == p + b
    ensures a == b
  {
    assert a == (p + a)[|p|..];
    assert b == (p + b)[|p|..];
  }

  lemma SuffixCancel(a: string, b: string, x: string)
    requires a + x == b + x
    ensures a == b
  {
    assert a == (a + x)[..|a + x| - |x|];
    assert b == (b + x)[..|b + x| - |x|];
  }

  lemma PathShape(saveDir: string, stem: string, i: int, mode: RecordMode)
    ensures OutputPath(saveDir, stem, i, mode) == (saveDir + "/" + stem + "_") + (CamLabel(i) + Extension(mode))
  {
  }

  /** Different cameras never share an output path. */
  lemma OutputPathInjective(saveDir: string, stem: string, i: int, j: int, mode: RecordMode)
    requires OutputPath(saveDir, stem, i, mode) == OutputPath(saveDir, stem, j, mode)
    ensures i == j
  {
    var prefix := saveDir + "/" + stem + "_";
    var li := CamLabel(i);
    var lj := CamLabel(j);
    var ext := Extension(mode);
    PathShape(saveDir, stem, i, mode);
    PathShape(saveDir, stem, j, mode);
    PrefixCancel(prefix, li + ext, lj + ext);
    SuffixCancel(li, lj, ext);
    CamLabelReadsBack(i, j);
  }

  /** `frame_{k:04d}.jpg` */
  function FrameName(k: nat): string {
    "frame_" + ZeroPad(k, 4) + ".jpg"
  }

  /** Different extraction counters give different image names. */
  lemma FrameNameInjective(j: nat, k: nat)
    requires FrameName(j) == FrameName(k)
    ensures j == k
  {
    var a := ZeroPad(j, 4);
    var b := ZeroPad(k, 4);
    assert FrameName(j)[6..|FrameName(j)| - 4] == a;
    assert FrameName(k)[6..|FrameName(k)| - 4] == b;
    ZeroPadInjective(j, k, 4);
  }

  // ---------------------------------------------------------------------
  // Frame rate

  /** What the device reports for its frame rate. */
  datatype FpsReading = NaN | Rate(value: real)

  /** `_real_fps`: the reported rate, unless it is 0 or NaN, in which case
      the target rate, or 30 when the target is 0 too. */
  function RealFps(reported: FpsReading, targetFps: real): (fps: real)
    ensures fps != 0.0
    ensures reported.Rate? && reported.value != 0.0 ==> fps == reported.value
    ensures (reported.NaN? || reported.value == 0.0) ==> fps == (if targetFps != 0.0 then targetFps else 30.0)
  {
    if reported.NaN? || reported.value == 0.0 then
      if targetFps != 0.0 then targetFps else 30.0
    else reported.value
  }

  /** The capture loop paces itself at `max(real_fps, 1)` frames per second,
      so its frame interval `1 / rate` is defined and at most one second. */
  function PacingRate(reported: FpsReading, targetFps: real): (rate: real)
    ensures rate >= 1.0
    ensures RealFps(reported, targetFps) >= 1.0 ==> rate == RealFps(reported, targetFps)
  {
    var fps := RealFps(reported, targetFps);
    if fps >= 1.0 then fps else 1.0
  }

  // ---------------------------------------------------------------------
  // Sessions

  /** The video encoder as opened: rate and frame size. */
  datatype WriterSpec = WriterSpec(fps: real, width: nat, height: nat)

  /** A recording session: its output, mode, encoder (video mode only) and
      the most recent frame the capture loop produced. */
  datatype Session = Session(outPath: string, mode: RecordMode, writer: Option<WriterSpec>, latest: Option<Frame>)

  /** The recorder: the save directory, target rate, the per-camera
      recording flags, the sessions, and each camera's decoded ROI entry. */
  datatype Recorder = Recorder(
    saveDir: string,
    targetFps: real,
    flags: map<int, bool>,
    sessions: map<int, Session>,
    rois: map<int, Result<RoiSetting, ConvError>>)

  /** `is_recording`: a camera without a flag counts as idle. */
  predicate IsRecording(r: Recorder, idx: int) {
    idx in r.flags && r.flags[idx]
  }

  /** Sessions exist exactly for the cameras flagged as recording. */
  predicate Valid(r: Recorder) {
    && (forall i :: i in r.sessions ==> i in r.flags && r.flags[i])
    && (forall i :: i in r.flags && r.flags[i] ==> i in r.sessions)
  }

  /** A fresh recorder: the given cameras flagged idle, no sessions. */
  function NewRecorder(saveDir: string, camIndices: seq<int>, targetFps: real,
                       rois: map<int, Result<RoiSetting, ConvError>>): (r: Recorder)
    ensures Valid(r)
    ensures forall i :: !IsRecording(r, i)
    ensures forall k :: 0 <= k < |camIndices| ==> camIndices[k] in r.flags
  {
    Recorder(saveDir, targetFps, map i | i in camIndices :: false, map[], rois)
  }

  /** `get_latest_frame` */
  function LatestFrame(r: Recorder, idx: int): (f: Option<Frame>)
    ensures idx !in r.sessions ==> f.None?
  {
    if idx in r.sessions then r.sessions[idx].latest else None
  }

  /** How the devices behave for one start: whether the camera opens with
      the preferred backend or the fallback, the first read, whether the
      encoder opens, the rate the device reports, and whether the frames
      folder can be created (`mkdir(parents=True, exist_ok=True)` raises
      when a file already has its name or a parent cannot be made). */
  datatype StartProbe = StartProbe(
    opensPreferred: bool,
    opensFallback: bool,
    firstRead: Option<Frame>,
    writerOpens: bool,
    reportedFps: FpsReading,
    folderCreates: bool)

  datatype StartError = OpenFailed | ReadFailed | FolderFailed | WriterFailed

  /** The ROI entry configured for a camera; none configured means no
      cropping. */
  function RoiFor(r: Recorder, idx: int): Result<RoiSetting, ConvError> {
    if idx in r.rois then r.rois[idx] else Ok(NoRoi)
  }

  /** `_start`: nothing on a recording camera; otherwise the camera must
      open, the first read must succeed and then, in frames mode, the output
      folder must be created or, in video mode, the encoder (sized like the
      first frame) must open. Only then is the session recorded. */
  function Start(r: Recorder, idx: int, stem: string, modeText: string, probe: StartProbe): (res: Result<Recorder, StartError>)
    ensures IsRecording(r, idx) ==> res == Ok(r)
    ensures !IsRecording(r, idx) ==>
              (res == Err(OpenFailed) <==> !probe.opensPreferred && !probe.opensFallback)
    ensures !IsRecording(r, idx) && (probe.opensPreferred || probe.opensFallback) ==>
              (res == Err(ReadFailed) <==> probe.firstRead.None?)
    ensures !IsRecording(r, idx) && (probe.opensPreferred || probe.opensFallback) && probe.firstRead.Some? ==>
              (res == Err(WriterFailed) <==> ModeOf(modeText) == Video && !probe.writerOpens)
    ensures !IsRecording(r, idx) && (probe.opensPreferred || probe.opensFallback) && probe.firstRead.Some? ==>
              (res == Err(FolderFailed) <==> ModeOf(modeText) == Frames && !probe.folderCreates)
    ensures !IsRecording(r, idx) && res.Ok? ==>
              && IsRecording(res.value, idx)
              && idx in res.value.sessions
              && res.value.sessions[idx].outPath == OutputPath(r.saveDir, stem, idx, ModeOf(modeText))
              && res.value.sessions[idx].mode == ModeOf(modeText)
              && res.value.sessions[idx].latest.None?
              && (res.value.sessions[idx].writer.Some? <==> ModeOf(modeText) == Video)
              && res.value.flags == r.flags[idx := true]
              && res.value.sessions == r.sessions[idx := res.value.sessions[idx]]
              && res.value.saveDir == r.saveDir && res.value.targetFps == r.targetFps
              && res.value.rois == r.rois
  {
    if IsRecording(r, idx) then Ok(r)
    else if !probe.opensPreferred && !probe.opensFallback then Err(OpenFailed)
    else if probe.firstRead.None? then Err(ReadFailed)
    else
      var first := probe.firstRead.value;
      var mode := ModeOf(modeText);
      var outPath := OutputPath(r.saveDir, stem, idx, mode);
      if mode == Frames && !probe.folderCreates then Err(FolderFailed)
      else if mode == Video && !probe.writerOpens then Err(WriterFailed)
      else
        var writer := if mode == Video
                      then Some(WriterSpec(RealFps(probe.reportedFps, r.targetFps), first.width, first.height))
                      else None;
        Ok(r.(flags := r.flags[idx := true],
              sessions := r.sessions[idx := Session(outPath, mode, writer, None)]))
  }

  /** `_stop`: nothing on an idle camera (and no path); otherwise the flag
      is cleared, every per-camera entry removed, and the stored output path
      returned. */
  function Stop(r: Recorder, idx: int): (res: (Recorder, Option<string>))
    requires Valid(r)
    ensures !IsRecording(r, idx) ==> res == (r, None)
    ensures IsRecording(r, idx) ==>
              && res.1 == Some(r.sessions[idx].outPath)
              && !IsRecording(res.0, idx)
              && idx !in res.0.sessions
              && res.0.flags == r.flags[idx := false]
              && res.0.sessions == r.sessions - {idx}
              && res.0.saveDir == r.saveDir && res.0.targetFps == r.targetFps && res.0.rois == r.rois
  {
    if !IsRecording(r, idx) then (r, None)
    else
      var saved := if idx in r.sessions then Some(r.sessions[idx].outPath) else None;
      (r.(flags := r.flags[idx := false], sessions := r.sessions - {idx}), saved)
  }

  /** What `toggle` does: it raises (the start failed, nothing changes), or
      returns the new recorder with `(started, saved_path)`. */
  datatype ToggleResult =
    | Raised(error: StartError)
    | Returned(next: Recorder, started: bool, saved: Option<string>)

  /** `toggle`: start an idle camera, stop a recording one. */
  function Toggle(r: Recorder, idx: int, stem: string, modeText: string, probe: StartProbe): (t: ToggleResult)
    requires Valid(r)
    ensures t.Raised? ==> !IsRecording(r, idx)
    ensures !IsRecording(r, idx) && t.Returned? ==>
              t.started && t.saved.None? && IsRecording(t.next, idx)
              && idx in t.next.sessions
              && t.next.sessions[idx].outPath == OutputPath(r.saveDir, stem, idx, ModeOf(modeText))
    ensures IsRecording(r, idx) ==>
              t.Returned? && !t.started && t.saved == Some(r.sessions[idx].outPath)
              && !IsRecording(t.next, idx) && LatestFrame(t.next, idx).None?
  {
    if !IsRecording(r, idx) then
      match Start(r, idx, stem, modeText, probe)
      case Err(e) => Raised(e)
      case Ok(r') => Returned(r', true, None)
    else
      var (r', saved) := Stop(r, idx);
      Returned(r', false, saved)
  }

  /** Cameras other than `idx` keep their flag and session. */
  ghost predicate OthersUnchanged(r: Recorder, r': Recorder, idx: int) {
    && r'.saveDir == r.saveDir && r'.targetFps == r.targetFps && r'.rois == r.rois
    && (forall j :: j != idx ==> IsRecording(r', j) == IsRecording(r, j))
    && (forall j :: j != idx ==> (j in r'.sessions <==> j in r.sessions))
    && (forall j :: j != idx && j in r.sessions ==> r'.sessions[j] == r.sessions[j])
  }

  /** A toggle keeps sessions and flags consistent and touches only the
      camera it was asked about. */
  lemma ToggleKeepsOthers(r: Recorder, idx: int, stem: string, modeText: string, probe: StartProbe)
    requires Valid(r)
    ensures var t := Toggle(r, idx, stem, modeText, probe);
            t.Returned? ==> Valid(t.next) && OthersUnchanged(r, t.next, idx)
  {
  }

  /** Starting and then stopping a camera gives back the path the start
      chose and restores every camera's recording state and sessions. */
  lemma ToggleTwiceRoundTrip(r: Recorder, idx: int, stem: string, modeText: string, probe: StartProbe, probe2: StartProbe)
    requires Valid(r) && !IsRecording(r, idx)
    requires Toggle(r, idx, stem, modeText, probe).Returned?
    ensures var r1 := Toggle(r, idx, stem, modeText, probe).next;
            var t2 := Toggle(r1, idx, stem, modeText, probe2);
            && t2.Returned? && !t2.started
            && t2.saved == Some(OutputPath(r.saveDir, stem, idx, ModeOf(modeText)))
            && t2.next.sessions == r.sessions
            && forall j :: IsRecording(t2.next, j) == IsRecording(r, j)
  {
    var res := Start(r, idx, stem, modeText, probe);
    var r1 := res.value;
    assert Toggle(r, idx, stem, modeText, probe) == Returned(r1, true, None);
    assert idx !in r.sessions;
    assert Valid(r1);
    var (r2, saved) := Stop(r1, idx);
    assert Toggle(r1, idx, stem, modeText, probe2) == Returned(r2, false, saved);
    assert r2.sessions == r.sessions by {
      assert r2.sessions == r.sessions[idx := r1.sessions[idx]] - {idx};
    }
  }

  /** Every failed start (the camera does not open on either backend, the
      first read fails, the frames folder cannot be created, or the encoder
      does not open) makes the toggle raise that error; the camera was idle
      with no session, and the caller keeps the recorder it had. */
  lemma StartFailureLeavesNoSession(r: Recorder, idx: int, stem: string, modeText: string, probe: StartProbe)
    requires Valid(r) && Start(r, idx, stem, modeText, probe).Err?
    ensures Toggle(r, idx, stem, modeText, probe) == Raised(Start(r, idx, stem, modeText, probe).error)
    ensures !IsRecording(r, idx) && idx !in r.sessions
  {
  }

  // ---------------------------------------------------------------------
  // The capture loop

  /** The good frames among the reads, in order; failed reads are skipped. */
  function GoodFrames(results: seq<Option<Frame>>): (g: seq<Frame>)
    ensures |g| <= |results|
  {
    if results == [] then []
    else GoodFrames(results[..|results| - 1]) + (if results[|results| - 1].Some? then [results[|results| - 1].value] else [])
  }

  lemma {:induction false} GoodAppend(a: seq<Option<Frame>>, b: seq<Option<Frame>>)
    ensures GoodFrames(a + b) == GoodFrames(a) + GoodFrames(b)
    decreases |b|
  {
    if b != [] {
      assert (a + b)[..|a + b| - 1] == a + b[..|b| - 1];
      GoodAppend(a, b[..|b| - 1]);
    } else {
      assert a + b == a;
    }
  }

  /** Each frame after the ROI step. */
  function CropAll(frames: seq<Frame>, roi: RoiSetting): (c: seq<Frame>)
    ensures |c| == |frames|
    ensures forall k :: 0 <= k < |frames| ==> c[k] == ApplyRoi(frames[k], roi)
  {
    seq(|frames|, k requires 0 <= k < |frames| => ApplyRoi(frames[k], roi))
  }

  /** How many images `n` good frames give: one at each count divisible by
      150, that is `ceil(n / 150)`. */
  function ExtractedCount(n: nat): (c: nat)
    ensures FrameExtractInterval * c >= n
    ensures FrameExtractInterval * c < n + FrameExtractInterval
  {
    (n + FrameExtractInterval - 1) / FrameExtractInterval
  }

  /** An image file and the frame it holds. */
  datatype Image = Image(path: string, frame: Frame)

  /** The images frames mode writes for the given cropped frames: image
      `k` is named `frame_<k padded to 4>.jpg` and holds frame `150 * k`. */
  function Extracted(cropped: seq<Frame>, outPath: string): (imgs: seq<Image>)
    ensures |imgs| == ExtractedCount(|cropped|)
  {
    var n := ExtractedCount(|cropped|);
    seq(n, k requires 0 <= k < n =>
      Image(JoinPath(outPath, FrameName(k)), cropped[FrameExtractInterval * k]))
  }

  /** What the capture loop leaves behind: the latest frame, the frames
      sent to the encoder, the images written, and whether the loop died on
      an ROI entry `int()` rejects. */
  datatype CaptureOutcome = CaptureOutcome(latest: Option<Frame>, written: seq<Frame>, images: seq<Image>, crashed: bool)

  /** The ROI setting frames are cropped with (no cropping once the entry
      is known to be unusable). */
  function SettingOf(roi: Result<RoiSetting, ConvError>): RoiSetting {
    if roi.Ok? then roi.value else NoRoi
  }

  /** The outcome of a capture session described at once: the loop dies at
      the first good frame if the ROI entry cannot be converted; otherwise
      every good frame is cropped, and video mode writes them all while
      frames mode writes every 150th starting with the first. */
  function CaptureSpec(results: seq<Option<Frame>>, mode: RecordMode, roi: Result<RoiSetting, ConvError>, outPath: string): CaptureOutcome {
    var good := GoodFrames(results);
    if roi.Err? then CaptureOutcome(None, [], [], good != [])
    else
      var c := CropAll(good, roi.value);
      CaptureOutcome((if c == [] then None else Some(c[|c| - 1])),
                     (if mode == Video then c else []),
                     (if mode == Frames then Extracted(c, outPath) else []),
                     false)
  }

  /** Appending one frame adds an image exactly when the frames so far are
      a multiple of 150 in number, and that image holds the new frame. */
  lemma ExtractedAppend(c: seq<Frame>, f: Frame, outPath: string)
    ensures |c| % FrameExtractInterval == 0 ==>
              Extracted(c + [f], outPath) == Extracted(c, outPath) + [Image(JoinPath(outPath, FrameName(ExtractedCount(|c|))), f)]
    ensures |c| % FrameExtractInterval != 0 ==> Extracted(c + [f], outPath) == Extracted(c, outPath)
  {
    var n := ExtractedCount(|c|);
    var m := ExtractedCount(|c| + 1);
    SlotArithmetic(|c|, n, m);
    var a := Extracted(c + [f], outPath);
    var b := Extracted(c, outPath);
    forall k | 0 <= k < n ensures a[k] == b[k] {
      assert (c + [f])[FrameExtractInterval * k] == c[FrameExtractInterval * k];
    }
    if |c| % FrameExtractInterval == 0 {
      assert (c + [f])[FrameExtractInterval * n] == f;
    }
  }

  lemma SlotArithmetic(len: nat, n: nat, m: nat)
    requires n == ExtractedCount(len) && m == ExtractedCount(len + 1)
    ensures len % FrameExtractInterval == 0 ==> m == n + 1 && FrameExtractInterval * n == len
    ensures len % FrameExtractInterval != 0 ==> m == n
  {
  }

  /** `_capture_loop` over the reads that complete before the stop event:
      failed reads are skipped; each good frame is cropped to the ROI,
      becomes the latest frame, and is written to the encoder (video mode)
      or saved as the next image when the good-frame count is a multiple of
      150 (frames mode). Converting an unusable ROI entry raises and ends the
      loop. */
  method CaptureLoop(results: seq<Option<Frame>>, modeText: string, roi: Result<RoiSetting, ConvError>, outPath: string)
    returns (o: CaptureOutcome)
    ensures o == CaptureSpec(results, ModeOf(modeText), roi, outPath)
  {
    var mode := ModeOf(modeText);
    var frameCount := 0;
    var extractedCount := 0;
    var latest: Option<Frame> := None;
    var written: seq<Frame> := [];
    var images: seq<Image> := [];
    ghost var c: seq<Frame> := [];
    var i := 0;
    while i < |results|
      invariant 0 <= i <= |results|
      invariant c == CropAll(GoodFrames(results[..i]), SettingOf(roi))
      invariant roi.Err? ==> GoodFrames(results[..i]) == []
      invariant LoopState(c, mode, outPath, frameCount, extractedCount, latest, written, images)
    {
      GoodStep(results, i);
      var read := results[i];
      if read.Some? {
        var frame := read.value;
        if roi.Err? {
          GoodPrefixNonEmpty(results, i + 1);
          return CaptureOutcome(None, [], [], true);
        }
        var cropped := ApplyRoi(frame, roi.value);
        CropAllAppend(GoodFrames(results[..i]), frame, roi.value);
        frameCount, extractedCount, latest, written, images :=
          TakeFrame(c, cropped, mode, outPath, frameCount, extractedCount, latest, written, images);
        c := c + [cropped];
      }
      i := i + 1;
    }
    assert results[..i] == results;
    o := CaptureOutcome(latest, written, images, false);
    SpecFromLoopState(results, mode, roi, outPath, c, frameCount, extractedCount, latest, written, images);
  }

  /** The body of the capture loop for one good, cropped frame: it becomes
      the latest frame, and is written (video mode) or saved as the next
      image when the count so far is a multiple of 150 (frames mode). */
  method TakeFrame(ghost c: seq<Frame>, cropped: Frame, mode: RecordMode, outPath: string, frameCount: int,
                   extractedCount: int, latest: Option<Frame>, written: seq<Frame>, images: seq<Image>)
    returns (frameCount': int, extractedCount': int, latest': Option<Frame>, written': seq<Frame>, images': seq<Image>)
    requires LoopState(c, mode, outPath, frameCount, extractedCount, latest, written, images)
    ensures LoopState(c + [cropped], mode, outPath, frameCount', extractedCount', latest', written', images')
  {
    StepKeepsLoopState(c, cropped, mode, outPath, frameCount, extractedCount, latest, written, images);
    latest' := Some(cropped);
    written' := written;
    images' := images;
    extractedCount' := extractedCount;
    if mode == Frames {
      if frameCount % FrameExtractInterval == 0 {
        images' := images + [Image(JoinPath(outPath, FrameName(extractedCount)), cropped)];
        extractedCount' := extractedCount + 1;
      }
    } else {
      written' := written + [cropped];
    }
    frameCount' := frameCount + 1;
  }

  /** Once every read has been taken, the loop state is the specified
      outcome. */
  lemma SpecFromLoopState(results: seq<Option<Frame>>, mode: RecordMode, roi: Result<RoiSetting, ConvError>,
                          outPath: string, c: seq<Frame>, frameCount: int, extractedCount: int,
                          latest: Option<Frame>, written: seq<Frame>, images: seq<Image>)
    requires c == CropAll(GoodFrames(results), SettingOf(roi))
    requires roi.Err? ==> GoodFrames(results) == []
    requires LoopState(c, mode, outPath, frameCount, extractedCount, latest, written, images)
    ensures CaptureOutcome(latest, written, images, false) == CaptureSpec(results, mode, roi, outPath)
  {
  }

  /** What the loop's variables hold after the cropped good frames `c`. */
  predicate LoopState(c: seq<Frame>, mode: RecordMode, outPath: string, frameCount: int, extractedCount: int,
                      latest: Option<Frame>, written: seq<Frame>, images: seq<Image>)
  {
    && frameCount == |c|
    && latest == (if c == [] then None else Some(c[|c| - 1]))
    && written == (if mode == Video then c else [])
    && images == (if mode == Frames then Extracted(c, outPath) else [])
    && extractedCount == (if mode == Frames then ExtractedCount(|c|) else 0)
  }

  /** One good frame taken through the loop body keeps the loop state. */
  lemma StepKeepsLoopState(c: seq<Frame>, f: Frame, mode: RecordMode, outPath: string, frameCount: int, extractedCount: int,
                           latest: Option<Frame>, written: seq<Frame>, images: seq<Image>)
    requires LoopState(c, mode, outPath, frameCount, extractedCount, latest, written, images)
    ensures var hit := mode == Frames && frameCount % FrameExtractInterval == 0;
            LoopState(c + [f], mode, outPath, frameCount + 1,
                      if hit then extractedCount + 1 else extractedCount,
                      Some(f),
                      if mode == Video then written + [f] else written,
                      if hit then images + [Image(JoinPath(outPath, FrameName(extractedCount)), f)] else images)
  {
    SlotArithmetic(|c|, ExtractedCount(|c|), ExtractedCount(|c| + 1));
    if mode == Frames {
      ExtractedAppend(c, f, outPath);
    }
  }

  lemma GoodStep(results: seq<Option<Frame>>, i: nat)
    requires i < |results|
    ensures GoodFrames(results[..i + 1]) ==
              GoodFrames(results[..i]) + (if results[i].Some? then [results[i].value] else [])
  {
    assert results[..i + 1][..i] == results[..i];
  }

  lemma GoodPrefixNonEmpty(results: seq<Option<Frame>>, i: nat)
    requires i <= |results| && GoodFrames(results[..i]) != []
    ensures GoodFrames(results) != []
  {
    GoodAppend(results[..i], results[i..]);
    assert results[..i] + results[i..] == results;
  }

  lemma CropAllAppend(g: seq<Frame>, f: Frame, roi: RoiSetting)
    ensures CropAll(g + [f], roi) == CropAll(g, roi) + [ApplyRoi(f, roi)]
  {
  }

  /** Every good frame is accounted for: video mode writes one encoder
      frame per good read, frames mode `ceil(n / 150)` images with distinct
      consecutive names, and failed reads change nothing. */
  lemma CaptureCounts(results: seq<Option<Frame>>, mode: RecordMode, roi: RoiSetting, outPath: string)
    ensures var o := CaptureSpec(results, mode, Ok(roi), outPath);
            && !o.crashed
            && (mode == Video ==> |o.written| == |GoodFrames(results)| && o.images == [])
            && (mode == Frames ==> o.written == [] && |o.images| == ExtractedCount(|GoodFrames(results)|))
            && (mode == Frames ==> forall j, k :: 0 <= j < k < |o.images| ==> o.images[j].path != o.images[k].path)
            && (o.latest.Some? <==> GoodFrames(results) != [])
  {
    var o := CaptureSpec(results, mode, Ok(roi), outPath);
    if mode == Frames {
      forall j, k | 0 <= j < k < |o.images| ensures o.images[j].path != o.images[k].path {
        if o.images[j].path == o.images[k].path {
          assert FrameName(j) == o.images[j].path[|outPath| + 1..];
          assert FrameName(k) == o.images[k].path[|outPath| + 1..];
          FrameNameInjective(j, k);
        }
      }
    }
  }

  /** A failed read between two good ones changes nothing. */
  lemma FailedReadsIgnored(a: seq<Option<Frame>>, b: seq<Option<Frame>>, mode: RecordMode, roi: Result<RoiSetting, ConvError>, outPath: string)
    ensures CaptureSpec(a + [None] + b, mode, roi, outPath) == CaptureSpec(a + b, mode, roi, outPath)
  {
    GoodSkipsFailedRead(a, b);
  }

  lemma GoodSkipsFailedRead(a: seq<Option<Frame>>, b: seq<Option<Frame>>)
    ensures GoodFrames(a + [None] + b) == GoodFrames(a + b)
  {
    GoodAppend(a + [None], b);
    GoodAppend(a, [None]);
    GoodAppend(a, b);
    var none: seq<Option<Frame>> := [None];
    assert GoodFrames(none) == [] by {
      assert none[..0] == [];
    }
  }

  /** The capture loop's latest frame becomes the session's latest frame. */
  function RecordCapture(r: Recorder, idx: int, o: CaptureOutcome): (r': Recorder)
    ensures Valid(r) ==> Valid(r')
    ensures idx in r.sessions && o.latest.Some? ==> LatestFrame(r', idx) == o.latest
    ensures OthersUnchanged(r, r', idx)
  {
    if idx in r.sessions && o.latest.Some? then
      r.(sessions := r.sessions[idx := r.sessions[idx].(latest := o.latest)])
    else r
  }

  // ---------------------------------------------------------------------
  // The ROI entry of a camera's parameters

  /** The loop's test before converting the `roi` entry: a list of four
      items whose FIRST item is a number (a boolean counts as one). The other
      three items are not looked at. */
  predicate RoiGate(params: map<string, Json>) {
    && "roi" in params && params["roi"].JList?
    && |params["roi"].items| == 4
    && (params["roi"].items[0].JInt? || params["roi"].items[0].JReal? || params["roi"].items[0].JBool?)
  }

  /** How the loop reads the `roi` entry: past the gate, the four items are
      converted with `int()` one by one and a failure raises; anything that
      does not pass the gate means no cropping. */
  function DecodeRoi(params: map<string, Json>): (r: Result<RoiSetting, ConvError>)
    ensures "roi" !in params ==> r == Ok(NoRoi)
    ensures !RoiGate(params) ==> r == Ok(NoRoi)
    ensures RoiGate(params) ==>
              && (r.Err? <==> IntsOf(params["roi"].items).Err?)
              && (r.Ok? ==> r.value.HasRoi?)
    ensures r.Ok? && r.value.HasRoi? ==>
              "roi" in params && params["roi"].JList? &&
              var items := params["roi"].items;
              && |items| == 4
              && (forall k :: 0 <= k < 4 ==> IntOf(items[k]).Ok?)
              && r.value.roi == Roi(IntOf(items[0]).value, IntOf(items[1]).value,
                                    IntOf(items[2]).value, IntOf(items[3]).value)
  {
    if "roi" !in params then Ok(NoRoi)
    else
      match params["roi"]
      case JList(items) =>
        if |items| == 4 && (items[0].JInt? || items[0].JReal? || items[0].JBool?) then
          match IntsOf(items)
          case Ok(v) => Ok(HasRoi(Roi(v[0], v[1], v[2], v[3])))
          case Err(e) => Err(e)
        else Ok(NoRoi)
      case _ => Ok(NoRoi)
  }

  /** A first item that is a number lets a bad later item through the
      gate, and its conversion raises: `[0, null, 10, 10]` stops the loop,
      while `[null, 0, 10, 10]` simply means no cropping. */
  lemma DecodeRoiRaisesOnLaterItem()
    ensures DecodeRoi(map["roi" := JList([JInt(0), JNull, JInt(10), JInt(10)])]) == Err(TypeError)
    ensures DecodeRoi(map["roi" := JList([JNull, JInt(0), JInt(10), JInt(10)])]) == Ok(NoRoi)
  {
    var items := [JInt(0), JNull, JInt(10), JInt(10)];
    assert IntOf(items[1]).Err?;
    assert IntsOf(items[1..]) == Err(TypeError) by {
      assert items[1..][0] == JNull;
    }
  }

  // ---------------------------------------------------------------------
  // Encoder size

  /** With an ROI the encoder is opened at the size of the uncropped first
      frame but receives cropped frames: a 640x480 camera with ROI
      (0, 0, 320, 240) sends 320x240 frames to a 640x480 encoder. */
  lemma CroppedFramesMismatchWriter()
    ensures var r := Recorder("out", 30.0, map[], map[], map[0 := Ok(HasRoi(Roi(0, 0, 320, 240)))]);
            var first := Frame(0, 0, 0, 640, 480);
            var probe := StartProbe(true, false, Some(first), true, Rate(30.0), true);
            var r' := Start(r, 0, "run", "video", probe).value;
            var o := CaptureSpec([Some(first)], Video, RoiFor(r, 0), r'.sessions[0].outPath);
            && r'.sessions[0].writer == Some(WriterSpec(30.0, 640, 480))
            && o.written == [Frame(0, 0, 0, 320, 240)]
  {
    var first := Frame(0, 0, 0, 640, 480);
    assert ClampRoi(Roi(0, 0, 320, 240), 640, 480) == Roi(0, 0, 320, 240);
    assert ApplyRoi(first, HasRoi(Roi(0, 0, 320, 240))) == Frame(0, 0, 0, 320, 240);
    assert GoodFrames([Some(first)]) == [first] by {
      assert [Some(first)][..0] == [];
    }
  }

  /** The encoder spec sized like the first frame after the ROI step. */
  function CroppedWriterSpec(fps: real, first: Frame, roi: RoiSetting): (w: WriterSpec)
    ensures w.width == ApplyRoi(first, roi).width && w.height == ApplyRoi(first, roi).height
    ensures roi.NoRoi? ==> w.width == first.width && w.height == first.height
  {
    var c := ApplyRoi(first, roi);
    WriterSpec(fps, c.width, c.height)
  }

  /** With the encoder sized after cropping, every frame the loop writes
      has the encoder's size as long as the camera keeps its frame size. */
  lemma CroppedWriterSpecFitsFrames(fps: real, first: Frame, results: seq<Option<Frame>>, roi: RoiSetting, outPath: string)
    requires forall k :: 0 <= k < |results| && results[k].Some? ==>
               results[k].value.width == first.width && results[k].value.height == first.height
    ensures var w := CroppedWriterSpec(fps, first, roi);
            var o := CaptureSpec(results, Video, Ok(roi), outPath);
            forall k :: 0 <= k < |o.written| ==> o.written[k].width == w.width && o.written[k].height == w.height
  {
    GoodSameSize(results, first);
  }

  lemma {:induction false} GoodSameSize(results: seq<Option<Frame>>, first: Frame)
    requires forall k :: 0 <= k < |results| && results[k].Some? ==>
               results[k].value.width == first.width && results[k].value.height == first.height
    ensures forall k :: 0 <= k < |GoodFrames(results)| ==>
              GoodFrames(results)[k].width == first.width && GoodFrames(results)[k].height == first.height
  {
    if results != [] {
      GoodSameSize(results[..|results| - 1], first);
    }
  }
}

=== FILE: weight_reader.dfy ===
/** The scale link: reading one line of text from the second serial port
    and pulling the first signed decimal number out of it. The port is an
    input: missing, or a sequence of line reads that happen before the
    deadline. */
module WeightReader {
  import opened Wrappers
  import opened Text

  /** Serial settings; the defaults are 9600 baud, a 2 second read timeout
      and CR LF line endings. */
  datatype Config = Config(port: string, baudrate: int, readTimeout: real, lineEnding: string)

  const DefaultConfig: Config := Config("/dev/tty.usbserial-D30GNW86", 9600, 2.0, "\r\n")

  /** The text returned when no serial port could be opened. */
  const SimulatedReading: string := "SIM:72.35"

  /** One `readline()` before the deadline: a line of text, or a serial
      exception. */
  datatype LineEvent = RawLine(text: string) | SerialFault

  /** The port as seen by one `read_value` call: no port object (the serial
      library is missing), or an open port whose buffer reset and request
      write succeed or raise, followed by the line reads that complete
      before the deadline. */
  datatype Link = NoSerial | Open(setupFails: bool, incoming: seq<LineEvent>)

  datatype ScaleError = Timeout | SerialError

  /** What one read does: the text written to the port, and the line read
      or the error raised. */
  datatype ReadOutcome = ReadOutcome(written: seq<string>, result: Result<string, ScaleError>)

  predicate Blank(e: LineEvent) {
    e.RawLine? && Strip(e.text) == []
  }

  /** The first `k` events are blank lines. */
  predicate BlankPrefix(incoming: seq<LineEvent>, k: nat)
    requires k <= |incoming|
  {
    forall j :: 0 <= j < k ==> Blank(incoming[j])
  }

  /** Where the first event that is not a blank line sits (`|incoming|`
      when there is none). */
  function FirstNonBlank(incoming: seq<LineEvent>): (k: nat)
    ensures k <= |incoming| && BlankPrefix(incoming, k)
    ensures k < |incoming| ==> !Blank(incoming[k])
  {
    if incoming == [] || !Blank(incoming[0]) then 0
    else
      var k := FirstNonBlank(incoming[1..]) + 1;
      assert forall j :: 1 <= j < k ==> incoming[j] == incoming[1..][j - 1];
      k
  }

  /** The read loop: skip lines that are blank after stripping, return the
      first other line stripped; a serial exception ends the loop with an
      error; running out of lines before the deadline is a timeout. */
  function FirstLine(incoming: seq<LineEvent>): (r: Result<string, ScaleError>)
    ensures r.Ok? ==> r.value != [] && IsStripped(r.value)
  {
    if incoming == [] then Err(Timeout)
    else
      match incoming[0]
      case SerialFault => Err(SerialError)
      case RawLine(t) =>
        var line := Strip(t);
        StripIsTrimmedSlice(t);
        if line != [] then Ok(line) else FirstLine(incoming[1..])
  }

  /** The loop's result is decided by the first event that is not a blank
      line: that line stripped, the serial error, or a timeout when every
      line read was blank. */
  lemma {:induction false} FirstLineReadsFirstNonBlank(incoming: seq<LineEvent>)
    ensures var k := FirstNonBlank(incoming);
            FirstLine(incoming) == (if k == |incoming| then Err(Timeout)
                                    else if incoming[k].SerialFault? then Err(SerialError)
                                    else Ok(Strip(incoming[k].text)))
  {
    if incoming != [] && Blank(incoming[0]) {
      FirstLineReadsFirstNonBlank(incoming[1..]);
      var k1 := FirstNonBlank(incoming[1..]);
      assert FirstNonBlank(incoming) == k1 + 1;
      if k1 < |incoming| - 1 {
        assert incoming[k1 + 1] == incoming[1..][k1];
      }
    }
  }

  /** `read_value`: without a port the simulated reading; otherwise the
      request command (when non-empty) followed by the line ending is written
      first, then lines are read. */
  function ReadValue(link: Link, requestCmd: string, lineEnding: string): (o: ReadOutcome)
    ensures link.NoSerial? ==> o == ReadOutcome([], Ok(SimulatedReading))
    ensures link.Open? && !link.setupFails ==>
              o.written == (if requestCmd == [] then [] else [requestCmd + lineEnding])
              && o.result == FirstLine(link.incoming)
    ensures link.Open? && link.setupFails ==> o.written == [] && o.result == Err(SerialError)
  {
    match link
    case NoSerial => ReadOutcome([], Ok(SimulatedReading))
    case Open(setupFails, incoming) =>
      if setupFails then ReadOutcome([], Err(SerialError))
      else
        var written := if requestCmd == [] then [] else [requestCmd + lineEnding];
        ReadOutcome(written, FirstLine(incoming))
  }

  // ---------------------------------------------------------------------
  // extract_number: the leftmost match of  ([-+]?)\s*(\d+\.?\d*)

  predicate IsSign(c: char) {
    c == '-' || c == '+'
  }

  predicate DigitAt(t: string, k: int) {
    0 <= k < |t| && IsDigit(t[k])
  }

  /** The first position at or after `k` that is not a digit. */
  function SkipDigits(t: string, k: nat): (r: nat)
    requires k <= |t|
    ensures k <= r <= |t|
    ensures forall m :: k <= m < r ==> IsDigit(t[m])
    ensures r < |t| ==> !IsDigit(t[r])
    decreases |t| - k
  {
    if k < |t| && IsDigit(t[k]) then SkipDigits(t, k + 1) else k
  }

  /** Where the greedy `\d+\.?\d*` starting at digit position `d` ends. */
  function NumberEnd(t: string, d: nat): (e: nat)
    requires DigitAt(t, d)
    ensures d < e <= |t|
  {
    var i := SkipDigits(t, d);
    if i < |t| && t[i] == '.' then SkipDigits(t, i + 1) else i
  }

  /** The two groups of a match: the sign (empty or one character) and the
      number text. */
  datatype Match = Match(sign: string, number: string)

  /** The pattern tried at position `i`, with the regex engine's greedy
      choices: take the sign when one is there and digits follow after
      optional whitespace; otherwise no sign. */
  function MatchAt(t: string, i: nat): Option<Match>
    requires i <= |t|
  {
    if i < |t| && IsSign(t[i]) && i + 1 <= |t| && DigitAt(t, SkipSpaces(t, i + 1)) then
      var d := SkipSpaces(t, i + 1);
      Some(Match([t[i]], t[d..NumberEnd(t, d)]))
    else if DigitAt(t, SkipSpaces(t, i)) then
      var d := SkipSpaces(t, i);
      Some(Match("", t[d..NumberEnd(t, d)]))
    else None
  }

  /** `re.search`: try the pattern at each position from `i` on, and take
      the first that matches. */
  function Search(t: string, i: nat): Option<Match>
    requires i <= |t|
    decreases |t| - i
  {
    if MatchAt(t, i).Some? then MatchAt(t, i)
    else if i == |t| then None
    else Search(t, i + 1)
  }

  /** The shape `digits[.digits]` with at least one leading digit, which
      is what group 2 of the pattern captures. */
  predicate DecimalText(s: string) {
    var i := SkipDigits(s, 0);
    1 <= i && (i == |s| || (s[i] == '.' && SkipDigits(s, i + 1) == |s|))
  }

  /** The exact value of a decimal text, the number `float()` reads before
      rounding to a double: whole part plus fraction digits over a power of
      ten ("12." is 12, "191.58" is 191 + 58/100). */
  function NumberValue(s: string): (v: real)
    requires DecimalText(s)
    ensures v >= 0.0
  {
    var i := SkipDigits(s, 0);
    var whole := s[..i];
    var frac := if i == |s| then [] else s[i + 1..];
    assert AllDigits(whole) by {
      forall k | 0 <= k < |whole| ensures IsDigit(whole[k]) {
        assert whole[k] == s[k];
      }
    }
    assert AllDigits(frac) by {
      forall k | 0 <= k < |frac| ensures IsDigit(frac[k]) {
        assert frac[k] == s[i + 1 + k];
      }
    }
    DigitsValue(whole) as real + (DigitsValue(frac) as real) / (Pow10(|frac|) as real)
  }

  /** `float(sign + number)`. */
  function MatchValue(m: Match): real
    requires DecimalText(m.number)
  {
    if m.sign == "-" then -NumberValue(m.number) else NumberValue(m.number)
  }

  /** Counting digits inside a slice agrees with counting them in the whole
      text, as long as the run ends inside the slice. */
  lemma {:induction false} SkipDigitsSlice(t: string, d: nat, e: nat, k: nat)
    requires d <= k <= e <= |t| && SkipDigits(t, k) <= e
    ensures SkipDigits(t[d..e], k - d) == SkipDigits(t, k) - d
    decreases e - k
  {
    var s := t[d..e];
    if k < e && IsDigit(t[k]) {
      assert s[k - d] == t[k];
      SkipDigitsSlice(t, d, e, k + 1);
    } else if k < e {
      assert s[k - d] == t[k];
    }
  }

  /** Group 2 of every match is a decimal text, so `float()` accepts it. */
  lemma MatchedNumberIsDecimal(t: string, d: nat)
    requires DigitAt(t, d)
    ensures DecimalText(t[d..NumberEnd(t, d)])
  {
    var e := NumberEnd(t, d);
    var s := t[d..e];
    var i := SkipDigits(t, d);
    SkipDigitsSlice(t, d, e, d);
    if i < |t| && t[i] == '.' {
      SkipDigitsSlice(t, d, e, i + 1);
      assert s[i - d] == t[i];
    }
  }

  /** The first digit at or after `k`. */
  function FirstDigit(t: string, k: nat): (r: Option<nat>)
    requires k <= |t|
    ensures r.None? <==> forall m :: k <= m < |t| ==> !IsDigit(t[m])
    ensures r.Some? ==> k <= r.value < |t| && IsDigit(t[r.value])
                        && forall m :: k <= m < r.value ==> !IsDigit(t[m])
    decreases |t| - k
  {
    if k == |t| then None
    else if IsDigit(t[k]) then Some(k)
    else FirstDigit(t, k + 1)
  }

  /** Where the run of whitespace ending just before `d` starts. */
  function SpaceRunStart(t: string, d: nat): (j: nat)
    requires d <= |t|
    ensures j <= d
    ensures forall m :: j <= m < d ==> IsSpace(t[m])
    ensures j == 0 || !IsSpace(t[j - 1])
  {
    if d > 0 && IsSpace(t[d - 1]) then SpaceRunStart(t, d - 1) else d
  }

  /** The direct reading of the pattern: find the first digit, walk back
      over whitespace, and take the sign just before it if there is one.
      The number runs greedily from the first digit. */
  function Extract(t: string): (r: Option<Match>)
    ensures r.Some? <==> exists k :: DigitAt(t, k)
    ensures r.Some? ==> |r.value.sign| <= 1 && (r.value.sign == [] || IsSign(r.value.sign[0]))
    ensures r.Some? ==> DecimalText(r.value.number)
  {
    match FirstDigit(t, 0)
    case None => None
    case Some(d) =>
      var j := SpaceRunStart(t, d);
      var number := t[d..NumberEnd(t, d)];
      MatchedNumberIsDecimal(t, d);
      if j > 0 && IsSign(t[j - 1]) then Some(Match([t[j - 1]], number))
      else Some(Match("", number))
  }

  /** `extract_number`: the signed value of the first number in the text,
      or nothing when the text holds no digit. */
  function ExtractNumber(t: string): (r: Option<real>)
    ensures r.Some? <==> exists k :: DigitAt(t, k)
    ensures r.Some? ==> r.value == MatchValue(Extract(t).value)
  {
    match Extract(t)
    case None => None
    case Some(m) => Some(MatchValue(m))
  }

  /** Positions where the pattern cannot match do not change what the
      search finds. */
  lemma {:induction false} SearchSkips(t: string, i: nat, k: nat)
    requires i <= k <= |t|
    requires forall m :: i <= m < k ==> MatchAt(t, m).None?
    ensures Search(t, i) == Search(t, k)
    decreases k - i
  {
    if i < k {
      SearchSkips(t, i + 1, k);
    }
  }

  /** The first non-space position after a whitespace run that ends at a
      digit is that digit. */
  lemma SkipSpacesReachesDigit(t: string, j: nat, d: nat)
    requires j <= d < |t| && IsDigit(t[d])
    requires forall m :: j <= m < d ==> IsSpace(t[m])
    ensures SkipSpaces(t, j) == d
  {
  }

  /** A non-space, non-digit character stops any match that would have to
      reach across it. */
  lemma NoMatchBefore(t: string, m: nat, j: nat, d: nat)
    requires m < j <= d < |t|
    requires forall q :: 0 <= q < d ==> !IsDigit(t[q])
    requires !IsSpace(t[j - 1])
    requires m + 1 == j ==> !IsSign(t[m])
    ensures MatchAt(t, m).None?
  {
    var a := SkipSpaces(t, m);
    assert a <= j - 1;
    if m + 1 < j {
      var b := SkipSpaces(t, m + 1);
      assert b <= j - 1;
    }
  }

  /** Without a digit the pattern matches nowhere. */
  lemma NoDigitNoMatch(t: string)
    requires forall k :: 0 <= k < |t| ==> !IsDigit(t[k])
    ensures Search(t, 0).None?
  {
    forall m | 0 <= m <= |t| ensures MatchAt(t, m).None? {
      var a := SkipSpaces(t, m);
      if m < |t| {
        var b := SkipSpaces(t, m + 1);
      }
    }
    SearchSkips(t, 0, |t|);
  }

  /** The pattern tried at the sign just before a whitespace run that
      ends at a digit takes the sign. */
  lemma MatchAtSign(t: string, j: nat, d: nat)
    requires 0 < j <= d < |t| && IsDigit(t[d]) && IsSign(t[j - 1])
    requires forall m :: j <= m < d ==> IsSpace(t[m])
    ensures MatchAt(t, j - 1) == Some(Match([t[j - 1]], t[d..NumberEnd(t, d)]))
  {
    SkipSpacesReachesDigit(t, j, d);
  }

  /** The pattern tried at the start of a whitespace run that ends at a
      digit matches without a sign. */
  lemma MatchAtRun(t: string, j: nat, d: nat)
    requires j <= d < |t| && IsDigit(t[d])
    requires forall m :: j <= m < d ==> IsSpace(t[m])
    ensures MatchAt(t, j) == Some(Match("", t[d..NumberEnd(t, d)]))
  {
    SkipSpacesReachesDigit(t, j, d);
    assert !IsSign(t[j]) by {
      if j < d {
        assert IsSpace(t[j]);
      }
    }
  }

  /** The search passes over every position before the whitespace run (and
      its sign) that precedes the first digit. */
  lemma SearchSkipsToRun(t: string, j: nat, d: nat, s: nat)
    requires j <= d < |t| && IsDigit(t[d])
    requires forall q :: 0 <= q < d ==> !IsDigit(t[q])
    requires j == 0 || !IsSpace(t[j - 1])
    requires s == (if j > 0 && IsSign(t[j - 1]) then j - 1 else j)
    ensures Search(t, 0) == Search(t, s)
  {
    forall m | 0 <= m < s ensures MatchAt(t, m).None? {
      NoMatchBefore(t, m, j, d);
    }
    SearchSkips(t, 0, s);
  }

  /** With a first digit at `d`, the leftmost match starts at the sign
      before the whitespace run that precedes `d`, or at that run when no
      sign is there. */
  lemma LeftmostMatchAtFirstDigit(t: string, d: nat)
    requires FirstDigit(t, 0) == Some(d)
    ensures Extract(t) == Search(t, 0)
  {
    var j := SpaceRunStart(t, d);
    var number := t[d..NumberEnd(t, d)];
    var signed := j > 0 && IsSign(t[j - 1]);
    var s := if signed then j - 1 else j;
    SearchSkipsToRun(t, j, d, s);
    if signed {
      MatchAtSign(t, j, d);
      assert Extract(t) == Some(Match([t[j - 1]], number));
    } else {
      MatchAtRun(t, j, d);
      assert Extract(t) == Some(Match("", number));
    }
  }

  /** The direct reading agrees with `re.search` on every text: both find
      the same sign and number. */
  lemma ExtractIsLeftmostMatch(t: string)
    ensures Extract(t) == Search(t, 0)
  {
    match FirstDigit(t, 0)
    case None => NoDigitNoMatch(t);
    case Some(d) => LeftmostMatchAtFirstDigit(t, d);
  }

  /** The number the scale text is parsed to is the value of the leftmost
      match of the pattern, and exists exactly when the text has a digit. */
  lemma ExtractNumberIsSearch(t: string)
    ensures Search(t, 0).Some? <==> exists k :: DigitAt(t, k)
    ensures Search(t, 0).Some? ==> DecimalText(Search(t, 0).value.number)
                                   && ExtractNumber(t) == Some(MatchValue(Search(t, 0).value))
    ensures Search(t, 0).None? ==> ExtractNumber(t).None?
  {
    ExtractIsLeftmostMatch(t);
  }

  lemma ValueOf19158()
    ensures DecimalText("191.58") && NumberValue("191.58") == 191.58
  {
    var n := "191.58";
    assert SkipDigits(n, 0) == 3;
    assert SkipDigits(n, 4) == 6;
    assert n[..3] == "191" && n[4..] == "58";
    assert Pow10(2) == 100;
    assert DigitsValue("1") == 1;
    assert "19"[..1] == "1";
    assert DigitsValue("19") == 19;
    assert "191"[..2] == "19";
    assert DigitsValue("191") == 191;
    assert "58"[..1] == "5";
    assert DigitsValue("58") == 58;
  }

  lemma ValueOf7235()
    ensures DecimalText("72.35") && NumberValue("72.35") == 72.35
  {
    var n := "72.35";
    assert SkipDigits(n, 0) == 2;
    assert SkipDigits(n, 3) == 5;
    assert n[..2] == "72" && n[3..] == "35";
    assert Pow10(2) == 100;
    assert "72"[..1] == "7";
    assert DigitsValue("72") == 72;
    assert "35"[..1] == "3";
    assert DigitsValue("35") == 35;
  }

  /** Whitespace between the sign and the digits is allowed. */
  lemma ExtractSpacedNegative()
    ensures ExtractNumber("-  191.58") == Some(-191.58)
  {
    var t := "-  191.58";
    assert FirstDigit(t, 0) == Some(3);
    assert SpaceRunStart(t, 3) == 1;
    assert NumberEnd(t, 3) == 9;
    assert t[3..9] == "191.58";
    ValueOf19158();
  }

  /** The simulated reading parses to 72.35. */
  lemma ExtractSimulated()
    ensures ExtractNumber(SimulatedReading) == Some(72.35)
  {
    var u := SimulatedReading;
    assert FirstDigit(u, 0) == Some(4);
    assert SpaceRunStart(u, 4) == 4;
    assert NumberEnd(u, 4) == 9;
    assert u[4..9] == "72.35";
    ValueOf7235();
  }

  /** Text without digits gives no number; a sign separated from the digits
      by anything but whitespace is not taken; a trailing point is kept. */
  lemma ExtractOtherExamples()
    ensures ExtractNumber("ERR") == None
    ensures ExtractNumber("-x5") == Some(5.0)
    ensures ExtractNumber("12.") == Some(12.0)
  {
    assert !DigitAt("ERR", 0) && !DigitAt("ERR", 1) && !DigitAt("ERR", 2);
    var x := "-x5";
    assert FirstDigit(x, 0) == Some(2);
    assert SpaceRunStart(x, 2) == 2;
    assert NumberEnd(x, 2) == 3;
    assert x[2..3] == "5";
    assert SkipDigits("5", 0) == 1;
    assert "5"[..1] == "5";
    assert DigitsValue("5") == 5;
    var w := "12.";
    assert FirstDigit(w, 0) == Some(0);
    assert NumberEnd(w, 0) == 3;
    assert w[0..3] == w;
    assert SkipDigits(w, 0) == 2;
    assert w[..2] == "12" && w[3..] == [];
    assert "12"[..1] == "1";
    assert DigitsValue("12") == 12;
  }

  /** A reading of exactly -150 g. */
  lemma ExtractMinus150()
    ensures ExtractNumber("-150") == Some(-150.0)
  {
    var t := "-150";
    assert FirstDigit(t, 0) == Some(1);
    assert SpaceRunStart(t, 1) == 1;
    assert NumberEnd(t, 1) == 4;
    assert t[1..4] == "150";
    var n := "150";
    assert SkipDigits(n, 0) == 3;
    assert n[..3] == n;
    assert "15"[..1] == "1";
    assert "150"[..2] == "15";
    assert DigitsValue("150") == 150;
  }

  /** Only the first decimal point belongs to the number: "1.2.3" reads
      as 1.2. */
  lemma ExtractStopsAtSecondPoint()
    ensures ExtractNumber("1.2.3") == Some(1.2)
  {
    var t := "1.2.3";
    assert FirstDigit(t, 0) == Some(0);
    assert SpaceRunStart(t, 0) == 0;
    assert SkipDigits(t, 0) == 1;
    assert SkipDigits(t, 2) == 3;
    assert NumberEnd(t, 0) == 3;
    assert t[0..3] == "1.2";
    var n := "1.2";
    assert SkipDigits(n, 0) == 1;
    assert SkipDigits(n, 2) == 3;
    assert n[..1] == "1" && n[2..] == "2";
    assert DigitsValue("1") == 1;
    assert DigitsValue("2") == 2;
    assert Pow10(1) == 10;
  }
}

=== FILE: wrappers.dfy ===
/** Optional values and error-carrying results, used wherever the Python
    code returns `None` or raises. */
module Wrappers {

  datatype Option<+T> = None | Some(value: T)

  datatype Result<+T, +E> = Ok(value: T) | Err(error: E)
}
